=== FILE: README.md ===
# Adventure Terminal: a Dafny model of its core

Adventure Terminal is a text adventure on a grid of world cells. A player types a
prompt, a language model answers with narration and actions, and the server and
client apply those actions: move the player, create cells, add objects, leave
traces. Players sharing a cell see each other arrive and leave through a presence
pipeline built on a message broker.

This project models the rules of that core as pure Dafny functions over immutable
data and proves what they promise.

- **Presence pipeline.**
  - `PresenceBus`: the in-process registry of callbacks per cell.
  - `PresenceBridge`: the start-once consumer bridge and its per-message rule.
  - `PresencePublisher`: the cached producer and its single retry after a
    "disconnected" error.
  - `PresenceWire`: the JSON text of an event.
  - `Json`: the part of `JSON.parse` and `JSON.stringify` the pipeline relies
    on.
  - `BrokerClient`: broker-list parsing, the memoised client and topic
    provisioning.
  - `PresenceListener`: the browser-side listener that turns events into journal
    entries.
- **Routes.** `MoveRoute` and `TeleportRoute` model the two test routes over an
  in-memory store (`WorldStore`). Each request returns the store afterwards, the
  presence events published and the HTTP reply.
- **Game rules.**
  - `GameRules`: direction offsets, move priority, and the north/south/east/west
    classification.
  - `Traces`: trace creation, the active filter and ordering, and decay.
  - `WorldCellActions`: the world-cell queries and creation.
  - `PromptProcessor`: the prompt pipeline on the server.
  - `Commands`: the command dispatcher on the client.
- **Client state.**
  - `UserState`, `UserContext` and `UserStore`: the user state.
  - `WorldCellState`: the world-cell cache.
  - `JournalState`: the journal and terminal history.
  - `AsciiMap`: the map grid.
  - `Session`: the session managers.

An awaited call that can reject is an input in one of three forms:
- an `Outcome` or `Result` value;
- a `fault` naming the step that rejects;
- a `Rejections` record.

Some calls are single and their rejection changes nothing before it
propagates; these carry no fault input and are listed under "Left out".
Server replies are inputs too. Timestamps are an integer clock where expiry
matters and opaque strings elsewhere.

Where the code and its documented intent differ, the model follows the code:
- **The bridge does not skip malformed records.** It passes whatever
  `JSON.parse` returns to `pushToBus` without checking its shape.
  - Text that is not JSON makes the handler throw (`ParseThrew`).
  - The text `null` throws too, because `null.worldCellId` cannot be read
    (`NullThrew`).
  - Any other JSON value is pushed. It reaches the callbacks of its
    `worldCellId` when that is a string, and nobody otherwise. `{}` and `1`
    reach nobody, and a record with extra fields is forwarded as it is.
- **The start-once guard is not race-safe.** `started` is set only after every
  await. Only sequential calls are modelled, and no claim is made about calls
  that overlap.

## Model

| member | source | states |
|---|---|---|
| PresenceBus.Subscribe | src/lib/events/presenceBus.ts:5-9 | the registry keeps set semantics per cell; the callback is registered under its cell and every other cell's entry is unchanged |
| PresenceBus.Dispose | src/lib/events/presenceBus.ts:8 | the disposer removes exactly that callback from that cell; the others of the cell and all other cells are unchanged, and the entry is kept |
| PresenceBus.Push | src/lib/events/presenceBus.ts:11-15 | a push for a cell id (the pushed value's `worldCellId`) invokes exactly the callbacks registered under it, each once; a cell without an entry invokes nothing |
| PresenceBus.SubscribeThenPushInvokesOnce | src/lib/events/presenceBus.ts:5-14 | after subscribing a callback to a cell, a push for that cell invokes it exactly once |
| PresenceBus.PushInvokesEachSubscriberOnce | src/lib/events/presenceBus.ts:12-14 | every callback registered under the event's cell is invoked exactly once per push |
| PresenceBus.PushIgnoresOtherCells | src/lib/events/presenceBus.ts:12-14 | a callback not registered under the event's cell is never invoked |
| PresenceBus.SubscribeIdempotent | src/lib/events/presenceBus.ts:6-7 | subscribing the same callback twice equals subscribing it once |
| PresenceBus.SubscribeNewRunsLast | src/lib/events/presenceBus.ts:7 | callbacks run in first-registration order: a new one runs after all earlier ones |
| PresenceBus.DisposeUndoesSubscribe | src/lib/events/presenceBus.ts:5-8 | the disposer exactly undoes a fresh subscription, leaving the (possibly empty) entry |
| PresenceBus.DisposeStopsDelivery | src/lib/events/presenceBus.ts:8 | after disposal the callback is no longer invoked; the others still are, in the same order |
| PresenceBus.DisposeLastLeavesEmptyEntry | src/lib/events/presenceBus.ts:8-13 | disposing the last callback leaves an empty entry and a later push invokes nothing |
| PresenceBridge.StepsAttempted | src/lib/events/presenceBridge.ts:8-19 | a start attempts between one and all five steps, ending exactly at the step the failure names, and all five when nothing rejects |
| PresenceBridge.Start | src/lib/events/presenceBridge.ts:6-21 | an already started bridge does nothing; otherwise the steps run in order and stop at the step that rejects with group `presence-broadcaster` and topic `presence.events` not from the beginning, and `started` becomes true only when every step completed |
| PresenceBridge.StartedStaysPut | src/lib/events/presenceBridge.ts:7 | once started, any number of sequential further calls change nothing |
| PresenceBridge.FirstSuccessCreatesOneConsumer | src/lib/events/presenceBridge.ts:4-20 | after a first successful start the process has exactly one consumer, whatever later calls meet |
| PresenceBridge.ConsumersBounded | src/lib/events/presenceBridge.ts:7-20 | sequential calls create no more consumers than there were calls |
| PresenceBridge.CellKey | src/lib/events/presenceBus.ts:11-13 | a value names a registry key only as an object whose `worldCellId` property is that string |
| PresenceBridge.EachMessage | src/lib/events/presenceBridge.ts:14-18 | a record without a value is dropped; text `JSON.parse` rejects throws; `null` throws; any other parsed value is pushed, reaching exactly the callbacks of its string `worldCellId` and nobody when there is none |
| PresenceBridge.PublishedRecordReachesSubscribers | src/lib/events/presenceBridge.ts:16-17 | a record written by the publisher reaches exactly the callbacks of its cell, which receive the event published |
| PresenceBridge.AnyObjectWithCellIsForwarded | src/lib/events/presenceBridge.ts:15-17 | any object of strings with `worldCellId` c, in any key order and after leading whitespace, reaches exactly the callbacks of c; nothing checks its other fields |
| PresenceBridge.SpacedRecordIsForwarded | src/lib/events/presenceBridge.ts:16-17 | whitespace between a record's tokens does not change which callbacks it reaches |
| PresenceBridge.NonEventsReachNobody | src/lib/events/presenceBridge.ts:16-17 | `null` throws; `1` and `{}` are pushed and reach nobody |
| PresenceWire.FromJson | src/lib/events/presenceKafka.ts:4-9 | a parsed value is an event exactly when it is an object whose four properties are strings and whose `type` names a kind, and the event holds those strings |
| PresenceWire.FromToJson | src/lib/events/presenceKafka.ts:36 | reading the parsed form of an event gives the event back |
| PresenceWire.DecodeEncode | src/lib/events/presenceBridge.ts:16 | `JSON.parse` of the publisher's text is exactly the event's object, and reads back exactly the event |
| PresenceWire.EncodeInjective | src/lib/events/presenceKafka.ts:36 | distinct events never share a wire text |
| Json.Get | src/lib/events/presenceBridge.ts:16 | a property is present exactly when some member has its name, and its value is that of the last such member |
| Json.ObjectRoundTrip | src/lib/events/presenceBridge.ts:16 | `JSON.parse` of the `JSON.stringify` text of an object of strings gives back its members in order |
| Json.LeadingSpaceIgnored | src/lib/events/presenceBridge.ts:16 | whitespace before a JSON text does not change what it parses to |
| Json.SpacedObject | src/lib/events/presenceBridge.ts:16 | a one-member object of strings parses to the same value whatever whitespace surrounds its tokens |
| PresencePublisher.RecordOf | src/lib/events/presenceKafka.ts:33-38 | every send targets `presence.events`, keyed by the cell id, with a value that decodes to the event |
| PresencePublisher.GetProducer | src/lib/events/presenceKafka.ts:15-28 | waits for provisioning, reuses a cached producer, builds at most one, and connects only a newly built producer that is not ready |
| PresencePublisher.Publish | src/lib/events/presenceKafka.ts:30-61 | at most two sends of the same record; a retry only after a "disconnected" error, with `ready` reset and set again only by a successful reconnect; other errors, reconnect and second-send failures propagate; the log line only on success |
| PresencePublisher.ProducerBuiltAtMostOnce | src/lib/events/presenceKafka.ts:18-19 | across any run of publishes the producer is built at most once |
| PresencePublisher.CachedProducerIsReused | src/lib/events/presenceKafka.ts:18 | with a cached producer, getting the producer neither builds nor connects |
| PresencePublisher.RetryAfterDisconnectDelivers | src/lib/events/presenceKafka.ts:41-51 | a "disconnected" failure followed by a good reconnect delivers on the second send, with exactly two sends |
| BrokerClient.ParseBrokers | src/lib/kafka.ts:12 | an unset variable gives `localhost:29092`; a set one gives only non-empty, trimmed, comma-free addresses |
| BrokerClient.ParseJoinedBrokers | src/lib/kafka.ts:12 | a comma-joined list of clean addresses parses back to the same list in the same order |
| BrokerClient.BlankEnvYieldsNoBrokers | src/lib/kafka.ts:12 | a set but blank variable (only commas and white space) gives an empty list, not the default |
| BrokerClient.GetKafka | src/lib/kafka.ts:39-43 | the first call builds the client with id `adventure-terminal` and the parsed brokers; later calls return the stored client |
| BrokerClient.GetKafkaIsStable | src/lib/kafka.ts:41 | every later call returns the identical client, whatever the environment says by then |
| BrokerClient.Provision | src/lib/kafka.ts:20-34 | connects the admin, requests `presence.events` with 6 partitions and replication 1, and disconnects whenever the connect succeeded; success needs all three; the error is the connect's, else the disconnect's from the `finally`, else the topic request's |
| BrokerClient.TopicsAfter | src/lib/kafka.ts:24-29 | a resolved topic request leaves the presence topic on the broker; an existing topic and every other topic are left as they were |
| BrokerClient.ProvisionIsIdempotent | src/lib/kafka.ts:20-34 | for any outcomes: a provisioning that resolves leaves the topic on the broker, one that never requests it leaves the broker as it was, and after one that resolved, provisioning again changes nothing however it ends |
| WorldStore.CellAt | src/stores/worldCellStore.ts:41-44 | the first cell at the coordinates, or none exactly when no cell is there |
| WorldStore.AddCellKeepsValid | src/actions/worldCell.ts:79-87 | a new row with a fresh id at free coordinates keeps ids and coordinates unique |
| WorldStore.Relocate | src/app/api/test/move/route.ts:51-53 | relocation changes only the user's cell |
| WorldStore.RelocateKeepsValid | src/app/api/test/move/route.ts:51-53 | relocation keeps the store valid |
| MoveRoute.Target | src/app/api/test/move/route.ts:37-47 | the target is one step in the direction; an existing cell there is reused, else a `.`/`Unknown`/`A mysterious place` cell is made |
| MoveRoute.Move | src/app/api/test/move/route.ts:15-83 | 400 `missing_params`, 404 `user_not_ready` and 500 `failed_to_move` with their conditions; on a ready request every rejection of a call that is made is a 500; on success the user is moved before anything is published and exactly `user_left` for the old cell then `user_entered` for the target are published |
| MoveRoute.MoveKeepsValid | src/app/api/test/move/route.ts:44-53 | a move keeps cell ids and coordinates unique, given a fresh id for a new cell |
| MoveRoute.MovedUserStandsInTarget | src/app/api/test/move/route.ts:51-53 | after a successful move the user stands in the target cell |
| MoveRoute.NorthThenSouthReturns | src/app/api/test/move/route.ts:37-47 | north then south returns the user to the original cell without creating another |
| TeleportRoute.CellFromBody | src/app/api/test/teleport/route.ts:58-67 | a created cell takes the body's coordinates and texts, each falsy text falling back to its default |
| TeleportRoute.Resolve | src/app/api/test/teleport/route.ts:43-67 | a truthy cell id takes precedence and must exist; otherwise both coordinates must be numbers, and an absent target is to be created |
| TeleportRoute.Teleport | src/app/api/test/teleport/route.ts:19-109 | 400 `missing_userId`, 404 `user_not_found`, 404 `world_cell_not_found`, 400 `missing_coordinates` and 500 `failed_to_teleport` with their conditions; on a ready request every rejection of a call that is made is a 500; `user_left` only for a previous cell and always before `user_entered` |
| TeleportRoute.TeleportKeepsValid | src/app/api/test/teleport/route.ts:58-77 | a teleport keeps the store valid, given a fresh id |
| TeleportRoute.ByIdMatchesByCoordinates | src/app/api/test/teleport/route.ts:43-67 | teleporting to a cell by id or by its coordinates has the same effect and creates nothing |
| GameRules.Offset | src/app/api/test/move/route.ts:37-42 | north y+1, south y-1, east x+1, west x-1; anything else stays put |
| GameRules.StepIsNeighbourOrStay | src/stores/userStore.ts:184-190 | a step reaches a 4-neighbour or stays put, and opposite steps cancel |
| GameRules.ChosenMove | src/actions/promptProcessor.ts:257-269 | at most one move, chosen in the priority north, south, east, west, and one exactly when some `move_*` action is present |
| GameRules.ClassifyIsLastAt | src/contexts/UserContext.tsx:201-213 | each direction holds the last cell at its offset; the own cell and diagonals are never filed |
| Traces.CreateUserTrace | src/actions/traces.ts:6-30 | type defaults to `FOOTPRINT` and duration to 24 hours; expiry is now plus the duration; intensity starts at 100 |
| Traces.FetchActiveTracesInCell | src/actions/traces.ts:32-47 | exactly the unexpired traces of the cell, without the excluded user's, each with its multiplicity, newest first |
| Traces.ExcludeRemovesOnlyThatUser | src/actions/traces.ts:40 | excluding a user removes only that user's traces |
| Traces.DecayAll | src/actions/traces.ts:50-69 | each trace loses its volatility and is kept exactly when the result is not negative, so every survivor is non-negative |
| Traces.DecayToZeroIsKept | src/actions/traces.ts:56 | a trace decaying to exactly 0 is kept |
| Traces.CreatedTraceActiveUntilExpiry | src/actions/traces.ts:6-47 | a created trace is listed for its cell, to anyone but its author, exactly while the clock is before its expiry |
| Traces.DecayAllAppend | src/actions/traces.ts:53-68 | each trace's decay depends on that trace alone, so a list decays as its two parts do |
| Traces.UpdateTraceIntensity | src/actions/traces.ts:50-69 | rejects exactly when a write rejects; a full run leaves the decayed store; a rejected run has written the traces before the failing one and left it and the rest untouched |
| Traces.RejectedRunWritesPrefixOfFullRun | src/actions/traces.ts:53-68 | a rejected run writes a prefix of the full run, and decaying the untouched rest completes it |
| Traces.DecayRoundsOfOne | src/actions/traces.ts:54-66 | after k rounds a non-strengthening trace survives exactly when k volatility steps leave it non-negative |
| PromptProcessor.TraceLine | src/actions/promptProcessor.ts:60-66 | `TYPE: description`, or `TYPE` alone when the description is missing or empty |
| PromptProcessor.FormatTraces | src/actions/promptProcessor.ts:55-68 | `Aucune trace` for a missing or empty list, `Aucune trace active` when none is unexpired, otherwise starts with the first active line |
| PromptProcessor.FormatActive | src/actions/promptProcessor.ts:59-67 | with an unexpired trace, the summary is the `, `-join of the unexpired lines |
| PromptProcessor.FormatTracesSnoc | src/actions/promptProcessor.ts:59-67 | one more unexpired trace appends `, ` and its line |
| PromptProcessor.HandleMovement | src/actions/promptProcessor.ts:308-355 | creates the target only when absent and a draft is given, with the defaults; throws when it stays absent; else a footprint at the origin and then the relocation |
| PromptProcessor.Effects | src/actions/promptProcessor.ts:271-302 | the object first with `""` defaults, then the trace, then the cell update; trace and update name the cell held before the move |
| PromptProcessor.ExecuteCommandsServerSide | src/actions/promptProcessor.ts:248-303 | throws for a user without a cell, and for a move whose absent target has no draft, after only that lookup; otherwise exactly the movement calls then the object, trace and cell update, which name the origin |
| PromptProcessor.FootprintBeforeRelocation | src/actions/promptProcessor.ts:335-347 | the call right before a relocation is the `FOOTPRINT` trace `Moved <direction>` at the origin |
| PromptProcessor.ProcessPrompt | src/actions/promptProcessor.ts:129-157 | the model's answer when there is one, else the narration `Le vent a emporté votre demande. Veuillez réessayer.` with no action; it never rejects |
| PromptProcessor.MainPlan | src/actions/promptProcessor.ts:164-230 | the PROMPT entry and the user lookup; an unknown user stops there; otherwise the neighbour and journal reads, then exactly the executor's calls |
| PromptProcessor.ProcessUserPrompt | src/actions/promptProcessor.ts:164-243 | success exactly when no call of the happy path rejects and nothing throws, and then exactly the happy-path calls and the RESPONSE entry; on any error the completed prefix, an ERROR entry and `success: false` with the generic message; refresh always requested |
| PromptProcessor.CatchErrorWrite | src/actions/promptProcessor.ts:230-241 | a rejected ERROR entry is caught: the reply is unchanged and only that last call is missing; with a resolving write or on success nothing changes |
| PromptProcessor.ErrorWriteRejectionOnlyDropsEntry | src/actions/promptProcessor.ts:226-241 | for any prompt run that fails, a rejected ERROR write leaves the same reply and exactly the calls before the ERROR entry |
| PromptProcessor.PromptSucceedsIffExecutorDoes | src/actions/promptProcessor.ts:196-230 | without a rejection, a user in a cell succeeds exactly when the executor does not throw, with exactly the executor's calls after the context reads |
| PromptProcessor.FallbackLeavesWorldUntouched | src/actions/promptProcessor.ts:151-156 | when the model fails, the fallback narration is journaled as a success and nothing in the world is written |
| Commands.DraftCell | src/lib/commands/index.ts:21-27 | the cell asked for carries the draft's fields or `.`, `Unknown`, `A mysterious place` |
| Commands.MovementEffects | src/lib/commands/index.ts:12-100 | one movement branch at most, by priority, targeting the neighbour; the move is requested only after the creation resolved; its errors are caught |
| Commands.ExecuteCommand | src/lib/commands/index.ts:5-124 | movement errors are contained; the object follows with `""` defaults; an object rejection skips the trace; the trace uses `""` for a missing user or cell id; nothing else is requested |
| Commands.ClientAndServerAgreeOnMove | src/lib/commands/index.ts:12-35 | client and server move the same user to the same neighbour |
| UserState.Reduce | src/contexts/UserContext.tsx:55-71 | each action replaces exactly its own field; an unknown action changes nothing |
| UserState.ReduceIdempotentAndCommuting | src/contexts/UserContext.tsx:55-71 | an action dispatched twice equals once; actions on different fields commute |
| UserState.AfterAddObject | src/stores/userStore.ts:209-219 | on success user and inventory are set together, inventory falling back to `[]`; a null reply or a rejection sets the error |
| UserState.SurroundingsMatchStore | src/stores/userStore.ts:127-160 | classifying the 3x3 area query of a valid store yields exactly the store's cell at each neighbour |
| UserContext.MoveUser | src/contexts/UserContext.tsx:347-367 | nothing without a user in a cell; otherwise a footprint at the origin, then the connection to the neighbour |
| UserContext.AddObjectToInventory | src/contexts/UserContext.tsx:369-393 | without a user id the error `No user found` and no server call; otherwise one call |
| UserContext.AddObjectMatchesStore | src/contexts/UserContext.tsx:379-387 | the context's two dispatches reach the same state as the store's single update |
| UserContext.WithUserWorldCell | src/contexts/UserContext.tsx:147-150 | the shown cell becomes the server's cell at those coordinates, or the given one when there is none; a rejected lookup changes nothing; no other field changes |
| UserContext.UpdateSurroundingCellsDiscarding | src/contexts/UserContext.tsx:175-227 | in the current code, the surroundings are never changed |
| UserContext.ClassificationIsDiscarded | src/contexts/UserContext.tsx:201-215 | a northern neighbour is classified and then not stored |
| UserContext.UpdateSurroundingCells | src/contexts/UserContext.tsx:175-227 | corrected: the surroundings become the classification of the area and the user's cell is refreshed; errors are recorded |
| UserStore.SettersChangeOwnField | src/stores/userStore.ts:53-58 | each setter changes only its own field |
| UserStore.UpdateSurroundingCells | src/stores/userStore.ts:115-174 | nothing without a cell; otherwise the area is classified into the surroundings, or its error recorded |
| UserStore.ContextUpdateIsStoreUpdatePlusCell | src/stores/userStore.ts:145-162 | the corrected context update is the store's update plus the refreshed cell |
| UserStore.GetMe | src/stores/userStore.ts:82-113 | loading on and error cleared while the request is out, loading off on every exit; a user with a cell gets surroundings, cell, inventory and a journal refresh, and a failed area query only records its error; one without is positioned first |
| UserStore.GetMeShowsWorldNeighbours | src/stores/userStore.ts:82-160 | after `getMe` for a user in a cell of a valid world, each direction shows exactly the world's cell at that neighbour |
| UserStore.AreaShownAround | src/stores/userStore.ts:115-162 | a state holding the classified area query shows the world's neighbours |
| UserStore.GetUser | src/stores/userStore.ts:60-67 | the reply becomes the user, or its error is recorded; nothing else changes |
| UserStore.UpdateUser | src/stores/userStore.ts:69-80 | a rejected update only records its error; otherwise the user, the user's cell and the inventory (empty when missing) are the reply's, and for a user in a cell the one area query follows, whose result fills the surroundings or whose error is recorded with the surroundings kept |
| UserStore.MoveRequest | src/stores/userStore.ts:176-194 | nothing without a user in a cell; otherwise one connection to the neighbour |
| UserStore.MoveUser | src/stores/userStore.ts:176-195 | nothing without a user in a cell; otherwise the connection to the neighbour first, then the calls and the resulting state of the store's `updateUser` with the server's reply |
| UserStore.MoveShowsWorldAroundNewCell | src/stores/userStore.ts:69-80 | after a move the server answers with the user in cell `c` of a valid world, the store shows `c` and exactly the world's neighbour of `c` in each direction |
| UserStore.ContextMoveAddsOnlyFootprint | src/stores/userStore.ts:192-194 | the context's move request is the store's preceded by a footprint |
| UserStore.UnknownDirectionStaysPut | src/stores/userStore.ts:184-190 | an unknown direction connects the user to the cell they are in |
| UserStore.AddObjectToInventory | src/stores/userStore.ts:197-225 | without a user the error `No user found` and no call; otherwise the reply is applied in one update |
| WorldCellActions.FetchWorldCells | src/actions/worldCell.ts:6-28 | every cell, ordered by y then x ascending, or the fixed error |
| WorldCellActions.FetchWorldCellsInArea | src/actions/worldCell.ts:30-67 | exactly the cells in the closed rectangle with their multiplicities, in (y, x) order, or the fixed error |
| WorldCellActions.CoveringAreaIsEverything | src/actions/worldCell.ts:39-53 | an area covering every cell gives the same list as fetching all |
| WorldCellActions.CreateWorldCell | src/actions/worldCell.ts:69-100 | the new row holds exactly the given fields; a taken coordinate or a fault gives the fixed error |
| WorldCellActions.CreateKeepsValidAndRefusesDuplicate | src/actions/worldCell.ts:79-98 | creation keeps the store valid and a second cell at the same coordinates is refused |
| Sorting.SortBySorted | src/actions/worldCell.ts:10-15 | the ordering is a permutation of its input in key order |
| Sorting.SortBySortedIsIdentity | src/actions/worldCell.ts:50-53 | ordering an already ordered list changes nothing |
| WorldCellState.ErrorText | src/contexts/WorldCellContext.tsx:97 | an `Error`'s message, or the fallback text for anything else thrown |
| WorldCellState.FindIndex | src/stores/worldCellStore.ts:32 | the first position holding the id, none exactly when the id is absent |
| WorldCellState.Upsert | src/stores/worldCellStore.ts:31-39 | an existing id is replaced in place with the length unchanged; a new id is appended |
| WorldCellState.UpsertKeepsOthers | src/stores/worldCellStore.ts:33-36 | cells with other ids keep their values and order |
| WorldCellState.UpsertKeepsIdsUnique | src/contexts/WorldCellContext.tsx:42-49 | unique ids stay unique and the id then finds the upserted cell |
| WorldCellState.UpsertIdempotent | src/contexts/WorldCellContext.tsx:42-49 | upserting twice equals upserting once |
| WorldCellState.GetWorldCellAt | src/contexts/WorldCellContext.tsx:80-82 | the first cached cell at the coordinates (no earlier cell is there), or none when none is there |
| WorldCellState.UpsertThenGetAt | src/stores/worldCellStore.ts:31-44 | after an upsert the coordinate lookup finds the upserted cell |
| WorldCellState.Reduce | src/contexts/WorldCellContext.tsx:34-55 | each setter writes only its field; an update is exactly `Upsert` of the cell (the same id replaced in place, else appended) with the flags kept; reset restores the initial state; unknown actions change nothing |
| WorldCellState.ResetForgetsHistory | src/stores/worldCellStore.ts:67-71 | reset gives the same empty, idle, error-free state whatever came before |
| WorldCellState.Settle | src/contexts/WorldCellContext.tsx:87-100 | loading ends false whatever the outcome |
| WorldCellState.LoadWorldCells | src/contexts/WorldCellContext.tsx:84-101 | nothing when cells are cached; otherwise the fetched list or the error, loading off either way |
| WorldCellState.LoadIsOnce | src/stores/worldCellStore.ts:46-65 | after a non-empty load, later loads change nothing |
| WorldCellState.LoadWorldCellsInArea | src/contexts/WorldCellContext.tsx:103-118 | replaces the cache on success, keeps it and sets the error on failure, loading off |
| WorldCellState.CreateNewWorldCell | src/contexts/WorldCellContext.tsx:120-139 | on success the cell is upserted and returned; on failure the error is set, the cache kept and null returned |
| WorldCellState.CreatedCellIsCached | src/contexts/WorldCellContext.tsx:126-128 | a created cell is found by its id afterwards and ids stay unique |
| JournalState.Reduce | src/contexts/JournalContext.tsx:23-32 | set replaces the list; add appends, keeping earlier entries in order; unknown actions change nothing |
| JournalState.AddAllAppends | src/stores/journalEntryStore.ts:21-24 | adding entries one by one appends them in order after the old ones |
| JournalState.Refresh | src/contexts/JournalContext.tsx:88-95 | fetched entries replace the journal; a failed fetch leaves it unchanged |
| JournalState.LoadFromStorage | src/contexts/JournalContext.tsx:36-49 | `[]` off the browser, for a missing or empty item and for a parse error; else the stored journal or `[]` |
| JournalState.SaveToStorage | src/contexts/JournalContext.tsx:51-62 | writes `{state: {journal}, version: 0}` under `journal-storage` and nothing else |
| JournalState.SaveThenLoad | src/contexts/JournalContext.tsx:36-62 | what was saved loads back unchanged |
| JournalState.Restore | src/contexts/JournalContext.tsx:67-74 | a non-empty stored journal replaces the state; an empty one changes nothing |
| JournalState.RehydrateJournal | src/stores/journalEntryStore.ts:39-44 | rehydration never changes the journal, so an empty one stays empty |
| JournalState.RehydrateHistory | src/stores/historyStore.ts:35-39 | an empty history becomes exactly the two welcome responses; a non-empty one is untouched |
| JournalState.RehydrateHistoryStable | src/stores/historyStore.ts:35-39 | rehydrated history is never empty, and a second rehydration changes nothing |
| AsciiMap.BoundsOf | src/components/Journal/AsciiMap.tsx:29-32 | the tightest box holding every cell, each edge touched by a cell |
| AsciiMap.RenderRow | src/components/Journal/AsciiMap.tsx:38-52 | one row, x ascending, each column what the lookup finds there |
| AsciiMap.RenderGrid | src/components/Journal/AsciiMap.tsx:36-58 | maxY-minY+1 rows in ascending y, each with maxX-minX+1 columns in ascending x |
| AsciiMap.Glyph | src/components/Journal/AsciiMap.tsx:49 | the first cell's map character, or `?` |
| AsciiMap.EveryCellShown | src/components/Journal/AsciiMap.tsx:29-49 | every cell falls inside the grid, and with unique coordinates its position shows its character |
| AsciiMap.Render | src/components/Journal/AsciiMap.tsx:19-100 | loading first, then a truthy error, then the placeholder for no cells, then the grid with a count equal to the number of cells |
| PresenceListener.StreamUrl | src/components/PresenceJournalListener.tsx:33-37 | a stream only with both ids truthy, at `/api/presence/stream/<cell id>` |
| PresenceListener.KeyInjective | src/components/PresenceJournalListener.tsx:50 | with colon-free ids and type, equal keys mean equal events |
| PresenceListener.OnMessage | src/components/PresenceJournalListener.tsx:40-73 | malformed, `connected`, own and other-type frames do nothing; a new key requests the entered or left text once and records the key; the entry is appended only when the write resolves |
| PresenceListener.SameEventHandledOnce | src/components/PresenceJournalListener.tsx:50-52 | a redelivered event requests nothing more, even after a failed write |
| PresenceListener.RepeatedEventOnce | src/components/PresenceJournalListener.tsx:50-63 | a stream repeating one event yields at most one entry |
| Session.OnSession | src/components/UserSessionManager.tsx:19-38 | fetch when authenticated with an id not yet initialised; sign-out resets both refs and clears the user; otherwise nothing |
| Session.SameSessionFetchesOnce | src/components/UserSessionManager.tsx:26 | the same session id seen again fetches nothing more |
| Session.SignOutRearmsFetch | src/components/UserSessionManager.tsx:32-37 | after sign-out, the same id signing in fetches again |
| Session.OnUser | src/components/UserSessionManager.tsx:41-47 | refresh the journal exactly when a truthy user id differs from the last refreshed one |
| Session.RefreshOncePerChange | src/components/UserSessionManager.tsx:41-47 | over any run of renders, consecutive refreshes are for different non-empty ids |
| Session.ProviderEffect | src/components/SessionProvider.tsx:16-26 | fetch only when authenticated with a session user and no local user; clear on sign-out; otherwise nothing |
| Session.ManagersAgreeOnSignOutAndLoading | src/components/SessionProvider.tsx:19-25 | both managers clear the user on sign-out and stay idle while loading |

## Left out

- Broker network behaviour is left out: partitioning, broker retries and the consume loop. Each awaited broker call is an outcome given as input.
- Concurrency is left out. That covers the shared in-flight `connecting` promise, interleaved bridge starts and a bus changed while a push iterates. Calls are taken one at a time.
- The `ready` promise of the broker client is created once, so a rejected provisioning stays rejected for the process. The model takes a fresh outcome per await.
- The language-model request inside `processPrompt`, its prompt text and the generation actions are left out. The parsed answer is an input; when the request, its content or its JSON fails, `processPrompt` returns the fallback narration (`PromptProcessor.ProcessPrompt`).
- Database access, including `getUser`, `updateUser`, `fetchWorldCell`, `updateWorldCell`, the journal and object actions, is replaced by the in-memory `WorldStore`, or shows up as a `Call`/`ClientCall` in a returned plan.
- `fetchWorldCell` and `updateWorldCell` are imported from `src/actions/worldCell.ts`, which does not define them, so their behaviour is assumed:
  - `fetchWorldCell` returns the first cell at (x, y), or null when there is none (`WorldStore.CellAt`);
  - `updateWorldCell` updates the cell with the given id;
  - the user update behind `WorldStore.Relocate` sets only that user's cell.
- Random rarity, floating-point maths and the atmospheric test page are left out; they have no bearing on the rules modelled.
- Auth configuration, the login page, the maintenance and test-user routes, and page layout are left out as plumbing.
- TeleportRoute.Teleport: coordinates are integers or absent. A non-integer JSON number is not modelled.
- Traces.CreateUserTrace: the clock is an integer in milliseconds. Calendar arithmetic, including daylight-saving shifts, is not modelled.
- Browser APIs are not modelled: `localStorage` text, `EventSource` lifecycle and closing, `Notification`. Stored JSON is the `Stored` datatype, and stream frames are the `Frame` datatype.
- AsciiMap.Render: the tooltip texts, the coordinate label and CSS classes are left out. Only the grid, the glyphs and the count are modelled.
- The user context's local-storage persistence and its own `getMe`, `getUser` and `updateUser` wrappers are left out. The store's `getMe`, `getUser` and `updateUser` are modelled, and the context's classification is the same loop.
- PresenceListener.OnMessage: the JSON fields are taken as strings. A frame whose fields are not strings is `Malformed`.
- PresenceBus.Push: callbacks are taken not to throw. A throwing callback (an SSE `send` on a closed stream, for one) skips the later callbacks of the cell, and the throw reaches `eachMessage`; the model only lists the callbacks invoked.
- PresencePublisher.Publish: the console logs are reduced to the one success flag.
- Traces.CreateUserTrace: a single insert. Its rejection writes nothing and propagates to the caller, so it has no fault input.
- Traces.FetchActiveTracesInCell: a single read. Its rejection changes nothing and propagates, so it has no fault input.
- Error values: the stores and contexts record `error as string`, which is the thrown value itself, often an `Error` object. The model records its message as a string. This affects `UserState.AfterAddObject`, `UserStore.UpdateSurroundingCells`, `UserStore.GetMe`, `UserContext.AddObjectToInventory` and the two `UserContext` surroundings updates.
- Json.Parse: a `\u` escape naming a lone surrogate reads as U+FFFD, because a Dafny `char` cannot hold a lone surrogate. Numbers are kept as their text; their value is not computed.
- Json.Parse: only the grammar of sections 2 to 7 of RFC 8259 is modelled. Nesting depth and text length are unbounded.

## Findings

| source | as written | input that shows it | evidently intended | confidence | as-written member | corrected member |
|---|---|---|---|---|---|---|
| src/contexts/UserContext.tsx:201-215 | `updateSurroundingCells` classifies the area into north, south, east and west, then only refreshes the user's cell; the classification is never dispatched | a user at (0, 0) with a cell at (0, 1): north stays empty | dispatch `SET_SURROUNDING_CELLS` with the classification, as `updateUser` and `getMe` in the same file and the user store do | not executed | UserContext.UpdateSurroundingCellsDiscarding, UserContext.ClassificationIsDiscarded | UserContext.UpdateSurroundingCells |

=== FILE: ascii_map.dfy ===
/** The world map panel: a rectangular grid over the bounding box of the
    cached cells, one glyph per position, rows in ascending y. */
module AsciiMap {
  import opened Types
  import opened Wrappers
  import opened WorldStore

  const Unknown: string := "?"

  /** The bounding box of the cells, corners included. */
  datatype Bounds = Bounds(minX: int, maxX: int, minY: int, maxY: int)

  function Min(xs: seq<int>): (m: int)
    requires |xs| > 0
    ensures m in xs && forall i :: 0 <= i < |xs| ==> m <= xs[i]
  {
    if |xs| == 1 then xs[0]
    else
      var rest := Min(xs[1..]);
      assert forall i :: 1 <= i < |xs| ==> xs[i] == xs[1..][i - 1];
      if xs[0] <= rest then xs[0] else rest
  }

  function Max(xs: seq<int>): (m: int)
    requires |xs| > 0
    ensures m in xs && forall i :: 0 <= i < |xs| ==> xs[i] <= m
  {
    if |xs| == 1 then xs[0]
    else
      var rest := Max(xs[1..]);
      assert forall i :: 1 <= i < |xs| ==> xs[i] == xs[1..][i - 1];
      if xs[0] >= rest then xs[0] else rest
  }

  function Xs(cells: seq<WorldCell>): (xs: seq<int>)
    ensures |xs| == |cells| && forall i :: 0 <= i < |cells| ==> xs[i] == cells[i].x
  {
    seq(|cells|, i requires 0 <= i < |cells| => cells[i].x)
  }

  function Ys(cells: seq<WorldCell>): (ys: seq<int>)
    ensures |ys| == |cells| && forall i :: 0 <= i < |cells| ==> ys[i] == cells[i].y
  {
    seq(|cells|, i requires 0 <= i < |cells| => cells[i].y)
  }

  /** `Math.min`/`Math.max` over the coordinates: the tightest box holding
      every cell, each edge touched by some cell. */
  function BoundsOf(cells: seq<WorldCell>): (b: Bounds)
    requires |cells| > 0
    ensures forall c :: c in cells ==> b.minX <= c.x <= b.maxX && b.minY <= c.y <= b.maxY
    ensures exists c :: c in cells && c.x == b.minX
    ensures exists c :: c in cells && c.x == b.maxX
    ensures exists c :: c in cells && c.y == b.minY
    ensures exists c :: c in cells && c.y == b.maxY
  {
    var b := Bounds(Min(Xs(cells)), Max(Xs(cells)), Min(Ys(cells)), Max(Ys(cells)));
    assert forall c :: c in cells ==> b.minX <= c.x <= b.maxX && b.minY <= c.y <= b.maxY by {
      forall c | c in cells ensures b.minX <= c.x <= b.maxX && b.minY <= c.y <= b.maxY {
        var i :| 0 <= i < |cells| && cells[i] == c;
        assert Xs(cells)[i] == c.x && Ys(cells)[i] == c.y;
      }
    }
    var i1 :| 0 <= i1 < |cells| && Xs(cells)[i1] == b.minX;
    assert cells[i1] in cells;
    var i2 :| 0 <= i2 < |cells| && Xs(cells)[i2] == b.maxX;
    assert cells[i2] in cells;
    var i3 :| 0 <= i3 < |cells| && Ys(cells)[i3] == b.minY;
    assert cells[i3] in cells;
    var i4 :| 0 <= i4 < |cells| && Ys(cells)[i4] == b.maxY;
    assert cells[i4] in cells;
    b
  }

  function Width(b: Bounds): int { b.maxX - b.minX + 1 }
  function Height(b: Bounds): int { b.maxY - b.minY + 1 }

  /** The grid the loops build: row `i` is `y = minY + i`, column `j` is
      `x = minX + j`, and each position holds what `getWorldCellAt` finds. */
  predicate IsGrid(cells: seq<WorldCell>, b: Bounds, rows: seq<seq<Option<WorldCell>>>) {
    && |rows| == Height(b)
    && (forall i :: 0 <= i < |rows| ==> |rows[i]| == Width(b))
    && (forall i, j :: 0 <= i < |rows| && 0 <= j < |rows[i]| ==> rows[i][j] == CellAt(cells, b.minX + j, b.minY + i))
  }

  /** Row `y` of the grid: column `j` holds what is found at `minX + j`. */
  predicate IsRow(cells: seq<WorldCell>, b: Bounds, y: int, row: seq<Option<WorldCell>>) {
    |row| == Width(b) && forall j :: 0 <= j < |row| ==> row[j] == CellAt(cells, b.minX + j, y)
  }

  /** The inner loop of `renderMap`: one row, x ascending. */
  method RenderRow(cells: seq<WorldCell>, b: Bounds, y: int) returns (row: seq<Option<WorldCell>>)
    requires b.minX <= b.maxX
    ensures IsRow(cells, b, y, row)
  {
    row := [];
    var x := b.minX;
    while x <= b.maxX
      invariant b.minX <= x <= b.maxX + 1
      invariant |row| == x - b.minX
      invariant forall j :: 0 <= j < |row| ==> row[j] == CellAt(cells, b.minX + j, y)
    {
      row := row + [CellAt(cells, x, y)];
      x := x + 1;
    }
  }

  /** The outer loop of `renderMap`: rows, y ascending. */
  method RenderGrid(cells: seq<WorldCell>, b: Bounds) returns (rows: seq<seq<Option<WorldCell>>>)
    requires b.minX <= b.maxX && b.minY <= b.maxY
    ensures IsGrid(cells, b, rows)
  {
    rows := [];
    var y := b.minY;
    while y <= b.maxY
      invariant b.minY <= y <= b.maxY + 1
      invariant |rows| == y - b.minY
      invariant forall i :: 0 <= i < |rows| ==> IsRow(cells, b, b.minY + i, rows[i])
    {
      var row := RenderRow(cells, b, y);
      rows := rows + [row];
      y := y + 1;
    }
    forall i, j | 0 <= i < |rows| && 0 <= j < |rows[i]|
      ensures rows[i][j] == CellAt(cells, b.minX + j, b.minY + i)
    {
      assert IsRow(cells, b, b.minY + i, rows[i]);
    }
  }

  /** What a position shows: the cell's map character, or `?`. */
  function Glyph(slot: Option<WorldCell>): (g: string)
    ensures slot.None? ==> g == Unknown
    ensures slot.Some? ==> g == slot.value.mapCharacter
  {
    match slot
    case Some(c) => c.mapCharacter
    case None => Unknown
  }

  /** Every known cell falls inside the grid and is what its position shows
      when coordinates are unique; a position shows a cell only if one is
      cached there. */
  lemma {:induction false} EveryCellShown(cells: seq<WorldCell>, rows: seq<seq<Option<WorldCell>>>, c: WorldCell)
    requires |cells| > 0 && c in cells
    requires IsGrid(cells, BoundsOf(cells), rows)
    ensures var b := BoundsOf(cells);
      && 0 <= c.y - b.minY < |rows| && 0 <= c.x - b.minX < |rows[c.y - b.minY]|
      && rows[c.y - b.minY][c.x - b.minX].Some?
      && (CoordsUnique(cells) ==> Glyph(rows[c.y - b.minY][c.x - b.minX]) == c.mapCharacter)
  {
    var b := BoundsOf(cells);
    assert rows[c.y - b.minY][c.x - b.minX] == CellAt(cells, c.x, c.y);
    if CoordsUnique(cells) {
      CellAtUnique(cells, c);
    }
  }

  /** The panel as rendered: loading wins, then a truthy error, then the
      placeholder for an empty cache, then the map with its count label. */
  datatype View =
    | LoadingView
    | ErrorView(message: string)
    | Placeholder
    | MapView(rows: seq<seq<Option<WorldCell>>>, count: nat, bounds: Bounds)

  method Render(cells: seq<WorldCell>, loading: bool, error: Option<string>) returns (v: View)
    ensures loading ==> v == LoadingView
    ensures !loading && Truthy(error) ==> v == ErrorView(error.value)
    ensures !loading && !Truthy(error) && |cells| == 0 ==> v == Placeholder
    ensures !loading && !Truthy(error) && |cells| > 0 ==> (
      && v.MapView? && v.count == |cells| && v.bounds == BoundsOf(cells)
      && IsGrid(cells, v.bounds, v.rows))
  {
    if loading {
      return LoadingView;
    }
    if Truthy(error) {
      return ErrorView(error.value);
    }
    if |cells| == 0 {
      return Placeholder;
    }
    var b := BoundsOf(cells);
    assert cells[0] in cells;
    var rows := RenderGrid(cells, b);
    v := MapView(rows, |cells|, b);
  }
}

=== FILE: broker_client.dfy ===
/** The broker client wrapper: broker-list configuration, the process-wide
    memoised client, and provisioning of the presence topic. The broker
    itself is an oracle: each awaited admin call resolves or rejects. */
module BrokerClient {
  import opened Types
  import opened Wrappers
  import opened Seqs

  /** An error raised by the broker library; its `message` may be missing. */
  datatype BrokerError = BrokerError(message: Option<string>)

  const ClientId: string := "adventure-terminal"
  const DefaultBrokers: seq<string> := ["localhost:29092"]

  datatype TopicSpec = TopicSpec(topic: string, numPartitions: nat, replicationFactor: nat)

  /** The only topic the application provisions. */
  const PresenceTopicSpec: TopicSpec := TopicSpec(PresenceTopic, 6, 1)

  /** ECMAScript WhiteSpace and LineTerminator code points, which
      `String.prototype.trim` removes. */
  predicate IsJsWhitespace(c: char) {
    || c == '\t' || c as int == 0x0B || c as int == 0x0C || c == ' '
    || c as int == 0xA0 || c as int == 0xFEFF
    || c as int == 0x1680 || (0x2000 <= c as int <= 0x200A)
    || c as int == 0x202F || c as int == 0x205F || c as int == 0x3000
    || c == '\n' || c == '\r' || c as int == 0x2028 || c as int == 0x2029
  }

  /** `String.prototype.split(sep)` for a one-character separator: an empty
      input gives one empty part, and adjacent separators give empty parts. */
  function Split(s: string, sep: char): (parts: seq<string>)
    ensures |parts| >= 1
    ensures forall p :: p in parts ==> sep !in p
    decreases |s|
  {
    if |s| == 0 then [""]
    else
      var rest := Split(s[1..], sep);
      if s[0] == sep then [""] + rest
      else [[s[0]] + rest[0]] + rest[1..]
  }

  function TrimStart(s: string): (r: string)
    ensures |r| <= |s| && r == s[|s| - |r|..]
    ensures |r| > 0 ==> !IsJsWhitespace(r[0])
    ensures forall i :: 0 <= i < |s| - |r| ==> IsJsWhitespace(s[i])
  {
    if |s| > 0 && IsJsWhitespace(s[0]) then TrimStart(s[1..]) else s
  }

  function TrimEnd(s: string): (r: string)
    ensures |r| <= |s| && r == s[..|r|]
    ensures |r| > 0 ==> !IsJsWhitespace(r[|r| - 1])
    ensures forall i :: |r| <= i < |s| ==> IsJsWhitespace(s[i])
  {
    if |s| > 0 && IsJsWhitespace(s[|s| - 1]) then TrimEnd(s[..|s| - 1]) else s
  }

  /** `String.prototype.trim`: the longest infix with no white space at either end. */
  function Trim(s: string): (r: string)
    ensures |r| > 0 ==> !IsJsWhitespace(r[0]) && !IsJsWhitespace(r[|r| - 1])
    ensures forall c :: c in r ==> c in s
  {
    var t := TrimStart(s);
    var r := TrimEnd(t);
    assert forall c :: c in r ==> c in t;
    r
  }

  /** A broker address as the parser leaves it: non-empty, no comma, no
      white space at either end. */
  predicate CleanBroker(b: string) {
    |b| > 0 && ',' !in b && !IsJsWhitespace(b[0]) && !IsJsWhitespace(b[|b| - 1])
  }

  /** `.map(s => s.trim()).filter(Boolean)` over the split parts. */
  function CleanParts(parts: seq<string>): (r: seq<string>)
    ensures forall b :: b in r ==> |b| > 0
  {
    if |parts| == 0 then []
    else
      var t := Trim(parts[0]);
      if |t| > 0 then [t] + CleanParts(parts[1..]) else CleanParts(parts[1..])
  }

  /** The broker list of `createKafka`: the default when `KAFKA_BROKERS` is
      unset; otherwise its comma-separated parts, trimmed, empty ones dropped.
      A set but blank variable gives an empty list, because `??` only replaces
      `undefined`. */
  function ParseBrokers(env: Option<string>): (brokers: seq<string>)
    ensures env.None? ==> brokers == DefaultBrokers
    ensures env.Some? ==> forall b :: b in brokers ==> CleanBroker(b)
  {
    match env
    case None => DefaultBrokers
    case Some(s) =>
      var r := CleanParts(Split(s, ','));
      CleanPartsClean(Split(s, ','));
      r
  }

  lemma {:induction false} CleanPartsClean(parts: seq<string>)
    requires forall p :: p in parts ==> ',' !in p
    ensures forall b :: b in CleanParts(parts) ==> CleanBroker(b)
  {
    if |parts| > 0 {
      CleanPartsClean(parts[1..]);
      var t := Trim(parts[0]);
      assert parts[0] in parts;
      if |t| > 0 {
        assert CleanBroker(t);
      }
    }
  }

  /** A part with no separator splits to itself. */
  lemma {:induction false} SplitPlain(x: string, sep: char)
    requires sep !in x
    ensures Split(x, sep) == [x]
  {
    if |x| > 0 {
      assert sep !in x[1..];
      SplitPlain(x[1..], sep);
      assert [x[0]] + x[1..] == x;
    }
  }

  lemma {:induction false} SplitAtSeparator(x: string, sep: char, y: string)
    requires sep !in x
    ensures Split(x + [sep] + y, sep) == [x] + Split(y, sep)
    decreases |x|
  {
    var s := x + [sep] + y;
    if |x| == 0 {
      assert s[0] == sep && s[1..] == y;
    } else {
      assert s[0] == x[0] && s[1..] == x[1..] + [sep] + y;
      assert sep !in x[1..];
      SplitAtSeparator(x[1..], sep, y);
      assert [x[0]] + x[1..] == x;
    }
  }

  /** Split inverts Join for separator-free parts. */
  lemma {:induction false} SplitJoin(parts: seq<string>, sep: char)
    requires |parts| >= 1
    requires forall p :: p in parts ==> sep !in p
    ensures Split(Join(parts, [sep]), sep) == parts
  {
    if |parts| == 1 {
      SplitPlain(parts[0], sep);
    } else {
      SplitJoin(parts[1..], sep);
      SplitAtSeparator(parts[0], sep, Join(parts[1..], [sep]));
      assert [parts[0]] + parts[1..] == parts;
    }
  }

  lemma {:induction false} TrimClean(b: string)
    requires CleanBroker(b)
    ensures Trim(b) == b
  {
  }

  lemma {:induction false} CleanPartsOfClean(parts: seq<string>)
    requires forall b :: b in parts ==> CleanBroker(b)
    ensures CleanParts(parts) == parts
  {
    if |parts| > 0 {
      TrimClean(parts[0]);
      CleanPartsOfClean(parts[1..]);
      assert [parts[0]] + parts[1..] == parts;
    }
  }

  lemma {:induction false} NoCommaInClean(brokers: seq<string>)
    requires forall b :: b in brokers ==> CleanBroker(b)
    ensures forall p :: p in brokers ==> ',' !in p
  {
  }

  lemma {:induction false} SplitJoinedBrokers(brokers: seq<string>)
    requires |brokers| >= 1
    requires forall b :: b in brokers ==> CleanBroker(b)
    ensures Split(Join(brokers, [',']), ',') == brokers
  {
    NoCommaInClean(brokers);
    SplitJoin(brokers, ',');
  }

  lemma {:induction false} ParseSome(s: string)
    ensures ParseBrokers(Some(s)) == CleanParts(Split(s, ','))
  {
  }

  /** Round trip: a comma-joined list of well-formed broker addresses parses
      back to the same list, in the same order. */
  lemma {:induction false} ParseJoinedBrokers(brokers: seq<string>)
    requires |brokers| >= 1
    requires forall b :: b in brokers ==> CleanBroker(b)
    ensures ParseBrokers(Some(Join(brokers, [',']))) == brokers
  {
    SplitJoinedBrokers(brokers);
    CleanPartsOfClean(brokers);
    ParseSome(Join(brokers, [',']));
  }

  /** Parts made only of white space are dropped. */
  lemma {:induction false} CleanPartsBlank(parts: seq<string>)
    requires forall p, i :: p in parts && 0 <= i < |p| ==> IsJsWhitespace(p[i])
    ensures CleanParts(parts) == []
  {
    if |parts| > 0 {
      CleanPartsBlank(parts[1..]);
      var t := Trim(parts[0]);
      assert parts[0] in parts;
    }
  }

  lemma {:induction false} SplitPartsFromString(s: string, sep: char, p: string, k: int)
    requires p in Split(s, sep) && 0 <= k < |p|
    ensures p[k] in s
    decreases |s|
  {
    if |s| > 0 {
      var rest := Split(s[1..], sep);
      if s[0] == sep {
        if p != "" {
          assert p in rest;
          SplitPartsFromString(s[1..], sep, p, k);
        }
      } else if p == [s[0]] + rest[0] {
        if k > 0 {
          assert p[k] == rest[0][k - 1];
          SplitPartsFromString(s[1..], sep, rest[0], k - 1);
        }
      } else {
        assert p in rest[1..];
        SplitPartsFromString(s[1..], sep, p, k);
      }
    }
  }

  /** A set but blank `KAFKA_BROKERS` (only commas and white space, or empty)
      yields no broker at all rather than the default. */
  lemma {:induction false} BlankEnvYieldsNoBrokers(s: string)
    requires forall i :: 0 <= i < |s| ==> s[i] == ',' || IsJsWhitespace(s[i])
    ensures ParseBrokers(Some(s)) == []
  {
    var parts := Split(s, ',');
    forall p, i | p in parts && 0 <= i < |p| ensures IsJsWhitespace(p[i]) {
      SplitPartsFromString(s, ',', p, i);
    }
    CleanPartsBlank(parts);
  }

  /** The process-wide client: its id and the broker list it was built with. */
  datatype Client = Client(clientId: string, brokers: seq<string>)

  /** `getKafka`: build the client on the first call (reading the
      environment then) and return the stored one on every later call. */
  function GetKafka(slot: Option<Client>, env: Option<string>): (r: (Option<Client>, Client))
    ensures r.0 == Some(r.1)
    ensures slot.Some? ==> r.1 == slot.value
    ensures slot.None? ==> r.1.clientId == ClientId && r.1.brokers == ParseBrokers(env)
  {
    match slot
    case Some(c) => (slot, c)
    case None =>
      var c := Client(ClientId, ParseBrokers(env));
      (Some(c), c)
  }

  /** Memoisation: every later call returns the identical client, whatever
      the environment says by then. */
  lemma {:induction false} GetKafkaIsStable(slot: Option<Client>, env1: Option<string>, env2: Option<string>)
    ensures GetKafka(GetKafka(slot, env1).0, env2) == GetKafka(slot, env1)
  {
  }

  /** The admin calls of topic provisioning, in the order they are made. */
  datatype AdminCall = AdminConnect | CreateTopics(topics: seq<TopicSpec>, waitForLeaders: bool) | AdminDisconnect

  datatype Provisioning = Provisioning(calls: seq<AdminCall>, outcome: Outcome<BrokerError>)

  /** The `ready` promise of `createKafka`: connect the admin client, request
      the presence topic, and disconnect in a `finally`. A rejected connect
      happens before the `try`, so no disconnect follows it; a rejected
      disconnect replaces the outcome of the topic request. */
  function Provision(connect: Outcome<BrokerError>, create: Outcome<BrokerError>, disconnect: Outcome<BrokerError>): (r: Provisioning)
    ensures AdminDisconnect in r.calls <==> connect.Pass?
    ensures connect.Pass? ==> r.calls == [AdminConnect, CreateTopics([PresenceTopicSpec], true), AdminDisconnect]
    ensures r.outcome.Pass? <==> connect.Pass? && create.Pass? && disconnect.Pass?
    // the error `ready` rejects with: the connect's, else the disconnect's
    // from the `finally`, else the topic request's
    ensures connect.Fail? ==> r.outcome == connect
    ensures connect.Pass? && disconnect.Fail? ==> r.outcome == disconnect
    ensures connect.Pass? && disconnect.Pass? ==> r.outcome == create
  {
    match connect
    case Fail(e) => Provisioning([AdminConnect], Fail(e))
    case Pass =>
      var calls := [AdminConnect, CreateTopics([PresenceTopicSpec], true), AdminDisconnect];
      if disconnect.Fail? then Provisioning(calls, disconnect)
      else Provisioning(calls, create)
  }

  /** The broker's topics after a provisioning run, keyed by name. A topic
      request that resolves creates the presence topic when it is missing
      and leaves an existing topic as it is (`createTopics` then resolves to
      `false`); a request that is never made or rejects creates nothing. */
  function TopicsAfter(topics: map<string, TopicSpec>, connect: Outcome<BrokerError>, create: Outcome<BrokerError>): (r: map<string, TopicSpec>)
    ensures connect.Pass? && create.Pass? ==> PresenceTopic in r
    ensures PresenceTopic in topics ==> r == topics
    ensures forall t :: t in topics ==> t in r && r[t] == topics[t]
    ensures forall t :: t in r && t !in topics ==> t == PresenceTopic && r[t] == PresenceTopicSpec
  {
    if connect.Pass? && create.Pass? && PresenceTopic !in topics then topics[PresenceTopic := PresenceTopicSpec]
    else topics
  }

  /** Whatever the outcomes, a provisioning that resolves leaves the
      presence topic on the broker; one that never requests the topic leaves
      the broker as it was; and once a run has resolved, provisioning again
      (every process start does) changes nothing, however that run ends. */
  lemma {:induction false} ProvisionIsIdempotent(topics: map<string, TopicSpec>,
                                                 connect: Outcome<BrokerError>, create: Outcome<BrokerError>,
                                                 disconnect: Outcome<BrokerError>,
                                                 connect2: Outcome<BrokerError>, create2: Outcome<BrokerError>)
    ensures Provision(connect, create, disconnect).outcome.Pass? ==> PresenceTopic in TopicsAfter(topics, connect, create)
    ensures CreateTopics([PresenceTopicSpec], true) !in Provision(connect, create, disconnect).calls ==>
      TopicsAfter(topics, connect, create) == topics
    ensures var after := TopicsAfter(topics, connect, create);
      Provision(connect, create, disconnect).outcome.Pass? ==> TopicsAfter(after, connect2, create2) == after
  {
  }
}

=== FILE: commands.dfy ===
/** `executeCommand`, the client-side dispatcher of a model response: at
    most one move (cell creation, then the move), then the object, then the
    trace. The callbacks it is given are effects it requests; which of them
    reject is an input. */
module Commands {
  import opened Types
  import opened Wrappers
  import opened GameRules
  import opened PromptProcessor

  datatype Effect =
    | CreateNewWorldCell(x: int, y: int, mapCharacter: string, title: string, description: string)
    | MoveUser(direction: string)
    | AddObjectToInventory(name: string, description: string)
    | CreateUserTrace(userId: UserId, worldCellId: CellId, traceType: TraceType, description: string)

  /** Which requested effects reject. */
  datatype Rejections = Rejections(createCell: bool, move: bool, addObject: bool, trace: bool)

  datatype Dispatch = Dispatch(effects: seq<Effect>, throws: bool)

  /** The cell `executeCommand` asks for at `(x, y)`: the draft's fields,
      each falling back to its default when missing or empty. */
  function DraftCell(x: int, y: int, draft: Option<CellDraft>): (e: Effect)
    ensures e.CreateNewWorldCell? && e.x == x && e.y == y
    ensures draft.None? ==> e == CreateNewWorldCell(x, y, DefaultMapCharacter, DefaultTitle, DefaultDescription)
    ensures draft.Some? ==> (e.mapCharacter == OrDefault(draft.value.mapCharacter, DefaultMapCharacter)
      && e.title == OrDefault(draft.value.title, DefaultTitle)
      && e.description == OrDefault(draft.value.description, DefaultDescription))
  {
    match draft
    case None => CreateNewWorldCell(x, y, DefaultMapCharacter, DefaultTitle, DefaultDescription)
    case Some(d) => CreateNewWorldCell(x, y, OrDefault(d.mapCharacter, DefaultMapCharacter),
                                       OrDefault(d.title, DefaultTitle), OrDefault(d.description, DefaultDescription))
  }

  /** The movement branch; its errors (a user without a cell included) are
      caught and logged, so it never throws. */
  function MovementEffects(ai: PromptResponse, user: Option<UserView>, rej: Rejections): (effects: seq<Effect>)
    ensures |effects| <= 2
    ensures ChosenMove(ai.actions).None? || user.None? || user.value.worldCell.None? ==> effects == []
    ensures ChosenMove(ai.actions).Some? && user.Some? && user.value.worldCell.Some? ==>
      var d := ChosenMove(ai.actions).value;
      var c := user.value.worldCell.value;
      var (nx, ny) := Step(c.x, c.y, d);
      && |effects| >= 1
      && effects[0] == DraftCell(nx, ny, ai.newWorldCell)
      // the move waits for the creation, and is skipped when it rejects
      && (rej.createCell <==> |effects| == 1)
      && (!rej.createCell ==> effects[1] == MoveUser(d))
  {
    match ChosenMove(ai.actions)
    case None => []
    case Some(d) =>
      if user.None? || user.value.worldCell.None? then []
      else
        var c := user.value.worldCell.value;
        var (nx, ny) := Step(c.x, c.y, d);
        var create := [DraftCell(nx, ny, ai.newWorldCell)];
        if rej.createCell then create else create + [MoveUser(d)]
  }

  function ExecuteCommand(ai: PromptResponse, user: Option<UserView>, rej: Rejections): (r: Dispatch)
    // movement errors are contained: object and trace still run after them
    ensures var m := MovementEffects(ai, user, rej); m <= r.effects
    ensures ai.newObject.Some? ==>
      var m := MovementEffects(ai, user, rej);
      |r.effects| > |m| && r.effects[|m|] == AddObjectToInventory(OrDefault(ai.newObject.value.name, ""), OrDefault(ai.newObject.value.description, ""))
    // an object rejection propagates and skips the trace
    ensures ai.newObject.Some? && rej.addObject ==> r.throws && |r.effects| == |MovementEffects(ai, user, rej)| + 1
    ensures ai.newTrace.Some? && !(ai.newObject.Some? && rej.addObject) ==>
      |r.effects| > 0 && r.effects[|r.effects| - 1] == CreateUserTrace(
        if user.Some? then user.value.id else "",
        if user.Some? && user.value.worldCell.Some? then user.value.worldCell.value.id else "",
        ai.newTrace.value.traceType,
        OrDefault(ai.newTrace.value.description, ""))
    ensures r.throws <==> (ai.newObject.Some? && rej.addObject) || (ai.newTrace.Some? && rej.trace && !(ai.newObject.Some? && rej.addObject))
    // nothing else is requested: the movement effects, one object request
    // when there is an object, and one trace request when the trace is reached
    ensures |r.effects| == |MovementEffects(ai, user, rej)|
      + (if ai.newObject.Some? then 1 else 0)
      + (if ai.newTrace.Some? && !(ai.newObject.Some? && rej.addObject) then 1 else 0)
  {
    var moves := MovementEffects(ai, user, rej);
    if ai.newObject.Some? && rej.addObject then
      Dispatch(moves + [AddObjectToInventory(OrDefault(ai.newObject.value.name, ""), OrDefault(ai.newObject.value.description, ""))], true)
    else
      var obj := if ai.newObject.Some? then
          [AddObjectToInventory(OrDefault(ai.newObject.value.name, ""), OrDefault(ai.newObject.value.description, ""))]
        else [];
      var trace := if ai.newTrace.Some? then
          [CreateUserTrace(if user.Some? then user.value.id else "",
                           if user.Some? && user.value.worldCell.Some? then user.value.worldCell.value.id else "",
                           ai.newTrace.value.traceType, OrDefault(ai.newTrace.value.description, ""))]
        else [];
      Dispatch(moves + obj + trace, ai.newTrace.Some? && rej.trace)
  }

  /** The client dispatcher and the server executor move the same user to
      the same neighbour. */
  lemma {:induction false} ClientAndServerAgreeOnMove(cells: seq<WorldCell>, ai: PromptResponse, user: UserView, rej: Rejections)
    requires user.worldCell.Some? && !rej.createCell
    requires ChosenMove(ai.actions).Some?
    requires !ExecuteCommandsServerSide(cells, user, ai).throws
    ensures var c := user.worldCell.value;
      var d := ChosenMove(ai.actions).value;
      && MoveUser(d) in ExecuteCommand(ai, Some(user), rej).effects
      && RelocateUser(user.id, Step(c.x, c.y, d).0, Step(c.x, c.y, d).1) in ExecuteCommandsServerSide(cells, user, ai).calls
  {
    var c := user.worldCell.value;
    var d := ChosenMove(ai.actions).value;
    var m := MovementEffects(ai, Some(user), rej);
    assert m[1] == MoveUser(d);
    assert m <= ExecuteCommand(ai, Some(user), rej).effects;
    assert ExecuteCommand(ai, Some(user), rej).effects[1] == MoveUser(d);
    var (nx, ny) := Step(c.x, c.y, d);
    var hm := HandleMovement(cells, user.id, c, nx, ny, d, ai.newWorldCell);
    assert hm.calls[|hm.calls| - 1] == RelocateUser(user.id, nx, ny);
    assert ExecuteCommandsServerSide(cells, user, ai).calls[|hm.calls| - 1] == RelocateUser(user.id, nx, ny);
  }
}

=== FILE: game_rules.dfy ===
/** The grid rules shared by the routes, the command executors and the
    client stores: direction offsets, which move an AI response selects, and
    how the cells around a user are sorted into north, south, east and west. */
module GameRules {
  import opened Types
  import opened Wrappers

  /** `newY++` for north, `newY--` for south, `newX++` for east, `newX--` for
      west; any other direction leaves the coordinates unchanged. */
  function Offset(direction: string): (d: (int, int))
    ensures direction == "north" ==> d == (0, 1)
    ensures direction == "south" ==> d == (0, -1)
    ensures direction == "east" ==> d == (1, 0)
    ensures direction == "west" ==> d == (-1, 0)
    ensures direction !in {"north", "south", "east", "west"} ==> d == (0, 0)
  {
    if direction == "north" then (0, 1)
    else if direction == "south" then (0, -1)
    else if direction == "east" then (1, 0)
    else if direction == "west" then (-1, 0)
    else (0, 0)
  }

  /** The coordinates one step from `(x, y)` in `direction`. */
  function Step(x: int, y: int, direction: string): (t: (int, int))
    ensures t == (x + Offset(direction).0, y + Offset(direction).1)
  {
    (x + Offset(direction).0, y + Offset(direction).1)
  }

  /** A step moves to a 4-neighbour or stays put; opposite steps cancel. */
  lemma {:induction false} StepIsNeighbourOrStay(x: int, y: int, direction: string)
    ensures var t := Step(x, y, direction);
      (t.0 - x) * (t.0 - x) + (t.1 - y) * (t.1 - y) <= 1
    ensures Step(Step(x, y, "north").0, Step(x, y, "north").1, "south") == (x, y)
    ensures Step(Step(x, y, "east").0, Step(x, y, "east").1, "west") == (x, y)
  {
  }

  /** The move an AI response selects: the first of north, south, east, west
      (in that priority) named as `move_<direction>` in its actions. */
  function ChosenMove(actions: Option<seq<string>>): (d: Option<string>)
    ensures d.Some? ==> d.value in {"north", "south", "east", "west"}
    ensures d.Some? <==> (actions.Some? &&
      ("move_north" in actions.value || "move_south" in actions.value
       || "move_east" in actions.value || "move_west" in actions.value))
    ensures d == Some("south") ==> "move_north" !in actions.value
    ensures d == Some("east") ==> "move_north" !in actions.value && "move_south" !in actions.value
    ensures d == Some("west") ==> "move_north" !in actions.value && "move_south" !in actions.value && "move_east" !in actions.value
    ensures d == Some("north") ==> "move_north" in actions.value
  {
    match actions
    case None => None
    case Some(a) =>
      if "move_north" in a then Some("north")
      else if "move_south" in a then Some("south")
      else if "move_east" in a then Some("east")
      else if "move_west" in a then Some("west")
      else None
  }

  datatype Surroundings = Surroundings(
    north: Option<WorldCell>,
    south: Option<WorldCell>,
    east: Option<WorldCell>,
    west: Option<WorldCell>)

  const NoSurroundings: Surroundings := Surroundings(None, None, None, None)

  /** The body of the `forEach`: skip the user's own cell, file a cell at one
      of the four offsets under its direction (overwriting), ignore the rest. */
  function ClassifyOne(acc: Surroundings, cell: WorldCell, ux: int, uy: int): Surroundings {
    if cell.x == ux && cell.y == uy then acc
    else if cell.x == ux && cell.y == uy + 1 then acc.(north := Some(cell))
    else if cell.x == ux && cell.y == uy - 1 then acc.(south := Some(cell))
    else if cell.x == ux + 1 && cell.y == uy then acc.(east := Some(cell))
    else if cell.x == ux - 1 && cell.y == uy then acc.(west := Some(cell))
    else acc
  }

  /** The classification loop of `updateSurroundingCells`, over `cells` in order. */
  function Classify(cells: seq<WorldCell>, ux: int, uy: int): Surroundings {
    if |cells| == 0 then NoSurroundings
    else ClassifyOne(Classify(cells[..|cells| - 1], ux, uy), cells[|cells| - 1], ux, uy)
  }

  /** Reference: `r` is the last cell of `cells` at `(x, y)`, or `None` when
      there is none. */
  ghost predicate IsLastAt(cells: seq<WorldCell>, x: int, y: int, r: Option<WorldCell>) {
    if r.None? then forall c :: c in cells ==> !(c.x == x && c.y == y)
    else exists i :: (0 <= i < |cells| && cells[i] == r.value && cells[i].x == x && cells[i].y == y
      && forall j :: i < j < |cells| ==> !(cells[j].x == x && cells[j].y == y))
  }

  /** Direction `k` of a surroundings record: 0 north, 1 south, 2 east, 3 west. */
  function Pick(s: Surroundings, k: nat): Option<WorldCell>
    requires k < 4
  {
    if k == 0 then s.north else if k == 1 then s.south else if k == 2 then s.east else s.west
  }

  /** The offset filed under direction `k`. */
  function DirOffset(k: nat): (int, int)
    requires k < 4
  {
    if k == 0 then (0, 1) else if k == 1 then (0, -1) else if k == 2 then (1, 0) else (-1, 0)
  }

  lemma {:induction false} ClassifyDirIsLastAt(cells: seq<WorldCell>, ux: int, uy: int, k: nat)
    requires k < 4
    ensures IsLastAt(cells, ux + DirOffset(k).0, uy + DirOffset(k).1, Pick(Classify(cells, ux, uy), k))
    decreases |cells|
  {
    if |cells| > 0 {
      var init := cells[..|cells| - 1];
      var last := cells[|cells| - 1];
      ClassifyDirIsLastAt(init, ux, uy, k);
      assert cells == init + [last];
      LastAtSnoc(init, last, ux + DirOffset(k).0, uy + DirOffset(k).1,
        Pick(Classify(init, ux, uy), k), Pick(Classify(cells, ux, uy), k));
    }
  }

  /** Each direction holds the last cell at its offset; a later cell at the
      same offset overwrites an earlier one. */
  lemma {:induction false} ClassifyIsLastAt(cells: seq<WorldCell>, ux: int, uy: int)
    ensures IsLastAt(cells, ux, uy + 1, Classify(cells, ux, uy).north)
    ensures IsLastAt(cells, ux, uy - 1, Classify(cells, ux, uy).south)
    ensures IsLastAt(cells, ux + 1, uy, Classify(cells, ux, uy).east)
    ensures IsLastAt(cells, ux - 1, uy, Classify(cells, ux, uy).west)
  {
    var s := Classify(cells, ux, uy);
    assert IsLastAt(cells, ux, uy + 1, s.north) by {
      ClassifyDirIsLastAt(cells, ux, uy, 0);
      assert DirOffset(0) == (0, 1) && Pick(s, 0) == s.north;
    }
    assert IsLastAt(cells, ux, uy - 1, s.south) by {
      ClassifyDirIsLastAt(cells, ux, uy, 1);
      assert DirOffset(1) == (0, -1) && Pick(s, 1) == s.south;
    }
    assert IsLastAt(cells, ux + 1, uy, s.east) by {
      ClassifyDirIsLastAt(cells, ux, uy, 2);
      assert DirOffset(2) == (1, 0) && Pick(s, 2) == s.east;
    }
    assert IsLastAt(cells, ux - 1, uy, s.west) by {
      ClassifyDirIsLastAt(cells, ux, uy, 3);
      assert DirOffset(3) == (-1, 0) && Pick(s, 3) == s.west;
    }
  }

  lemma {:induction false} LastAtSnoc(init: seq<WorldCell>, last: WorldCell, x: int, y: int, before: Option<WorldCell>, after: Option<WorldCell>)
    requires IsLastAt(init, x, y, before)
    requires last.x == x && last.y == y ==> after == Some(last)
    requires !(last.x == x && last.y == y) ==> after == before
    ensures IsLastAt(init + [last], x, y, after)
  {
    var cells := init + [last];
    if last.x == x && last.y == y {
      assert cells[|init|] == last;
    } else if before.Some? {
      var i :| 0 <= i < |init| && init[i] == before.value && init[i].x == x && init[i].y == y
        && forall j :: i < j < |init| ==> !(init[j].x == x && init[j].y == y);
      assert cells[i] == init[i];
    }
  }
}

=== FILE: journal_state.dfy ===
/** The client-side journal and terminal history: append-only logs with a
    wholesale replacement, persisted under a storage key, and seeded or
    left alone when rehydrated. */
module JournalState {
  import opened Types
  import opened Wrappers

  /** A journal row as the client holds it. */
  datatype JournalEntry = JournalEntry(id: string, kind: EntryKind, content: string)

  /** The two actions of `journalReducer`, plus anything else dispatched. */
  datatype LogAction<E> = SetAll(entries: seq<E>) | Add(entry: E) | Unrecognised

  /** `journalReducer`, and equally the store's `setJournal`,
      `addJournalEntry` and the history's `addEntry`. */
  function Reduce<E>(log: seq<E>, a: LogAction<E>): (r: seq<E>)
    ensures a.SetAll? ==> r == a.entries
    ensures a.Add? ==> |r| == |log| + 1 && r[..|log|] == log && r[|log|] == a.entry
    ensures a.Unrecognised? ==> r == log
  {
    match a
    case SetAll(entries) => entries
    case Add(e) => log + [e]
    case Unrecognised => log
  }

  /** Dispatching a run of `Add` actions, one per entry. */
  function AddAll<E>(log: seq<E>, entries: seq<E>): seq<E>
    decreases |entries|
  {
    if |entries| == 0 then log else AddAll(Reduce(log, Add(entries[0])), entries[1..])
  }

  /** Append-only: adding entries one by one keeps everything before them,
      in order, and puts the new ones after it in the order added. */
  lemma {:induction false} AddAllAppends<E>(log: seq<E>, entries: seq<E>)
    ensures AddAll(log, entries) == log + entries
    decreases |entries|
  {
    if |entries| > 0 {
      AddAllAppends(log + [entries[0]], entries[1..]);
      assert log + [entries[0]] + entries[1..] == log + entries;
    }
  }

  /** `refreshJournal`: the fetched entries replace the journal; a failed
      fetch is logged and leaves the journal as it was. */
  function Refresh<E>(log: seq<E>, fetched: Option<seq<E>>): (r: seq<E>)
    ensures fetched.Some? ==> r == fetched.value
    ensures fetched.None? ==> r == log
  {
    match fetched
    case Some(entries) => Reduce(log, SetAll(entries))
    case None => log
  }

  const StorageKey: string := "journal-storage"

  /** What the storage key holds: nothing, an empty string, text that does
      not parse, or a parsed document whose `state.journal` may be absent. */
  datatype Stored = Blank | Unparseable | Document(journal: Option<seq<JournalEntry>>, version: int)

  /** `loadFromStorage`: `[]` on the server, for a missing or empty item and
      for a parse error; otherwise `state.journal`, or `[]` when it is absent. */
  function LoadFromStorage(inBrowser: bool, storage: map<string, Stored>): (r: seq<JournalEntry>)
    ensures !inBrowser || StorageKey !in storage ==> r == []
    ensures inBrowser && StorageKey in storage && !storage[StorageKey].Document? ==> r == []
    ensures inBrowser && StorageKey in storage && storage[StorageKey].Document? ==>
      r == storage[StorageKey].journal.GetOr([])
  {
    if !inBrowser || StorageKey !in storage then []
    else match storage[StorageKey]
      case Document(journal, _) => journal.GetOr([])
      case _ => []
  }

  /** `saveToStorage`: `{state: {journal}, version: 0}` under the key; off
      the browser, or when the write throws, storage is unchanged. */
  function SaveToStorage(inBrowser: bool, storage: map<string, Stored>, journal: seq<JournalEntry>, writeFails: bool): (r: map<string, Stored>)
    ensures !inBrowser || writeFails ==> r == storage
    ensures inBrowser && !writeFails ==> StorageKey in r && r[StorageKey] == Document(Some(journal), 0)
    ensures forall k :: k != StorageKey ==> (k in r <==> k in storage) && (k in r ==> r[k] == storage[k])
  {
    if !inBrowser || writeFails then storage
    else storage[StorageKey := Document(Some(journal), 0)]
  }

  /** What was saved loads back unchanged, whatever else storage holds. */
  lemma {:induction false} SaveThenLoad(storage: map<string, Stored>, journal: seq<JournalEntry>)
    ensures LoadFromStorage(true, SaveToStorage(true, storage, journal, false)) == journal
  {
  }

  /** The provider's mount effect: a non-empty stored journal replaces the
      state, an empty one changes nothing. */
  function Restore(log: seq<JournalEntry>, stored: seq<JournalEntry>): (r: seq<JournalEntry>)
    ensures |stored| > 0 ==> r == stored
    ensures |stored| == 0 ==> r == log
  {
    if |stored| > 0 then Reduce(log, SetAll(stored)) else log
  }

  /** `onRehydrateStorage` of the journal store: an empty journal is set to
      an empty journal, so rehydration never changes it. */
  function RehydrateJournal(journal: seq<JournalEntry>): (r: seq<JournalEntry>)
    ensures r == journal
  {
    if |journal| == 0 then [] else journal
  }

  /** A terminal-history row. */
  datatype HistoryKind = Command | Response
  datatype HistoryEntry = HistoryEntry(kind: HistoryKind, content: string)

  const InitialHistory: seq<HistoryEntry> := [
    HistoryEntry(Response, "Welcome to Adventure Terminal! Type \"help\" to see available commands."),
    HistoryEntry(Response, "You can explore the world by typing \"look\" or \"move [direction]\".")
  ]

  /** `onRehydrateStorage` of the history store: an empty history is seeded
      with the two welcome responses; a non-empty one is left alone. */
  function RehydrateHistory(history: seq<HistoryEntry>): (r: seq<HistoryEntry>)
    ensures |history| == 0 ==> r == InitialHistory && |r| == 2 && forall e :: e in r ==> e.kind == Response
    ensures |history| > 0 ==> r == history
  {
    if |history| == 0 then InitialHistory else history
  }

  /** Rehydrating never leaves the history empty, and a second rehydration
      changes nothing. */
  lemma {:induction false} RehydrateHistoryStable(history: seq<HistoryEntry>)
    ensures |RehydrateHistory(history)| > 0
    ensures RehydrateHistory(RehydrateHistory(history)) == RehydrateHistory(history)
  {
  }
}

=== FILE: json.dfy ===
/** JSON text as ECMAScript's `JSON.parse` reads it and as `JSON.stringify`
    writes an object whose values are all strings (section 25.5 of
    ECMA-262, with the grammar of RFC 8259).

    A number keeps its lexeme: nothing downstream of the parser reads a
    numeric value. A string is a sequence of Unicode scalar values; a
    surrogate pair written as two `\u` escapes is joined into one character. */
module Json {
  import opened Wrappers

  datatype Json =
    | JNull
    | JBool(b: bool)
    | JNumber(lexeme: string)
    | JString(s: string)
    | JArray(items: seq<Json>)
    | JObject(members: seq<(string, Json)>)

  /** The four whitespace characters JSON allows between tokens. */
  predicate IsSpace(c: char) {
    c == ' ' || c == '\t' || c == '\n' || c == '\r'
  }

  predicate IsDigit(c: char) {
    '0' <= c <= '9'
  }

  /** `s` without its leading whitespace. */
  function SkipWs(s: string): (r: string)
    ensures |r| <= |s|
    ensures |r| > 0 ==> !IsSpace(r[0])
    decreases |s|
  {
    if |s| > 0 && IsSpace(s[0]) then SkipWs(s[1..]) else s
  }

  // ---- string literals ----

  /** Lower-case hexadecimal digit, as `JSON.stringify` writes in `\u00XX`. */
  function HexDigit(n: nat): (c: char)
    requires n < 16
  {
    if n < 10 then (48 + n) as char else (87 + n) as char
  }

  /** Value of a hexadecimal digit of either case. */
  function HexValue(c: char): (v: Option<nat>)
    ensures v.Some? ==> v.value < 16
  {
    if '0' <= c <= '9' then Some(c as int - 48)
    else if 'a' <= c <= 'f' then Some(c as int - 87)
    else if 'A' <= c <= 'F' then Some(c as int - 55)
    else None
  }

  function Hex4(s: string): (v: Option<nat>)
    requires |s| == 4
    ensures v.Some? ==> v.value < 0x1_0000
  {
    var a :- HexValue(s[0]);
    var b :- HexValue(s[1]);
    var c :- HexValue(s[2]);
    var d :- HexValue(s[3]);
    Some(a * 4096 + b * 256 + c * 16 + d)
  }

  /** QuoteJSONString for one code point: the two-character escapes, `\u00XX`
      for the other control characters, the character itself otherwise. */
  function EscapeChar(c: char): (s: string)
    ensures 0 < |s| <= 6 && s[0] != '"'
  {
    if c == '"' then "\\\""
    else if c == '\\' then "\\\\"
    else if c as int == 8 then "\\b"
    else if c as int == 12 then "\\f"
    else if c == '\n' then "\\n"
    else if c == '\r' then "\\r"
    else if c == '\t' then "\\t"
    else if c as int < 32 then ['\\', 'u', '0', '0', HexDigit(c as int / 16), HexDigit(c as int % 16)]
    else [c]
  }

  function Escape(s: string): string {
    if |s| == 0 then [] else EscapeChar(s[0]) + Escape(s[1..])
  }

  /** A JSON string literal for `s`. */
  function Quote(s: string): (q: string)
    ensures |q| >= 2 && q[0] == '"'
  {
    "\"" + Escape(s) + "\""
  }

  /** The character a `\uXXXX` escape starting at `s[0]` denotes, and the
      number of input characters it takes. A high surrogate followed by an
      escaped low surrogate is one character; a lone surrogate, which a
      Dafny `char` cannot hold, reads as U+FFFD. */
  function UnicodeEscape(s: string): (r: Option<(char, nat)>)
    requires |s| >= 6 && s[0] == '\\' && s[1] == 'u'
    ensures r.Some? ==> r.value.1 == 6 || (r.value.1 == 12 && |s| >= 12)
  {
    var code :- Hex4(s[2..6]);
    if code < 0xD800 || 0xE000 <= code then Some((code as char, 6))
    else if code < 0xDC00 && |s| >= 12 && s[6] == '\\' && s[7] == 'u' then
      match Hex4(s[8..12])
      case Some(low) =>
        if 0xDC00 <= low < 0xE000 then
          Some(((0x1_0000 + (code - 0xD800) * 0x400 + (low - 0xDC00)) as char, 12))
        else Some((0xFFFD as char, 6))
      case None => Some((0xFFFD as char, 6))
    else Some((0xFFFD as char, 6))
  }

  /** One character of a string literal's body: the character and the number
      of input characters it occupies. A raw control character is not
      allowed in JSON text. */
  function ParseUnit(s: string): (r: Option<(char, nat)>)
    requires |s| > 0 && s[0] != '"'
    ensures r.Some? ==> 1 <= r.value.1 <= |s|
  {
    if s[0] == '\\' then
      if |s| < 2 then None
      else if s[1] == '"' then Some(('"', 2))
      else if s[1] == '\\' then Some(('\\', 2))
      else if s[1] == '/' then Some(('/', 2))
      else if s[1] == 'b' then Some((8 as char, 2))
      else if s[1] == 'f' then Some((12 as char, 2))
      else if s[1] == 'n' then Some(('\n', 2))
      else if s[1] == 'r' then Some(('\r', 2))
      else if s[1] == 't' then Some(('\t', 2))
      else if s[1] == 'u' && |s| >= 6 then UnicodeEscape(s)
      else None
    else if (s[0] as int) < 32 then None
    else Some((s[0], 1))
  }

  /** The body of a string literal up to its closing quote, and what follows. */
  function ParseBody(s: string): (r: Option<(string, string)>)
    ensures r.Some? ==> |r.value.1| < |s|
    decreases |s|
  {
    if |s| == 0 then None
    else if s[0] == '"' then Some(([], s[1..]))
    else
      match ParseUnit(s)
      case None => None
      case Some(u) =>
        match ParseBody(s[u.1..])
        case None => None
        case Some(p) => Some(([u.0] + p.0, p.1))
  }

  /** A string literal at the start of `s`, and the text after it. */
  function ParseString(s: string): (r: Option<(string, string)>)
    ensures r.Some? ==> |r.value.1| < |s|
  {
    if |s| > 0 && s[0] == '"' then ParseBody(s[1..]) else None
  }

  // ---- numbers and literals ----

  /** The number of leading decimal digits of `s`. */
  function DigitRun(s: string): (n: nat)
    ensures n <= |s|
    decreases |s|
  {
    if |s| > 0 && IsDigit(s[0]) then 1 + DigitRun(s[1..]) else 0
  }

  /** Where an optional `.digits` part starting at `j` ends; `None` when a
      point has no digit after it. */
  function FractionEnd(s: string, j: nat): (r: Option<nat>)
    requires j <= |s|
    ensures r.Some? ==> j <= r.value <= |s|
  {
    if j < |s| && s[j] == '.' then
      var d := DigitRun(s[j + 1..]);
      if d == 0 then None else Some(j + 1 + d)
    else Some(j)
  }

  /** Where an optional exponent starting at `k` ends; `None` when the
      exponent has no digit. */
  function ExponentEnd(s: string, k: nat): (r: Option<nat>)
    requires k <= |s|
    ensures r.Some? ==> k <= r.value <= |s|
  {
    if k < |s| && (s[k] == 'e' || s[k] == 'E') then
      var m := if k + 1 < |s| && (s[k + 1] == '+' || s[k + 1] == '-') then k + 2 else k + 1;
      var d := DigitRun(s[m..]);
      if d == 0 then None else Some(m + d)
    else Some(k)
  }

  /** A number: an optional minus, `0` or a digit run not starting with `0`,
      then an optional fraction and an optional exponent. */
  function ParseNumber(s: string): (r: Option<(Json, string)>)
    ensures r.Some? ==> |r.value.1| < |s|
  {
    var i := if |s| > 0 && s[0] == '-' then 1 else 0;
    if i >= |s| || !IsDigit(s[i]) then None
    else
      var j := if s[i] == '0' then i + 1 else i + DigitRun(s[i..]);
      var k :- FractionEnd(s, j);
      var n :- ExponentEnd(s, k);
      Some((JNumber(s[..n]), s[n..]))
  }

  /** The rest of `s` after the literal `lit`, if `s` starts with it. */
  function Expect(lit: string, s: string): (r: Option<string>)
    ensures r.Some? ==> s == lit + r.value
  {
    if |lit| <= |s| && s[..|lit|] == lit then
      assert s == s[..|lit|] + s[|lit|..];
      Some(s[|lit|..])
    else None
  }

  // ---- values ----

  /** One value at the start of `s` (no leading whitespace), and the text
      after it. */
  function ParseValue(s: string): (r: Option<(Json, string)>)
    ensures r.Some? ==> |r.value.1| < |s|
    decreases |s|, 0
  {
    if |s| == 0 then None
    else if s[0] == 'n' then
      var rest :- Expect("null", s);
      Some((JNull, rest))
    else if s[0] == 't' then
      var rest :- Expect("true", s);
      Some((JBool(true), rest))
    else if s[0] == 'f' then
      var rest :- Expect("false", s);
      Some((JBool(false), rest))
    else if s[0] == '"' then
      var p :- ParseString(s);
      Some((JString(p.0), p.1))
    else if s[0] == '[' then
      var t := SkipWs(s[1..]);
      if |t| > 0 && t[0] == ']' then Some((JArray([]), t[1..]))
      else
        var p :- ParseElements(t);
        Some((JArray(p.0), p.1))
    else if s[0] == '{' then
      var t := SkipWs(s[1..]);
      if |t| > 0 && t[0] == '}' then Some((JObject([]), t[1..]))
      else
        var p :- ParseMembers(t);
        Some((JObject(p.0), p.1))
    else ParseNumber(s)
  }

  /** The elements of a non-empty array from its first element through the
      closing bracket. */
  function ParseElements(s: string): (r: Option<(seq<Json>, string)>)
    ensures r.Some? ==> |r.value.1| < |s|
    decreases |s|, 1
  {
    var v :- ParseValue(s);
    var u := SkipWs(v.1);
    if |u| == 0 then None
    else if u[0] == ']' then Some(([v.0], u[1..]))
    else if u[0] == ',' then
      var more :- ParseElements(SkipWs(u[1..]));
      Some(([v.0] + more.0, more.1))
    else None
  }

  /** The members of a non-empty object from its first key through the
      closing brace, in text order. */
  function ParseMembers(s: string): (r: Option<(seq<(string, Json)>, string)>)
    ensures r.Some? ==> |r.value.1| < |s|
    decreases |s|, 1
  {
    var k :- ParseString(s);
    var t := SkipWs(k.1);
    if |t| == 0 || t[0] != ':' then None
    else
      var v :- ParseValue(SkipWs(t[1..]));
      var u := SkipWs(v.1);
      if |u| == 0 then None
      else if u[0] == '}' then Some(([(k.0, v.0)], u[1..]))
      else if u[0] == ',' then
        var more :- ParseMembers(SkipWs(u[1..]));
        Some(([(k.0, v.0)] + more.0, more.1))
      else None
  }

  /** `JSON.parse(text)`: one value with optional whitespace around it; `None`
      where `JSON.parse` throws a `SyntaxError`. */
  function Parse(text: string): (r: Option<Json>)
  {
    var p :- ParseValue(SkipWs(text));
    if SkipWs(p.1) == [] then Some(p.0) else None
  }

  /** The property `key` of a parsed object: the value of its last member with
      that name, as `JSON.parse` keeps the last of duplicate keys. */
  function Get(members: seq<(string, Json)>, key: string): (r: Option<Json>)
    ensures r.Some? <==> exists i :: 0 <= i < |members| && members[i].0 == key
    ensures r.Some? ==> exists i :: (0 <= i < |members| && members[i] == (key, r.value)
      && forall j :: i < j < |members| ==> members[j].0 != key)
  {
    if |members| == 0 then None
    else if members[|members| - 1].0 == key then
      assert members[|members| - 1] == (key, members[|members| - 1].1);
      Some(members[|members| - 1].1)
    else
      var init := members[..|members| - 1];
      var r := Get(init, key);
      assert forall i :: 0 <= i < |init| ==> init[i] == members[i];
      assert r.Some? ==> exists i :: (0 <= i < |members| && members[i] == (key, r.value)
        && forall j :: i < j < |members| ==> members[j].0 != key) by {
        if r.Some? {
          var i :| 0 <= i < |init| && init[i] == (key, r.value) && forall j :: i < j < |init| ==> init[j].0 != key;
          assert forall j :: i < j < |members| ==> members[j].0 != key by {
            forall j | i < j < |members| ensures members[j].0 != key {
              if j < |init| {
                assert init[j] == members[j];
              }
            }
          }
        }
      }
      r
  }

  // ---- serialising an object of strings ----

  /** The members of an object whose values are all strings, as written
      between the braces: `"key":"value"` pairs separated by commas. */
  function MembersText(ms: seq<(string, string)>): string {
    if |ms| == 0 then []
    else if |ms| == 1 then Quote(ms[0].0) + ":" + Quote(ms[0].1)
    else Quote(ms[0].0) + ":" + Quote(ms[0].1) + "," + MembersText(ms[1..])
  }

  /** `JSON.stringify` of an object whose properties, in insertion order,
      are the string-valued pairs `ms`. */
  function ObjectText(ms: seq<(string, string)>): string {
    "{" + MembersText(ms) + "}"
  }

  /** The parsed members of such an object. */
  function StringMembers(ms: seq<(string, string)>): (r: seq<(string, Json)>)
    ensures |r| == |ms|
    ensures forall i :: 0 <= i < |ms| ==> r[i] == (ms[i].0, JString(ms[i].1))
  {
    if |ms| == 0 then [] else [(ms[0].0, JString(ms[0].1))] + StringMembers(ms[1..])
  }

  // ---- round trips ----

  lemma {:induction false} HexRoundTrip(n: nat)
    requires n < 16
    ensures HexValue(HexDigit(n)) == Some(n)
  {
  }

  /** Each escaped character reads back as itself, using exactly its escape. */
  lemma {:induction false} UnitOfEscape(c: char, t: string)
    ensures ParseUnit(EscapeChar(c) + t) == Some((c, |EscapeChar(c)|))
  {
    var s := EscapeChar(c) + t;
    if c as int < 32 && c != '\n' && c != '\r' && c != '\t' && c as int != 8 && c as int != 12 {
      var hi := c as int / 16;
      var lo := c as int % 16;
      HexRoundTrip(hi);
      HexRoundTrip(lo);
      assert s[2..6] == ['0', '0', HexDigit(hi), HexDigit(lo)];
      assert Hex4(s[2..6]) == Some(hi * 16 + lo);
    }
  }

  lemma {:induction false} BodyOfEscape(x: string, rest: string)
    ensures ParseBody(Escape(x) + "\"" + rest) == Some((x, rest))
  {
    if |x| == 0 {
      assert Escape(x) + "\"" + rest == "\"" + rest;
    } else {
      var tail := Escape(x[1..]) + "\"" + rest;
      assert Escape(x) + "\"" + rest == EscapeChar(x[0]) + tail;
      UnitOfEscape(x[0], tail);
      assert (EscapeChar(x[0]) + tail)[|EscapeChar(x[0])|..] == tail;
      BodyOfEscape(x[1..], rest);
      assert [x[0]] + x[1..] == x;
    }
  }

  /** A quoted string reads back as the string, leaving what follows. */
  lemma {:induction false} QuoteRoundTrip(x: string, rest: string)
    ensures ParseString(Quote(x) + rest) == Some((x, rest))
  {
    var s := Quote(x) + rest;
    assert s[1..] == Escape(x) + "\"" + rest;
    BodyOfEscape(x, rest);
  }

  /** Text that starts with a non-space character is its own `SkipWs`. */
  lemma {:induction false} SkipWsNonSpace(s: string)
    requires |s| > 0 && !IsSpace(s[0])
    ensures SkipWs(s) == s
  {
  }

  lemma {:induction false} MembersTextStartsWithQuote(ms: seq<(string, string)>)
    requires |ms| > 0
    ensures |MembersText(ms)| > 0 && MembersText(ms)[0] == '"'
  {
    var q := Quote(ms[0].0);
    assert MembersText(ms)[0] == q[0];
  }

  /** The first member of serialised string members reads back: its key, the
      colon, its value, leaving the text after the value. */
  lemma {:induction false} MemberRoundTrip(k: string, v: string, after: string)
    requires |after| > 0 && !IsSpace(after[0])
    ensures ParseString(Quote(k) + ":" + Quote(v) + after) == Some((k, ":" + Quote(v) + after))
    ensures ParseValue(Quote(v) + after) == Some((JString(v), after))
  {
    assert Quote(k) + ":" + Quote(v) + after == Quote(k) + (":" + Quote(v) + after);
    QuoteRoundTrip(k, ":" + Quote(v) + after);
    QuoteRoundTrip(v, after);
  }

  /** One member followed by the closing brace. */
  lemma {:induction false} MembersClose(s: string, k: string, t: string, v: Json, u: string)
    requires ParseString(s) == Some((k, t))
    requires |t| > 1 && t[0] == ':' && !IsSpace(t[1])
    requires ParseValue(t[1..]) == Some((v, u))
    requires |u| > 0 && u[0] == '}'
    ensures ParseMembers(s) == Some(([(k, v)], u[1..]))
  {
    SkipWsNonSpace(t);
    SkipWsNonSpace(t[1..]);
    SkipWsNonSpace(u);
  }

  /** One member followed by a comma and further members. */
  lemma {:induction false} MembersContinue(s: string, k: string, t: string, v: Json, u: string,
                                           more: seq<(string, Json)>, rest: string)
    requires ParseString(s) == Some((k, t))
    requires |t| > 1 && t[0] == ':' && !IsSpace(t[1])
    requires ParseValue(t[1..]) == Some((v, u))
    requires |u| > 1 && u[0] == ',' && !IsSpace(u[1])
    requires ParseMembers(u[1..]) == Some((more, rest))
    ensures ParseMembers(s) == Some(([(k, v)] + more, rest))
  {
    SkipWsNonSpace(t);
    SkipWsNonSpace(t[1..]);
    SkipWsNonSpace(u);
    SkipWsNonSpace(u[1..]);
  }

  /** What follows the first member's value in `MembersText(ms) + "}" + rest`. */
  function AfterFirst(ms: seq<(string, string)>, rest: string): (a: string)
    requires |ms| > 0
    ensures |a| > 0 && (a[0] == '}' || a[0] == ',')
  {
    if |ms| == 1 then "}" + rest else "," + (MembersText(ms[1..]) + "}" + rest)
  }

  lemma {:induction false} Assoc<T>(a: seq<T>, b: seq<T>, c: seq<T>)
    ensures (a + b) + c == a + (b + c)
  {
  }

  lemma {:induction false} MembersTextUnfold(ms: seq<(string, string)>, rest: string)
    requires |ms| > 0
    ensures MembersText(ms) + "}" + rest == Quote(ms[0].0) + (":" + (Quote(ms[0].1) + AfterFirst(ms, rest)))
  {
    var qk, qv := Quote(ms[0].0), Quote(ms[0].1);
    var after := AfterFirst(ms, rest);
    var head := qk + ":" + qv;
    var tail := if |ms| == 1 then [] else "," + MembersText(ms[1..]);
    assert MembersText(ms) == head + tail;
    assert tail + "}" + rest == after by {
      if |ms| > 1 {
        Assoc(",", MembersText(ms[1..]), "}");
        Assoc(",", MembersText(ms[1..]) + "}", rest);
      }
    }
    Assoc(head, tail, "}");
    Assoc(head, tail + "}", rest);
    Assoc(qk + ":", qv, after);
    Assoc(qk, ":", qv + after);
  }

  /** The members `JSON.stringify` writes read back as the same members. */
  lemma {:induction false} MembersRoundTrip(ms: seq<(string, string)>, rest: string)
    requires |ms| > 0
    ensures ParseMembers(MembersText(ms) + "}" + rest) == Some((StringMembers(ms), rest))
    decreases |ms|
  {
    var k := ms[0].0;
    var v := ms[0].1;
    var after := AfterFirst(ms, rest);
    var s := MembersText(ms) + "}" + rest;
    var t := ":" + (Quote(v) + after);
    MembersTextUnfold(ms, rest);
    QuoteRoundTrip(k, t);
    assert t[1..] == Quote(v) + after;
    QuoteRoundTrip(v, after);
    assert ParseValue(t[1..]) == Some((JString(v), after));
    if |ms| == 1 {
      MembersClose(s, k, t, JString(v), after);
      assert after[1..] == rest;
      assert StringMembers(ms) == [(k, JString(v))];
    } else {
      var tail := MembersText(ms[1..]) + "}" + rest;
      assert after[1..] == tail;
      MembersTextStartsWithQuote(ms[1..]);
      MembersRoundTrip(ms[1..], rest);
      MembersContinue(s, k, t, JString(v), after, StringMembers(ms[1..]), rest);
      assert StringMembers(ms) == [(k, JString(v))] + StringMembers(ms[1..]);
    }
  }

  /** An object with members, as `ParseValue` reads it. */
  lemma {:induction false} ObjectValue(s: string, members: seq<(string, Json)>, rest: string)
    requires |s| > 1 && s[0] == '{' && s[1] == '"'
    requires ParseMembers(s[1..]) == Some((members, rest))
    ensures ParseValue(s) == Some((JObject(members), rest))
  {
    SkipWsNonSpace(s[1..]);
  }

  /** A whole text that is one value with nothing after it. */
  lemma {:induction false} WholeValue(text: string, v: Json)
    requires |text| > 0 && !IsSpace(text[0])
    requires ParseValue(text) == Some((v, []))
    ensures Parse(text) == Some(v)
  {
    SkipWsNonSpace(text);
  }

  /** Round trip: `JSON.parse(JSON.stringify(o))` gives back the members of an
      object of strings, in order. */
  lemma {:induction false} ObjectRoundTrip(ms: seq<(string, string)>)
    ensures Parse(ObjectText(ms)) == Some(JObject(StringMembers(ms)))
  {
    var s := ObjectText(ms);
    if |ms| == 0 {
      assert s == "{}";
      assert ParseValue(s) == Some((JObject([]), [])) by {
        SkipWsNonSpace(s[1..]);
      }
    } else {
      assert s[1..] == MembersText(ms) + "}" + "";
      MembersTextStartsWithQuote(ms);
      MembersRoundTrip(ms, "");
      ObjectValue(s, StringMembers(ms), "");
    }
    WholeValue(s, JObject(StringMembers(ms)));
  }

  /** Text made only of JSON whitespace. */
  predicate AllSpace(w: string) {
    forall i :: 0 <= i < |w| ==> IsSpace(w[i])
  }

  lemma {:induction false} SkipSpaces(w: string, text: string)
    requires AllSpace(w)
    ensures SkipWs(w + text) == SkipWs(text)
    decreases |w|
  {
    if |w| > 0 {
      assert (w + text)[0] == w[0];
      assert (w + text)[1..] == w[1..] + text;
      SkipSpaces(w[1..], text);
    } else {
      assert w + text == text;
    }
  }

  /** Whitespace before a JSON text changes nothing. */
  lemma {:induction false} LeadingSpaceIgnored(w: string, text: string)
    requires AllSpace(w)
    ensures Parse(w + text) == Parse(text)
  {
    SkipSpaces(w, text);
  }

  /** One member followed by the closing brace, whitespace allowed around
      each token. */
  lemma {:induction false} MembersCloseWs(s: string, k: string, t: string, v: Json, u: string)
    requires ParseString(s) == Some((k, t))
    requires |SkipWs(t)| > 0 && SkipWs(t)[0] == ':'
    requires ParseValue(SkipWs(SkipWs(t)[1..])) == Some((v, u))
    requires |SkipWs(u)| > 0 && SkipWs(u)[0] == '}'
    ensures ParseMembers(s) == Some(([(k, v)], SkipWs(u)[1..]))
  {
  }

  /** A single string member reads the same with whitespace around the colon
      and before the closing brace. */
  lemma {:induction false} SpacedMember(k: string, v: string, w1: string, w2: string, w3: string, rest: string)
    requires AllSpace(w1) && AllSpace(w2) && AllSpace(w3)
    ensures ParseMembers(Quote(k) + (w1 + (":" + (w2 + (Quote(v) + (w3 + ("}" + rest)))))))
      == Some(([(k, JString(v))], rest))
  {
    var after := w3 + ("}" + rest);
    var t := w1 + (":" + (w2 + (Quote(v) + after)));
    var t2 := ":" + (w2 + (Quote(v) + after));
    QuoteRoundTrip(k, t);
    SkipSpaces(w1, t2);
    SkipWsNonSpace(t2);
    assert t2[1..] == w2 + (Quote(v) + after);
    SkipSpaces(w2, Quote(v) + after);
    SkipWsNonSpace(Quote(v) + after);
    QuoteRoundTrip(v, after);
    SkipSpaces(w3, "}" + rest);
    SkipWsNonSpace("}" + rest);
    assert ("}" + rest)[1..] == rest;
    MembersCloseWs(Quote(k) + t, k, t, JString(v), after);
  }

  /** `JSON.parse` reads a one-member object of strings the same whatever
      whitespace surrounds its tokens. */
  lemma {:induction false} SpacedObject(k: string, v: string, w0: string, w1: string, w2: string, w3: string, w4: string, w5: string)
    requires AllSpace(w0) && AllSpace(w1) && AllSpace(w2) && AllSpace(w3) && AllSpace(w4) && AllSpace(w5)
    ensures Parse(w0 + ("{" + (w1 + (Quote(k) + (w2 + (":" + (w3 + (Quote(v) + (w4 + ("}" + w5))))))))))
      == Some(JObject([(k, JString(v))]))
  {
    var m := Quote(k) + (w2 + (":" + (w3 + (Quote(v) + (w4 + ("}" + w5))))));
    var s := "{" + (w1 + m);
    SpacedMember(k, v, w2, w3, w4, w5);
    assert s[1..] == w1 + m;
    SkipSpaces(w1, m);
    SkipWsNonSpace(m);
    assert ParseValue(s) == Some((JObject([(k, JString(v))]), w5));
    SkipSpaces(w0, s);
    SkipWsNonSpace(s);
    SkipSpaces(w5, []);
    assert w5 + [] == w5;
  }
}

=== FILE: move_route.dfy ===
/** `POST /api/test/move`: step a user one cell in a direction, creating the
    target cell when absent, then announce the move on the presence topic. */
module MoveRoute {
  import opened Types
  import opened Wrappers
  import opened RouteCommon
  import opened WorldStore
  import GameRules

  /** The JSON body; a field the client left out is `None`. */
  datatype MoveBody = MoveBody(userId: Option<string>, direction: Option<string>)

  const MissingParams: string := "missing_params"
  const UserNotReady: string := "user_not_ready"
  const FailedToMove: string := "failed_to_move"

  /** The cell a move creates at `(x, y)` when none exists there. */
  function DefaultCell(id: CellId, x: int, y: int): WorldCell {
    WorldCell(id, x, y, DefaultMapCharacter, DefaultTitle, DefaultDescription)
  }

  /** Where a user standing in `prev` ends up: the existing cell one step in
      `direction`, or a new default cell there. */
  function Target(st: Store, prev: WorldCell, direction: string, newId: CellId): (t: WorldCell)
    ensures (t.x, t.y) == GameRules.Step(prev.x, prev.y, direction)
    ensures CellAt(st.cells, t.x, t.y).Some? ==> t == CellAt(st.cells, t.x, t.y).value
    ensures CellAt(st.cells, t.x, t.y).None? ==> t == DefaultCell(newId, t.x, t.y)
  {
    var (nx, ny) := GameRules.Step(prev.x, prev.y, direction);
    match CellAt(st.cells, nx, ny)
    case Some(c) => c
    case None => DefaultCell(newId, nx, ny)
  }

  /** The request reached the move itself: body read, both fields truthy,
      and the user stands in a cell. */
  predicate Ready(st: Store, body: Option<MoveBody>) {
    && body.Some?
    && Truthy(body.value.userId) && Truthy(body.value.direction)
    && UserCell(st, body.value.userId.value).Some?
  }

  /** One request. `body` is `None` when the request body does not parse;
      `fault` names the awaited call that rejects, if any; `newId` is the id
      the store assigns to a created cell. Effects that completed before a
      rejection stay in the store. */
  function Move(st: Store, body: Option<MoveBody>, fault: Option<RouteStep>, newId: CellId, clock: Clock): (r: RouteResult)
    // an unreadable body is a 500 `failed_to_move`
    ensures body.None? || Throws(fault, ReadBody) ==> r == Failure(st, [], 500, FailedToMove)
    // validation: both fields must be truthy strings; nothing changes otherwise
    ensures body.Some? && !Throws(fault, ReadBody) && !(Truthy(body.value.userId) && Truthy(body.value.direction))
      ==> r == Failure(st, [], 400, MissingParams)
    // an absent user, or one without a cell, is not ready; nothing changes
    ensures body.Some? && !Throws(fault, ReadBody) && Truthy(body.value.userId) && Truthy(body.value.direction)
      && !Throws(fault, FindUser) && UserCell(st, body.value.userId.value).None?
      ==> r == Failure(st, [], 404, UserNotReady)
    ensures r.reply.status in {200, 400, 404, 500}
    ensures r.reply.error.None? <==> r.reply.status == 200
    ensures r.reply.status == 500 <==> r.reply.error == Some(FailedToMove)
    // success when the request is ready and no awaited call rejects; a
    // rejecting `createWorldCell` matters only when the target is absent
    ensures fault.None? && Ready(st, body) ==> r.reply.status == 200
    ensures r.reply.status == 200 ==> Ready(st, body) && (fault.Some? ==> fault.value.CreateCell?)
    // on a ready request every rejection is a 500, except a rejecting
    // `createWorldCell` when the target already exists (it is never called)
    ensures Ready(st, body) && fault.Some? ==>
      var prev := UserCell(st, body.value.userId.value).value;
      var target := Target(st, prev, body.value.direction.value, newId);
      (r.reply.status == 500 <==> !(fault.value.CreateCell? && CellAt(st.cells, target.x, target.y).Some?))
    ensures r.store.users.Keys == st.users.Keys
    ensures Ready(st, body) ==>
      var uid := body.value.userId.value;
      var prev := UserCell(st, uid).value;
      var target := Target(st, prev, body.value.direction.value, newId);
      // the only cell a move can add is the default cell at an absent target
      && (r.store.cells == st.cells || (CellAt(st.cells, target.x, target.y).None? && r.store.cells == st.cells + [target]))
      // the user is moved before anything is published
      && (|r.published| > 0 ==> r.store.users[uid].worldCellId == Some(target.id))
      // what was published is a prefix of `user_left` for the old cell, then `user_entered` for the new one
      && r.published <= [Left(prev, uid, clock.leftAt), Entered(target, uid, clock.enteredAt)]
      && (r.reply.status == 200 ==>
            && r.published == [Left(prev, uid, clock.leftAt), Entered(target, uid, clock.enteredAt)]
            && r.reply.cell == Some(target) && r.reply.from == Some(prev)
            && r.store == Relocate(if r.store.cells == st.cells then st else AddCell(st, target), uid, target.id))
    ensures !Ready(st, body) ==> r.store == st && r.published == []
  {
    if body.None? || Throws(fault, ReadBody) then Failure(st, [], 500, FailedToMove)
    else
      var b := body.value;
      if !(Truthy(b.userId) && Truthy(b.direction)) then Failure(st, [], 400, MissingParams)
      else if Throws(fault, FindUser) then Failure(st, [], 500, FailedToMove)
      else
        var uid := b.userId.value;
        match UserCell(st, uid)
        case None => Failure(st, [], 404, UserNotReady)
        case Some(prev) =>
          var target := Target(st, prev, b.direction.value, newId);
          var found := CellAt(st.cells, target.x, target.y);
          if Throws(fault, FindCell) then Failure(st, [], 500, FailedToMove)
          else if found.None? && Throws(fault, CreateCell) then Failure(st, [], 500, FailedToMove)
          else
            var st1 := if found.Some? then st else AddCell(st, target);
            if Throws(fault, UpdateUser) then Failure(st1, [], 500, FailedToMove)
            else
              var st2 := Relocate(st1, uid, target.id);
              var left := Left(prev, uid, clock.leftAt);
              if Throws(fault, PublishLeft) then Failure(st2, [], 500, FailedToMove)
              else if Throws(fault, PublishEntered) then Failure(st2, [left], 500, FailedToMove)
              else RouteResult(st2, [left, Entered(target, uid, clock.enteredAt)], Reply(200, None, Some(target), Some(prev)))
  }

  /** A move keeps the store's constraints, given that the id the store
      assigns to a new cell is fresh. */
  lemma {:induction false} MoveKeepsValid(st: Store, body: Option<MoveBody>, fault: Option<RouteStep>, newId: CellId, clock: Clock)
    requires Valid(st)
    requires !IdUsed(st.cells, newId)
    ensures Valid(Move(st, body, fault, newId, clock).store)
  {
    var r := Move(st, body, fault, newId, clock);
    if Ready(st, body) {
      var uid := body.value.userId.value;
      var prev := UserCell(st, uid).value;
      var target := Target(st, prev, body.value.direction.value, newId);
      var st1 := if CellAt(st.cells, target.x, target.y).Some? then st else AddCell(st, target);
      if CellAt(st.cells, target.x, target.y).None? {
        AddCellKeepsValid(st, target);
      }
      RelocateKeepsValid(st1, uid, target.id);
      // the store is left before, between or after the two writes
      assert r.store == st || r.store == st1 || r.store == Relocate(st1, uid, target.id);
    }
  }

  /** Where a successful move leaves the user: in the target cell, which the
      store now holds under its id. */
  lemma {:induction false} MovedUserStandsInTarget(st: Store, uid: UserId, direction: string, newId: CellId, clock: Clock)
    requires Valid(st) && !IdUsed(st.cells, newId)
    requires Ready(st, Some(MoveBody(Some(uid), Some(direction))))
    ensures var r := Move(st, Some(MoveBody(Some(uid), Some(direction))), None, newId, clock);
      UserCell(r.store, uid) == Some(Target(st, UserCell(st, uid).value, direction, newId))
      && UserCell(st, uid).value in r.store.cells
  {
    var body := Some(MoveBody(Some(uid), Some(direction)));
    var r := Move(st, body, None, newId, clock);
    var prev := UserCell(st, uid).value;
    var target := Target(st, prev, direction, newId);
    MoveKeepsValid(st, body, None, newId, clock);
    assert target in r.store.cells;
    CellByIdUnique(r.store.cells, target);
    assert prev in st.cells;
  }

  /** Stepping north and then south returns a user to the cell they started
      in, and the way back finds that cell instead of creating one. */
  lemma {:induction false} NorthThenSouthReturns(st: Store, uid: UserId, id1: CellId, id2: CellId, clock: Clock)
    requires Valid(st) && !IdUsed(st.cells, id1)
    requires Ready(st, Some(MoveBody(Some(uid), Some("north"))))
    ensures var r1 := Move(st, Some(MoveBody(Some(uid), Some("north"))), None, id1, clock);
      var r2 := Move(r1.store, Some(MoveBody(Some(uid), Some("south"))), None, id2, clock);
      && r2.reply.status == 200
      && r2.store.cells == r1.store.cells
      && UserCell(r2.store, uid) == UserCell(st, uid)
  {
    var r1 := Move(st, Some(MoveBody(Some(uid), Some("north"))), None, id1, clock);
    var prev := UserCell(st, uid).value;
    MovedUserStandsInTarget(st, uid, "north", id1, clock);
    MoveKeepsValid(st, Some(MoveBody(Some(uid), Some("north"))), None, id1, clock);
    var mid := UserCell(r1.store, uid).value;
    assert (mid.x, mid.y) == (prev.x, prev.y + 1);
    CellAtUnique(r1.store.cells, prev);
    assert Target(r1.store, mid, "south", id2) == prev;
    var r2 := Move(r1.store, Some(MoveBody(Some(uid), Some("south"))), None, id2, clock);
    assert r2.store == Relocate(r1.store, uid, prev.id);
    CellByIdUnique(r2.store.cells, prev);
  }
}

=== FILE: presence_bridge.dfy ===
/** The bridge from the broker topic to the in-process bus: a start-once
    guard around creating one consumer, and the per-message forwarding rule.

    The guard is a plain flag set only after every awaited step has
    completed, so only sequential calls are modelled; two calls that
    interleave before the flag is set each create a consumer, and nothing
    here claims otherwise. */
module PresenceBridge {
  import opened Types
  import opened Wrappers
  import PresenceBus
  import PresenceWire
  import BrokerClient
  import Json

  /** Consumer group shared by every instance of the application. */
  const GroupId: string := "presence-broadcaster"

  /** The awaited steps of a start, in order. */
  datatype StartStep =
    | AwaitReady
    | CreateConsumer(groupId: string)
    | ConnectConsumer
    | SubscribeTopic(topic: string, fromBeginning: bool)
    | RunConsumer

  /** The step whose promise rejects, when one does. */
  datatype StartFailure = ReadyRejected | ConnectRejected | SubscribeRejected | RunRejected

  /** `started` and the number of consumers ever created. */
  datatype BridgeState = BridgeState(started: bool, consumersCreated: nat)

  const InitialBridge: BridgeState := BridgeState(false, 0)

  datatype StartResult = StartResult(state: BridgeState, steps: seq<StartStep>, outcome: Outcome<StartFailure>)

  /** Everything a start from scratch does when nothing rejects. The consumer
      reads the presence topic from its current end, not from the beginning. */
  const FullStart: seq<StartStep> :=
    [AwaitReady, CreateConsumer(GroupId), ConnectConsumer, SubscribeTopic(PresenceTopic, false), RunConsumer]

  /** The awaited step whose promise a failure names. */
  function FailingStep(f: StartFailure): StartStep {
    match f
    case ReadyRejected => AwaitReady
    case ConnectRejected => ConnectConsumer
    case SubscribeRejected => SubscribeTopic(PresenceTopic, false)
    case RunRejected => RunConsumer
  }

  /** How many of the start steps are attempted when `failure` rejects:
      every step up to and including the rejecting one, and all of them
      when nothing rejects. */
  function StepsAttempted(failure: Option<StartFailure>): (n: nat)
    ensures 1 <= n <= |FullStart|
    ensures failure.Some? ==> FullStart[n - 1] == FailingStep(failure.value)
    ensures failure.None? ==> n == |FullStart|
  {
    match failure
    case Some(ReadyRejected) => 1
    case Some(ConnectRejected) => 3
    case Some(SubscribeRejected) => 4
    case _ => 5
  }

  /** `startPresenceBridge`. */
  function Start(s: BridgeState, failure: Option<StartFailure>): (r: StartResult)
    ensures s.started ==> r == StartResult(s, [], Pass)
    ensures !s.started ==> r.steps <= FullStart && |r.steps| >= 1
    // nothing after the rejecting step runs
    ensures !s.started && failure.Some? ==> r.steps[|r.steps| - 1] == FailingStep(failure.value)
    ensures r.state.started <==> s.started || failure.None?
    ensures r.outcome.Pass? <==> s.started || failure.None?
    ensures r.state.started && !s.started ==> r.steps == FullStart
    ensures r.state.consumersCreated == s.consumersCreated + (if CreateConsumer(GroupId) in r.steps then 1 else 0)
    ensures !s.started ==> (CreateConsumer(GroupId) in r.steps <==> failure != Some(ReadyRejected))
  {
    if s.started then StartResult(s, [], Pass)
    else
      var steps := FullStart[..StepsAttempted(failure)];
      var created := if failure == Some(ReadyRejected) then 0 else 1;
      assert created == 1 ==> steps[1] == CreateConsumer(GroupId);
      match failure
      case Some(f) => StartResult(BridgeState(false, s.consumersCreated + created), steps, Fail(f))
      case None => StartResult(BridgeState(true, s.consumersCreated + 1), steps, Pass)
  }

  /** A sequence of calls, each awaited before the next, with the given outcomes. */
  function StartAll(s: BridgeState, failures: seq<Option<StartFailure>>): BridgeState
    decreases |failures|
  {
    if |failures| == 0 then s else StartAll(Start(s, failures[0]).state, failures[1..])
  }

  /** Once started, any number of sequential further calls change nothing and
      create no consumer. */
  lemma {:induction false} StartedStaysPut(s: BridgeState, failures: seq<Option<StartFailure>>)
    requires s.started
    ensures StartAll(s, failures) == s
    decreases |failures|
  {
    if |failures| > 0 {
      StartedStaysPut(Start(s, failures[0]).state, failures[1..]);
    }
  }

  /** A first successful start creates exactly one consumer for the life of
      the process, whatever the later calls would have met. */
  lemma {:induction false} FirstSuccessCreatesOneConsumer(failures: seq<Option<StartFailure>>)
    requires |failures| >= 1 && failures[0].None?
    ensures StartAll(InitialBridge, failures) == BridgeState(true, 1)
  {
    StartedStaysPut(Start(InitialBridge, None).state, failures[1..]);
  }

  /** Sequential calls never create more consumers than there were calls, and
      once one succeeds, none after it creates another. */
  lemma {:induction false} ConsumersBounded(s: BridgeState, failures: seq<Option<StartFailure>>)
    ensures StartAll(s, failures).consumersCreated <= s.consumersCreated + |failures|
    decreases |failures|
  {
    if |failures| > 0 {
      ConsumersBounded(Start(s, failures[0]).state, failures[1..]);
    }
  }

  /** What `eachMessage` does with one record. */
  datatype Delivery =
    | Dropped
    | ParseThrew
    | NullThrew
    | Pushed(value: Json.Json, invoked: seq<PresenceBus.CallbackId>)

  /** The registry key that `e.worldCellId` names for a parsed value `e`: the
      string value of an object's `worldCellId` property. Any other value (no
      such property, a number, an array, a string or boolean primitive) names
      no key, since every key the registry holds is a cell-id string. */
  function CellKey(v: Json.Json): (c: Option<CellId>)
    ensures c.Some? ==> v.JObject? && Json.Get(v.members, "worldCellId") == Some(Json.JString(c.value))
  {
    if v.JObject? then PresenceWire.StringField(v.members, "worldCellId") else None
  }

  /** `eachMessage`: a record without a value is dropped; any other value is
      handed to `JSON.parse`, and whatever it returns to `pushToBus`. Text
      that is not JSON makes the handler throw, and so does the text `null`,
      whose `worldCellId` cannot be read: nothing skips either. */
  function EachMessage(b: PresenceBus.Bus, value: Option<string>): (r: Delivery)
    requires PresenceBus.Valid(b)
    ensures r.Dropped? <==> value.None?
    ensures r.ParseThrew? <==> value.Some? && Json.Parse(value.value).None?
    ensures r.NullThrew? <==> value.Some? && Json.Parse(value.value) == Some(Json.JNull)
    ensures r.Pushed? ==> Json.Parse(value.value) == Some(r.value)
    ensures r.Pushed? && CellKey(r.value).Some? ==> r.invoked == PresenceBus.Push(b, CellKey(r.value).value)
    ensures r.Pushed? && CellKey(r.value).None? ==> r.invoked == []
  {
    match value
    case None => Dropped
    case Some(text) =>
      match Json.Parse(text)
      case None => ParseThrew
      case Some(JNull) => NullThrew
      case Some(v) =>
        match CellKey(v)
        case Some(c) => Pushed(v, PresenceBus.Push(b, c))
        case None => Pushed(v, [])
  }

  /** End to end inside one process: a record written by the publisher
      reaches exactly the callbacks subscribed to its cell, and they receive
      the event that was published. */
  lemma {:induction false} PublishedRecordReachesSubscribers(b: PresenceBus.Bus, e: PresenceEvent)
    requires PresenceBus.Valid(b)
    ensures EachMessage(b, Some(PresenceWire.Encode(e))) == Pushed(PresenceWire.ToJson(e), PresenceBus.Push(b, e.worldCellId))
    ensures PresenceWire.FromJson(PresenceWire.ToJson(e)) == Some(e)
  {
    PresenceWire.DecodeEncode(e);
    var v := PresenceWire.ToJson(e);
    assert CellKey(v) == Some(e.worldCellId) by {
      PresenceWire.FromToJson(e);
    }
  }

  /** Whatever else the record says, in whatever key order and after any
      leading whitespace, an object of strings whose `worldCellId` is `c`
      reaches exactly the callbacks subscribed to `c`. */
  lemma {:induction false} AnyObjectWithCellIsForwarded(b: PresenceBus.Bus, w: string, ms: seq<(string, string)>, c: CellId)
    requires PresenceBus.Valid(b)
    requires Json.AllSpace(w)
    requires Json.Get(Json.StringMembers(ms), "worldCellId") == Some(Json.JString(c))
    ensures EachMessage(b, Some(w + Json.ObjectText(ms))) == Pushed(Json.JObject(Json.StringMembers(ms)), PresenceBus.Push(b, c))
  {
    var v := Json.JObject(Json.StringMembers(ms));
    assert Json.Parse(w + Json.ObjectText(ms)) == Some(v) by {
      Json.LeadingSpaceIgnored(w, Json.ObjectText(ms));
      Json.ObjectRoundTrip(ms);
    }
    assert CellKey(v) == Some(c);
  }

  /** Whitespace between the tokens of a record does not change where it goes. */
  lemma {:induction false} SpacedRecordIsForwarded(b: PresenceBus.Bus, c: CellId,
                                                   w0: string, w1: string, w2: string, w3: string, w4: string, w5: string)
    requires PresenceBus.Valid(b)
    requires Json.AllSpace(w0) && Json.AllSpace(w1) && Json.AllSpace(w2)
    requires Json.AllSpace(w3) && Json.AllSpace(w4) && Json.AllSpace(w5)
    ensures var text := w0 + ("{" + (w1 + (Json.Quote("worldCellId") + (w2 + (":" + (w3 + (Json.Quote(c) + (w4 + ("}" + w5)))))))));
      EachMessage(b, Some(text)) == Pushed(Json.JObject([("worldCellId", Json.JString(c))]), PresenceBus.Push(b, c))
  {
    Json.SpacedObject("worldCellId", c, w0, w1, w2, w3, w4, w5);
  }

  /** A record that parses to `null` throws; one that parses to a number or
      to an object without `worldCellId` reaches nobody. */
  lemma {:induction false} NonEventsReachNobody(b: PresenceBus.Bus)
    requires PresenceBus.Valid(b)
    ensures EachMessage(b, Some("null")) == NullThrew
    ensures EachMessage(b, Some("1")) == Pushed(Json.JNumber("1"), [])
    ensures EachMessage(b, Some("{}")) == Pushed(Json.JObject([]), [])
  {
    assert Json.Parse("null") == Some(Json.JNull) by {
      assert Json.ParseValue("null") == Some((Json.JNull, []));
    }
    assert Json.Parse("1") == Some(Json.JNumber("1")) by {
      assert Json.DigitRun("1") == 1 by {
        assert Json.DigitRun("1"[1..]) == 0;
      }
      assert Json.FractionEnd("1", 1) == Some(1);
      assert Json.ExponentEnd("1", 1) == Some(1);
      assert "1"[..1] == "1" && "1"[1..] == [];
      assert Json.ParseNumber("1") == Some((Json.JNumber("1"), []));
    }
    assert Json.Parse("{}") == Some(Json.JObject([])) by {
      Json.ObjectRoundTrip([]);
      assert Json.ObjectText([]) == "{}";
    }
  }
}

=== FILE: presence_bus.dfy ===
/** The in-process presence bus: a registry from world-cell id to the set of
    local subscriber callbacks, with subscribe, the returned disposer, and a
    synchronous push to the callbacks of one cell.

    A callback is identified by an opaque token; the registry keeps, per
    cell, the callbacks in first-registration order (the iteration order of a
    JavaScript `Set`) without duplicates. `Push` returns the callbacks it
    invokes, in invocation order. */
module PresenceBus {
  import opened Types
  import opened Seqs

  /** Identity of a subscriber callback (the closure object in the source). */
  type CallbackId = nat

  type Bus = map<CellId, seq<CallbackId>>

  /** The empty registry the module starts with. */
  const EmptyBus: Bus := map[]

  /** Every entry is a set: no callback is registered twice under one cell. */
  predicate Valid(b: Bus) {
    forall c :: c in b ==> NoDup(b[c])
  }

  /** `subscribeToCell`: create the cell's entry if absent, then add the
      callback to it unless it is already there. */
  function Subscribe(b: Bus, c: CellId, cb: CallbackId): (r: Bus)
    requires Valid(b)
    ensures Valid(r)
    ensures r.Keys == b.Keys + {c}
    ensures cb in r[c]
    ensures forall d :: d in b && d != c ==> r[d] == b[d]
    ensures forall other :: other in r[c] <==> other == cb || (c in b && other in b[c])
  {
    var entry := if c in b then b[c] else [];
    if cb in entry then b
    else
      assert NoDup(entry + [cb]);
      b[c := entry + [cb]]
  }

  /** The disposer returned by `subscribeToCell(c, cb)`: delete `cb` from the
      entry of `c`. The entry itself is never removed, so the source's
      non-null assertion on it always holds for a disposer obtained from
      `Subscribe`. The boolean is `Set.delete`'s answer: whether `cb` was there. */
  function Dispose(b: Bus, c: CellId, cb: CallbackId): (r: (Bus, bool))
    requires Valid(b)
    requires c in b
    ensures Valid(r.0)
    ensures r.0.Keys == b.Keys
    ensures cb !in r.0[c]
    ensures forall other :: other != cb ==> (other in r.0[c] <==> other in b[c])
    ensures forall d :: d in b && d != c ==> r.0[d] == b[d]
    ensures r.1 <==> cb in b[c]
  {
    RemoveValueNoDup(b[c], cb);
    (b[c := RemoveValue(b[c], cb)], cb in b[c])
  }

  /** `pushToBus(e)` with `e.worldCellId == cell`: the callbacks invoked, in
      order. A cell with no entry invokes nothing; the registry itself is
      only read. */
  function Push(b: Bus, cell: CellId): (invoked: seq<CallbackId>)
    requires Valid(b)
    ensures NoDup(invoked)
    ensures forall cb :: cb in invoked <==> cell in b && cb in b[cell]
    ensures cell !in b ==> invoked == []
  {
    if cell in b then b[cell] else []
  }

  /** Fan-out: after subscribing `cb` to `c`, a push for `c` invokes `cb`
      exactly once, whatever was registered before. */
  lemma {:induction false} SubscribeThenPushInvokesOnce(b: Bus, c: CellId, cb: CallbackId)
    requires Valid(b)
    ensures Count(Push(Subscribe(b, c, cb), c), cb) == 1
  {
    CountNoDup(Push(Subscribe(b, c, cb), c), cb);
  }

  /** Every subscription of a cell is invoked exactly once per push. */
  lemma {:induction false} PushInvokesEachSubscriberOnce(b: Bus, c: CellId, cb: CallbackId)
    requires Valid(b)
    requires c in b && cb in b[c]
    ensures Count(Push(b, c), cb) == 1
  {
    CountNoDup(Push(b, c), cb);
  }

  /** A callback registered only under other cells is never invoked. */
  lemma {:induction false} PushIgnoresOtherCells(b: Bus, c: CellId, cb: CallbackId)
    requires Valid(b)
    requires c !in b || cb !in b[c]
    ensures Count(Push(b, c), cb) == 0
  {
    CountAbsent(Push(b, c), cb);
  }

  /** Set semantics: subscribing the same callback twice is the same as once. */
  lemma {:induction false} SubscribeIdempotent(b: Bus, c: CellId, cb: CallbackId)
    requires Valid(b)
    ensures Subscribe(Subscribe(b, c, cb), c, cb) == Subscribe(b, c, cb)
  {
  }

  /** Callbacks of a cell run in first-registration order: a new callback is
      invoked after every callback that was already registered. */
  lemma {:induction false} SubscribeNewRunsLast(b: Bus, c: CellId, cb: CallbackId)
    requires Valid(b)
    requires c !in b || cb !in b[c]
    ensures Push(Subscribe(b, c, cb), c) == Push(b, c) + [cb]
  {
  }

  /** The disposer undoes a fresh subscription exactly, except that the cell's
      entry (possibly empty) stays in the registry. */
  lemma {:induction false} DisposeUndoesSubscribe(b: Bus, c: CellId, cb: CallbackId)
    requires Valid(b)
    requires c !in b || cb !in b[c]
    ensures Dispose(Subscribe(b, c, cb), c, cb).0 == b[c := if c in b then b[c] else []]
  {
    var entry := if c in b then b[c] else [];
    RemoveAppended(entry, cb);
  }

  /** After disposal the callback is not invoked for its cell; every other
      callback of that cell still is, in the same relative order. */
  lemma {:induction false} DisposeStopsDelivery(b: Bus, c: CellId, cb: CallbackId)
    requires Valid(b)
    requires c in b
    ensures Push(Dispose(b, c, cb).0, c) == RemoveValue(Push(b, c), cb)
    ensures Count(Push(Dispose(b, c, cb).0, c), cb) == 0
  {
    CountAbsent(Push(Dispose(b, c, cb).0, c), cb);
  }

  /** Disposing the last callback of a cell leaves an empty entry, and a later
      push for that cell invokes nothing. */
  lemma {:induction false} DisposeLastLeavesEmptyEntry(b: Bus, c: CellId, cb: CallbackId)
    requires Valid(b)
    requires c in b && b[c] == [cb]
    ensures c in Dispose(b, c, cb).0
    ensures Push(Dispose(b, c, cb).0, c) == []
  {
    assert RemoveValue([cb], cb) == RemoveValue([cb][1..], cb);
  }
}

=== FILE: presence_listener.dfy ===
/** The browser side of presence: open the stream of the user's cell, and
    turn other users' enter/leave events into journal entries, each event
    at most once. */
module PresenceListener {
  import opened Types
  import opened Wrappers

  const StreamPrefix: string := "/api/presence/stream/"
  const EnteredText: string := "Un joueur est entr\U{e9} dans votre cellule."
  const LeftText: string := "Un joueur a quitt\U{e9} votre cellule."

  /** The subscribe guard: a stream is opened only when both the cell id and
      the user id are truthy, and its URL names the cell. */
  function StreamUrl(worldCellId: Option<string>, userId: Option<string>): (url: Option<string>)
    ensures url.Some? <==> Truthy(worldCellId) && Truthy(userId)
    ensures url.Some? ==> (url.value == StreamPrefix + worldCellId.value
      && url.value[|StreamPrefix|..] == worldCellId.value)
  {
    if Truthy(worldCellId) && Truthy(userId) then Some(StreamPrefix + worldCellId.value) else None
  }

  /** A stream frame after `JSON.parse`: unparseable text, or an object
      whose fields are read as strings. */
  datatype Frame = Malformed | Parsed(eventType: string, worldCellId: string, userId: string, at: string)

  /** The de-duplication key `cell:user:type:at`. */
  function Key(f: Frame): string
    requires f.Parsed?
  {
    f.worldCellId + ":" + f.userId + ":" + f.eventType + ":" + f.at
  }

  /** Position of the first colon, or the length when there is none. */
  function ColonIndex(s: string): (k: nat)
    ensures k <= |s|
    decreases |s|
  {
    if |s| == 0 || s[0] == ':' then 0 else 1 + ColonIndex(s[1..])
  }

  lemma {:induction false} ColonIndexAfter(x: string, r: string)
    requires ':' !in x
    ensures ColonIndex(x + ":" + r) == |x|
    decreases |x|
  {
    if |x| > 0 {
      assert (x + ":" + r)[1..] == x[1..] + ":" + r;
      ColonIndexAfter(x[1..], r);
    }
  }

  /** A colon-free head followed by a colon splits uniquely. */
  lemma {:induction false} SplitAtColon(x: string, r: string, y: string, s: string)
    requires ':' !in x && ':' !in y
    requires x + ":" + r == y + ":" + s
    ensures x == y && r == s
  {
    var l := x + ":" + r;
    ColonIndexAfter(x, r);
    ColonIndexAfter(y, s);
    assert x == l[..|x|] && y == (y + ":" + s)[..|y|];
    assert r == l[|x| + 1..] && s == (y + ":" + s)[|y| + 1..];
  }

  /** Two events with colon-free cell ids, user ids and types share a key
      only when all four fields agree (the timestamp may hold colons). */
  lemma {:induction false} KeyInjective(f: Frame, g: Frame)
    requires f.Parsed? && g.Parsed?
    requires ':' !in f.worldCellId && ':' !in f.userId && ':' !in f.eventType
    requires ':' !in g.worldCellId && ':' !in g.userId && ':' !in g.eventType
    requires Key(f) == Key(g)
    ensures f == g
  {
    assert Key(f) == f.worldCellId + ":" + (f.userId + ":" + f.eventType + ":" + f.at);
    assert Key(g) == g.worldCellId + ":" + (g.userId + ":" + g.eventType + ":" + g.at);
    SplitAtColon(f.worldCellId, f.userId + ":" + f.eventType + ":" + f.at, g.worldCellId, g.userId + ":" + g.eventType + ":" + g.at);
    assert f.userId + ":" + f.eventType + ":" + f.at == f.userId + ":" + (f.eventType + ":" + f.at);
    assert g.userId + ":" + g.eventType + ":" + g.at == g.userId + ":" + (g.eventType + ":" + g.at);
    SplitAtColon(f.userId, f.eventType + ":" + f.at, g.userId, g.eventType + ":" + g.at);
    SplitAtColon(f.eventType, f.at, g.eventType, g.at);
  }

  /** One `onmessage`: the key set afterwards, the text sent to
      `createJournalEntry` (if any), and the entry appended locally, which
      is missing when that call rejects. */
  datatype Handled = Handled(seen: set<string>, requested: Option<string>, appended: Option<string>)

  function OnMessage(seen: set<string>, me: UserId, f: Frame, createRejects: bool): (h: Handled)
    ensures f.Malformed? ==> h == Handled(seen, None, None)
    ensures f.Parsed? && f.eventType == "connected" ==> h == Handled(seen, None, None)
    // own events and other types are ignored
    ensures f.Parsed? && (f.userId == me || (f.eventType != "user_entered" && f.eventType != "user_left")) ==>
      h == Handled(seen, None, None)
    ensures h.requested.Some? <==> (f.Parsed? && (f.eventType == "user_entered" || f.eventType == "user_left")
      && f.userId != me && Key(f) !in seen)
    ensures h.requested.Some? ==> (h.seen == seen + {Key(f)}
      && h.requested.value == (if f.eventType == "user_entered" then EnteredText else LeftText))
    ensures h.requested.None? ==> h.seen == seen
    ensures h.appended.Some? <==> h.requested.Some? && !createRejects
    ensures h.appended.Some? ==> h.appended == h.requested
  {
    if f.Malformed? then Handled(seen, None, None)
    else if f.eventType == "connected" then Handled(seen, None, None)
    else if (f.eventType == "user_entered" || f.eventType == "user_left") && f.userId != me then
      var key := Key(f);
      if key in seen then Handled(seen, None, None)
      else
        var content := if f.eventType == "user_entered" then EnteredText else LeftText;
        Handled(seen + {key}, Some(content), if createRejects then None else Some(content))
    else Handled(seen, None, None)
  }

  /** A redelivered event is handled at most once: after it was taken, the
      same frame requests nothing more, even if its journal write failed. */
  lemma {:induction false} SameEventHandledOnce(seen: set<string>, me: UserId, f: Frame, rejects1: bool, rejects2: bool)
    ensures var h := OnMessage(seen, me, f, rejects1);
      OnMessage(h.seen, me, f, rejects2).requested.None?
  {
  }

  /** Feeding a stream of frames; the texts requested, in order. */
  function OnMessages(seen: set<string>, me: UserId, frames: seq<Frame>): (r: (set<string>, seq<string>))
    ensures seen <= r.0
    decreases |frames|
  {
    if |frames| == 0 then (seen, [])
    else
      var h := OnMessage(seen, me, frames[0], false);
      var rest := OnMessages(h.seen, me, frames[1..]);
      (rest.0, (if h.requested.Some? then [h.requested.value] else []) + rest.1)
  }

  /** No more entries than distinct new keys: a stream repeating one event
      produces one journal entry at most. */
  lemma {:induction false} RepeatedEventOnce(seen: set<string>, me: UserId, f: Frame, n: nat)
    ensures |OnMessages(seen, me, seq(n, _ => f)).1| <= 1
    ensures f.Parsed? && Key(f) in seen ==> OnMessages(seen, me, seq(n, _ => f)).1 == []
    decreases n
  {
    if n > 0 {
      var frames := seq(n, _ => f);
      assert frames[0] == f && frames[1..] == seq(n - 1, _ => f);
      var h := OnMessage(seen, me, f, false);
      RepeatedEventOnce(h.seen, me, f, n - 1);
      if h.requested.Some? {
        assert Key(f) in h.seen;
      }
    }
  }
}

=== FILE: presence_publisher.dfy ===
/** The presence publisher: a cached producer with a connect guard, and a
    send that reconnects and retries once when the broker reports the
    connection as disconnected. Every awaited broker call is an oracle
    outcome; the shared in-flight `connecting` promise is not modelled
    because calls are taken one at a time. */
module PresencePublisher {
  import opened Types
  import opened Wrappers
  import PresenceWire
  import BrokerClient

  type BrokerError = BrokerClient.BrokerError

  /** `cachedProducer !== null`, `producerReady`, and how many producers were built. */
  datatype ProducerState = ProducerState(cached: bool, ready: bool, built: nat)

  const InitialProducer: ProducerState := ProducerState(false, false, 0)

  /** One record handed to `producer.send`. */
  datatype WireMessage = WireMessage(topic: string, key: string, value: string)

  /** The record for `event`: the presence topic, keyed by cell id for
      partition locality, with the event's JSON text as value. */
  function RecordOf(e: PresenceEvent): (m: WireMessage)
    ensures m.topic == PresenceTopic && m.key == e.worldCellId
    ensures PresenceWire.Decode(m.value) == Some(e)
  {
    PresenceWire.DecodeEncode(e);
    WireMessage(PresenceTopic, e.worldCellId, PresenceWire.Encode(e))
  }

  datatype ProducerResult = ProducerResult(state: ProducerState, connectAttempted: bool, outcome: Outcome<BrokerError>)

  /** `getProducer`: wait for provisioning, reuse the cached producer, or
      build one and connect it unless it is already marked ready. */
  function GetProducer(s: ProducerState, ready: Outcome<BrokerError>, connect: Outcome<BrokerError>): (r: ProducerResult)
    ensures ready.Fail? ==> r == ProducerResult(s, false, ready)
    ensures ready.Pass? && s.cached ==> r == ProducerResult(s, false, Pass)
    ensures r.state.cached <==> s.cached || ready.Pass?
    ensures r.state.built == s.built + (if ready.Pass? && !s.cached then 1 else 0)
    ensures r.connectAttempted <==> ready.Pass? && !s.cached && !s.ready
    ensures r.connectAttempted ==> r.outcome == connect && (r.state.ready <==> connect.Pass?)
  {
    if ready.Fail? then ProducerResult(s, false, ready)
    else if s.cached then ProducerResult(s, false, Pass)
    else
      var built := ProducerState(true, s.ready, s.built + 1);
      if s.ready then ProducerResult(built, false, Pass)
      else
        match connect
        case Pass => ProducerResult(built.(ready := true), true, Pass)
        case Fail(err) => ProducerResult(built, true, Fail(err))
  }

  /** `(e?.message || '').includes(needle)`. */
  predicate Contains(s: string, needle: string) {
    exists i | 0 <= i <= |s| - |needle| :: OccursAt(s, needle, i)
  }

  predicate OccursAt(s: string, needle: string, i: int) {
    0 <= i && i + |needle| <= |s| && s[i..i + |needle|] == needle
  }

  predicate IsDisconnected(err: BrokerError) {
    Contains(OrDefault(err.message, ""), "disconnected")
  }

  /** The outcomes the broker gives, in the order the calls are made. */
  datatype PublishOracle = PublishOracle(
    ready: Outcome<BrokerError>,
    connect: Outcome<BrokerError>,
    firstSend: Outcome<BrokerError>,
    reconnect: Outcome<BrokerError>,
    secondSend: Outcome<BrokerError>)

  /** The new producer state, the records attempted, the outcome, whether the
      retry path was taken and whether the success line was logged. */
  datatype PublishResult = PublishResult(
    state: ProducerState,
    sends: seq<WireMessage>,
    outcome: Outcome<BrokerError>,
    retried: bool,
    logged: bool)

  /** `publishPresenceEventKafka`. */
  function Publish(s: ProducerState, e: PresenceEvent, o: PublishOracle): (r: PublishResult)
    ensures |r.sends| <= 2
    ensures forall m :: m in r.sends ==> m == RecordOf(e)
    ensures var p := GetProducer(s, o.ready, o.connect);
      p.outcome.Fail? ==> r.sends == [] && r.outcome == p.outcome && !r.retried
    ensures var p := GetProducer(s, o.ready, o.connect);
      p.outcome.Pass? ==> |r.sends| >= 1
    ensures var p := GetProducer(s, o.ready, o.connect);
      p.outcome.Pass? && o.firstSend.Pass? ==> r.outcome.Pass? && r.sends == [RecordOf(e)] && !r.retried
    ensures r.retried <==> |r.sends| >= 1 && o.firstSend.Fail? && IsDisconnected(o.firstSend.error)
    ensures |r.sends| == 2 <==> r.retried && o.reconnect.Pass?
    ensures o.firstSend.Fail? && !IsDisconnected(o.firstSend.error) && |r.sends| == 1 ==> r.outcome == o.firstSend
    ensures r.retried ==> r.state.ready == o.reconnect.Pass?
    ensures r.retried && o.reconnect.Fail? ==> r.outcome == o.reconnect
    ensures |r.sends| == 2 ==> r.outcome == o.secondSend
    ensures r.logged <==> r.outcome.Pass?
    ensures r.outcome.Pass? ==> |r.sends| >= 1
    ensures r.state.cached == (s.cached || o.ready.Pass?)
    ensures r.state.built == GetProducer(s, o.ready, o.connect).state.built
  {
    var p := GetProducer(s, o.ready, o.connect);
    if p.outcome.Fail? then PublishResult(p.state, [], p.outcome, false, false)
    else
      var m := RecordOf(e);
      match o.firstSend
      case Pass => PublishResult(p.state, [m], Pass, false, true)
      case Fail(err) =>
        if !IsDisconnected(err) then PublishResult(p.state, [m], Fail(err), false, false)
        else
          var notReady := p.state.(ready := false);
          match o.reconnect
          case Fail(err2) => PublishResult(notReady, [m], Fail(err2), true, false)
          case Pass =>
            var again := notReady.(ready := true);
            PublishResult(again, [m, m], o.secondSend, true, o.secondSend.Pass?)
  }

  /** The producer is built at most once: `built` counts the cached producer. */
  predicate BuiltOnce(s: ProducerState) {
    s.built == (if s.cached then 1 else 0)
  }

  function PublishAll(s: ProducerState, events: seq<PresenceEvent>, oracles: seq<PublishOracle>): ProducerState
    requires |events| == |oracles|
    decreases |events|
  {
    if |events| == 0 then s
    else PublishAll(Publish(s, events[0], oracles[0]).state, events[1..], oracles[1..])
  }

  /** Across any sequence of publishes the producer is constructed at most
      once and then reused. */
  lemma {:induction false} ProducerBuiltAtMostOnce(s: ProducerState, events: seq<PresenceEvent>, oracles: seq<PublishOracle>)
    requires |events| == |oracles|
    requires BuiltOnce(s)
    ensures BuiltOnce(PublishAll(s, events, oracles))
    ensures PublishAll(s, events, oracles).built <= 1
    decreases |events|
  {
    if |events| > 0 {
      ProducerBuiltAtMostOnce(Publish(s, events[0], oracles[0]).state, events[1..], oracles[1..]);
    }
  }

  /** Once a producer is cached, a publish never connects through
      `getProducer` again: only the retry path reconnects. */
  lemma {:induction false} CachedProducerIsReused(s: ProducerState, o: PublishOracle)
    requires s.cached && o.ready.Pass?
    ensures GetProducer(s, o.ready, o.connect) == ProducerResult(s, false, Pass)
  {
  }

  /** A producer that reports "disconnected" on the first send
      and then recovers delivers on the retry, and the record is sent twice in
      total, never more. */
  lemma {:induction false} RetryAfterDisconnectDelivers(s: ProducerState, e: PresenceEvent, o: PublishOracle)
    requires s.cached && o.ready.Pass?
    requires o.firstSend == Fail(BrokerClient.BrokerError(Some("The producer is disconnected")))
    requires o.reconnect.Pass? && o.secondSend.Pass?
    ensures Publish(s, e, o).outcome.Pass?
    ensures Publish(s, e, o).sends == [RecordOf(e), RecordOf(e)]
  {
    var msg := "The producer is disconnected";
    assert OccursAt(msg, "disconnected", 16);
  }
}

=== FILE: presence_wire.dfy ===
/** The wire format of a presence event on the broker topic: the text
    `JSON.stringify` produces for `{type, worldCellId, userId, at}` (keys in
    that order), and the event a reader recovers from any JSON text whose
    object carries those four string properties. */
module PresenceWire {
  import opened Types
  import opened Wrappers
  import Json

  /** The object literal the publishers build, as its string members in
      insertion order. */
  function Fields(e: PresenceEvent): seq<(string, string)> {
    [("type", KindName(e.kind)), ("worldCellId", e.worldCellId), ("userId", e.userId), ("at", e.at)]
  }

  /** `JSON.stringify(event)`. */
  function Encode(e: PresenceEvent): string {
    Json.ObjectText(Fields(e))
  }

  /** The value `JSON.parse` gives back for the event's text. */
  function ToJson(e: PresenceEvent): Json.Json {
    Json.JObject(Json.StringMembers(Fields(e)))
  }

  function DecodeKind(name: string): (k: Option<PresenceKind>)
    ensures k.Some? ==> KindName(k.value) == name
  {
    if name == "user_entered" then Some(UserEntered)
    else if name == "user_left" then Some(UserLeft)
    else None
  }

  /** A string-valued property of an object. */
  function StringField(members: seq<(string, Json.Json)>, key: string): (r: Option<string>)
    ensures r.Some? <==> Json.Get(members, key).Some? && Json.Get(members, key).value.JString?
    ensures r.Some? ==> Json.Get(members, key) == Some(Json.JString(r.value))
  {
    match Json.Get(members, key)
    case Some(JString(s)) => Some(s)
    case _ => None
  }

  /** The presence event a parsed value describes: an object whose `type`,
      `worldCellId`, `userId` and `at` are strings and whose `type` names a
      kind. Member order, other members and whitespace do not matter. */
  function FromJson(v: Json.Json): (r: Option<PresenceEvent>)
    ensures r.Some? <==> (v.JObject? && StringField(v.members, "worldCellId").Some?
      && StringField(v.members, "userId").Some? && StringField(v.members, "at").Some?
      && StringField(v.members, "type").Some? && DecodeKind(StringField(v.members, "type").value).Some?)
    ensures r.Some? ==> (Json.Get(v.members, "worldCellId") == Some(Json.JString(r.value.worldCellId))
      && Json.Get(v.members, "userId") == Some(Json.JString(r.value.userId))
      && Json.Get(v.members, "at") == Some(Json.JString(r.value.at))
      && Json.Get(v.members, "type") == Some(Json.JString(KindName(r.value.kind))))
  {
    match v
    case JObject(ms) =>
      var t :- StringField(ms, "type");
      var kind :- DecodeKind(t);
      var c :- StringField(ms, "worldCellId");
      var u :- StringField(ms, "userId");
      var a :- StringField(ms, "at");
      Some(PresenceEvent(kind, c, u, a))
    case _ => None
  }

  /** Reads a presence event from broker text. */
  function Decode(text: string): Option<PresenceEvent> {
    var v :- Json.Parse(text);
    FromJson(v)
  }

  /** In members with distinct keys, a key's property is the value stored
      under it. */
  lemma {:induction false} GetDistinct(ms: seq<(string, string)>, p: nat)
    requires p < |ms|
    requires forall i, j :: 0 <= i < j < |ms| ==> ms[i].0 != ms[j].0
    ensures Json.Get(Json.StringMembers(ms), ms[p].0) == Some(Json.JString(ms[p].1))
  {
    var members := Json.StringMembers(ms);
    assert members[p].0 == ms[p].0;
    var r := Json.Get(members, ms[p].0);
    var i :| 0 <= i < |members| && members[i] == (ms[p].0, r.value)
      && forall j :: i < j < |members| ==> members[j].0 != ms[p].0;
    assert i == p by {
      if i < p {
        assert false;
      } else if p < i {
        assert false;
      }
    }
  }

  lemma {:induction false} FieldsDistinct(e: PresenceEvent)
    ensures forall i, j :: 0 <= i < j < |Fields(e)| ==> Fields(e)[i].0 != Fields(e)[j].0
  {
  }

  lemma {:induction false} FromFields(ms: seq<(string, Json.Json)>, e: PresenceEvent)
    requires StringField(ms, "type") == Some(KindName(e.kind))
    requires StringField(ms, "worldCellId") == Some(e.worldCellId)
    requires StringField(ms, "userId") == Some(e.userId)
    requires StringField(ms, "at") == Some(e.at)
    ensures FromJson(Json.JObject(ms)) == Some(e)
  {
    assert DecodeKind(KindName(e.kind)) == Some(e.kind);
  }

  /** A parsed event object yields the event back. */
  lemma {:induction false} FromToJson(e: PresenceEvent)
    ensures FromJson(ToJson(e)) == Some(e)
  {
    var ms := Fields(e);
    var members := Json.StringMembers(ms);
    FieldsDistinct(e);
    assert StringField(members, "type") == Some(KindName(e.kind)) by {
      GetDistinct(ms, 0);
    }
    assert StringField(members, "worldCellId") == Some(e.worldCellId) by {
      GetDistinct(ms, 1);
    }
    assert StringField(members, "userId") == Some(e.userId) by {
      GetDistinct(ms, 2);
    }
    assert StringField(members, "at") == Some(e.at) by {
      GetDistinct(ms, 3);
    }
    FromFields(members, e);
  }

  /** Round trip: the bridge parses exactly the value the publisher wrote,
      and reads back the same event. */
  lemma {:induction false} DecodeEncode(e: PresenceEvent)
    ensures Json.Parse(Encode(e)) == Some(ToJson(e))
    ensures Decode(Encode(e)) == Some(e)
  {
    Json.ObjectRoundTrip(Fields(e));
    FromToJson(e);
  }

  /** Distinct events never share a wire text. */
  lemma {:induction false} EncodeInjective(e1: PresenceEvent, e2: PresenceEvent)
    requires Encode(e1) == Encode(e2)
    ensures e1 == e2
  {
    DecodeEncode(e1);
    DecodeEncode(e2);
  }
}

=== FILE: prompt_processor.dfy ===
/** The server-side prompt pipeline: the trace summary given to the model,
    the execution of a model response against the store, and the journal
    bookkeeping around one prompt. The model itself is not part of this
    model: its response is an input. Every awaited store call is a `Call`;
    one of them may reject, named by its position. */
module PromptProcessor {
  import opened Types
  import opened Wrappers
  import opened Seqs
  import opened Traces
  import GameRules
  import WorldStore

  // ---------------------------------------------------------------------
  // The model's response, as parsed from its JSON
  // ---------------------------------------------------------------------

  /** `Partial<WorldCell>`: every field may be missing. */
  datatype CellDraft = CellDraft(mapCharacter: Option<string>, title: Option<string>, description: Option<string>)
  datatype ObjectDraft = ObjectDraft(name: Option<string>, description: Option<string>)
  datatype TraceDraft = TraceDraft(traceType: TraceType, description: Option<string>)

  datatype PromptResponse = PromptResponse(
    narration: string,
    actions: Option<seq<string>>,
    newWorldCell: Option<CellDraft>,
    updateWorldCell: Option<CellDraft>,
    newObject: Option<ObjectDraft>,
    newTrace: Option<TraceDraft>)

  // ---------------------------------------------------------------------
  // formatTraces
  // ---------------------------------------------------------------------

  const NoTraces: string := "Aucune trace"
  const NoActiveTraces: string := "Aucune trace active"

  /** One trace as the model sees it: `TYPE: description`, or `TYPE` alone
      when the description is missing or empty. */
  function TraceLine(t: Trace): (line: string)
    ensures TraceTypeName(t.traceType) <= line
    ensures Truthy(t.description) ==> line == TraceTypeName(t.traceType) + ": " + t.description.value
    ensures !Truthy(t.description) ==> line == TraceTypeName(t.traceType)
  {
    if Truthy(t.description) then TraceTypeName(t.traceType) + ": " + t.description.value
    else TraceTypeName(t.traceType)
  }

  predicate Unexpired(t: Trace, now: int) {
    t.expiresAt > now
  }

  function Lines(traces: seq<Trace>): (lines: seq<string>)
    ensures |lines| == |traces|
    ensures forall i :: 0 <= i < |traces| ==> lines[i] == TraceLine(traces[i])
  {
    if |traces| == 0 then [] else [TraceLine(traces[0])] + Lines(traces[1..])
  }

  /** `formatTraces`: a missing or empty list is "Aucune trace"; otherwise
      the unexpired traces, one line each, joined with ", ", or "Aucune
      trace active" when none is unexpired. */
  function FormatTraces(traces: Option<seq<Trace>>, now: int): (r: string)
    ensures traces.None? || traces.value == [] ==> r == NoTraces
    ensures traces.Some? && traces.value != [] ==>
      var active := Filter(traces.value, t => Unexpired(t, now));
      (active == [] ==> r == NoActiveTraces)
      && (active != [] ==> TraceLine(active[0]) <= r)
  {
    if traces.None? || |traces.value| == 0 then NoTraces
    else
      var active := Filter(traces.value, t => Unexpired(t, now));
      var joined := Join(Lines(active), ", ");
      if |joined| == 0 then
        assert active == [] by {
          if active != [] {
            JoinStartsWithFirst(Lines(active), ", ");
          }
        }
        NoActiveTraces
      else
        JoinStartsWithFirst(Lines(active), ", ");
        joined
  }

  /** With an unexpired trace present, the summary is the join of the
      unexpired traces' lines. */
  lemma {:induction false} FormatActive(traces: seq<Trace>, now: int)
    requires exists u :: u in traces && Unexpired(u, now)
    ensures var active := Filter(traces, t => Unexpired(t, now));
      active != [] && FormatTraces(Some(traces), now) == Join(Lines(active), ", ")
  {
    var active := Filter(traces, t => Unexpired(t, now));
    var u :| u in traces && Unexpired(u, now);
    assert u in active;
    JoinStartsWithFirst(Lines(active), ", ");
  }

  lemma {:induction false} LinesSnoc(traces: seq<Trace>, t: Trace)
    ensures Lines(traces + [t]) == Lines(traces) + [TraceLine(t)]
  {
  }

  /** One more unexpired trace at the end of the list adds ", " and its line. */
  lemma {:induction false} FormatTracesSnoc(traces: seq<Trace>, t: Trace, now: int)
    requires Unexpired(t, now)
    requires exists u :: u in traces && Unexpired(u, now)
    ensures FormatTraces(Some(traces + [t]), now) == FormatTraces(Some(traces), now) + ", " + TraceLine(t)
  {
    var p := (u: Trace) => Unexpired(u, now);
    var active := Filter(traces, p);
    FormatActive(traces, now);
    var u :| u in traces && Unexpired(u, now);
    assert u in traces + [t];
    FormatActive(traces + [t], now);
    FilterSnoc(traces, t, p);
    assert Filter(traces + [t], p) == active + [t];
    LinesSnoc(active, t);
    JoinSnoc(Lines(active), ", ", TraceLine(t));
  }

  lemma {:induction false} FilterSnoc(s: seq<Trace>, x: Trace, p: Trace -> bool)
    ensures Filter(s + [x], p) == Filter(s, p) + (if p(x) then [x] else [])
  {
    if |s| > 0 {
      assert (s + [x])[1..] == s[1..] + [x];
      FilterSnoc(s[1..], x, p);
    }
  }

  // ---------------------------------------------------------------------
  // Store calls
  // ---------------------------------------------------------------------

  /** The awaited calls the pipeline makes, in the order it makes them. */
  datatype Call =
    | WriteJournal(kind: EntryKind, content: string)
    | GetUser(userId: UserId)
    | FindCellAt(x: int, y: int)
    | ReadJournal(userId: UserId)
    | CreateCell(x: int, y: int, mapCharacter: string, title: string, description: string)
    | CreateTrace(userId: UserId, worldCellId: CellId, traceType: TraceType, description: string)
    | RelocateUser(userId: UserId, x: int, y: int)
    | AddObject(userId: UserId, name: string, description: string)
    | UpdateCell(worldCellId: CellId, change: CellDraft)

  /** The user as `getUser` returns it: the cell is the one held before the
      prompt, and is not refreshed by a move. */
  datatype UserView = UserView(id: UserId, worldCell: Option<WorldCell>)

  /** The calls of a step that ran without rejection, and whether it then
      threw by itself (a condition of the code, not a store rejection). */
  datatype Plan = Plan(calls: seq<Call>, throws: bool)

  function Moved(direction: string): string {
    "Moved " + direction
  }

  /** `handleMovement` from `origin` to `(nx, ny)`: find the target, create
      it from the model's draft only when absent and a draft was given,
      throw when it is still absent; then a footprint at the origin, then the
      relocation. */
  function HandleMovement(cells: seq<WorldCell>, uid: UserId, origin: WorldCell, nx: int, ny: int,
                          direction: string, draft: Option<CellDraft>): (p: Plan)
    ensures |p.calls| >= 1 && p.calls[0] == FindCellAt(nx, ny)
    ensures p.throws <==> WorldStore.CellAt(cells, nx, ny).None? && draft.None?
    ensures p.throws ==> p.calls == [FindCellAt(nx, ny)]
    ensures !p.throws ==>
      var tail := [CreateTrace(uid, origin.id, Footprint, Moved(direction)), RelocateUser(uid, nx, ny)];
      if WorldStore.CellAt(cells, nx, ny).Some? then p.calls == [FindCellAt(nx, ny)] + tail
      else p.calls == [FindCellAt(nx, ny), CreateCell(nx, ny,
          OrDefault(draft.value.mapCharacter, DefaultMapCharacter),
          OrDefault(draft.value.title, DefaultTitle),
          OrDefault(draft.value.description, DefaultDescription))] + tail
  {
    var find := [FindCellAt(nx, ny)];
    var found := WorldStore.CellAt(cells, nx, ny);
    if found.None? && draft.None? then Plan(find, true)
    else
      var create := if found.Some? then [] else
        var d := draft.value;
        [CreateCell(nx, ny, OrDefault(d.mapCharacter, DefaultMapCharacter), OrDefault(d.title, DefaultTitle),
                    OrDefault(d.description, DefaultDescription))];
      Plan(find + create + [CreateTrace(uid, origin.id, Footprint, Moved(direction)), RelocateUser(uid, nx, ny)], false)
  }

  /** The effects after the move: the object, the model's trace and the cell
      update. Trace and update name the cell held before the move. */
  function Effects(uid: UserId, origin: WorldCell, ai: PromptResponse): (calls: seq<Call>)
    ensures forall c :: c in calls ==> c.AddObject? || c.CreateTrace? || c.UpdateCell?
    ensures forall c :: c in calls && (c.CreateTrace? || c.UpdateCell?) ==> c.worldCellId == origin.id
    ensures ai.newObject.Some? <==> |calls| > 0 && calls[0].AddObject?
    ensures ai.newObject.Some? ==>
      calls[0] == AddObject(uid, OrDefault(ai.newObject.value.name, ""), OrDefault(ai.newObject.value.description, ""))
    ensures ai.newTrace.Some? <==> exists i :: 0 <= i < |calls| && calls[i].CreateTrace?
    ensures ai.updateWorldCell.Some? <==> |calls| > 0 && calls[|calls| - 1].UpdateCell?
  {
    var objectCalls := if ai.newObject.Some? then
       [AddObject(uid, OrDefault(ai.newObject.value.name, ""), OrDefault(ai.newObject.value.description, ""))]
     else [];
    var traceCalls := if ai.newTrace.Some? then
         [CreateTrace(uid, origin.id, ai.newTrace.value.traceType, OrDefault(ai.newTrace.value.description, ""))]
       else [];
    var updateCalls := if ai.updateWorldCell.Some? then [UpdateCell(origin.id, ai.updateWorldCell.value)] else [];
    var calls := objectCalls + traceCalls + updateCalls;
    assert ai.newTrace.Some? ==> calls[|objectCalls|].CreateTrace?;
    calls
  }

  /** The calls of the chosen move for a user standing in `origin`: none
      without a move, otherwise `handleMovement` towards the neighbour. */
  function MoveCalls(cells: seq<WorldCell>, uid: UserId, origin: WorldCell, ai: PromptResponse): (p: Plan)
    ensures GameRules.ChosenMove(ai.actions).None? ==> p == Plan([], false)
  {
    match GameRules.ChosenMove(ai.actions)
    case None => Plan([], false)
    case Some(d) =>
      var (nx, ny) := GameRules.Step(origin.x, origin.y, d);
      HandleMovement(cells, uid, origin, nx, ny, d, ai.newWorldCell)
  }

  /** `executeCommandsServerSide`: throw for a user without a cell; at most
      one move, chosen north, south, east, west in that order; then the
      other effects. */
  function ExecuteCommandsServerSide(cells: seq<WorldCell>, user: UserView, ai: PromptResponse): (p: Plan)
    ensures user.worldCell.None? ==> p == Plan([], true)
    // it throws exactly when there is no cell to stand in, or the chosen
    // neighbour is absent and the model drafted no cell for it
    ensures p.throws <==> (user.worldCell.None? ||
      (var move := GameRules.ChosenMove(ai.actions);
       var origin := user.worldCell.value;
       move.Some? && WorldStore.CellAt(cells, GameRules.Step(origin.x, origin.y, move.value).0,
                                       GameRules.Step(origin.x, origin.y, move.value).1).None?
       && ai.newWorldCell.None?))
    // a failed move stops before any other effect
    ensures p.throws && user.worldCell.Some? ==>
      var origin := user.worldCell.value;
      var t := GameRules.Step(origin.x, origin.y, GameRules.ChosenMove(ai.actions).value);
      p.calls == [FindCellAt(t.0, t.1)]
    // otherwise the move's calls, then the object, trace and update
    ensures !p.throws ==> (p.calls == MoveCalls(cells, user.id, user.worldCell.value, ai).calls
      + Effects(user.id, user.worldCell.value, ai))
    ensures !p.throws && GameRules.ChosenMove(ai.actions).None? ==> p.calls == Effects(user.id, user.worldCell.value, ai)
    // one relocation at most, to the chosen neighbour; the model's trace and
    // cell update name the cell the user stood in before the move
    ensures user.worldCell.Some? ==> PlanShape(p.calls, user.id, user.worldCell.value, GameRules.ChosenMove(ai.actions))
  {
    match user.worldCell
    case None => Plan([], true)
    case Some(origin) =>
      var move := GameRules.ChosenMove(ai.actions);
      var m := MoveCalls(cells, user.id, origin, ai);
      var effects := Effects(user.id, origin, ai);
      if m.throws then m
      else
        MovementFacts(cells, user, ai);
        AppendEffects(m.calls, effects, user.id, origin.id, move);
        Plan(m.calls + effects, false)
  }

  /** The shape of the calls for user `uid` standing in `origin` under the
      chosen `move`: at most one relocation, to the neighbour `move` names;
      traces and cell updates name `origin`. */
  predicate PlanShape(calls: seq<Call>, uid: UserId, origin: WorldCell, move: Option<string>) {
    && AtMostOneRelocation(calls)
    && (forall c :: c in calls && (c.CreateTrace? || c.UpdateCell?) ==> c.worldCellId == origin.id)
    && (forall c :: c in calls && c.RelocateUser? ==>
          && c.userId == uid
          && move.Some?
          && (c.x, c.y) == GameRules.Step(origin.x, origin.y, move.value))
  }

  lemma {:induction false} MovementFacts(cells: seq<WorldCell>, user: UserView, ai: PromptResponse)
    requires user.worldCell.Some?
    ensures PlanShape(MoveCalls(cells, user.id, user.worldCell.value, ai).calls, user.id, user.worldCell.value,
                      GameRules.ChosenMove(ai.actions))
  {
  }

  lemma {:induction false} AppendEffects(calls: seq<Call>, effects: seq<Call>, uid: UserId, originId: CellId, move: Option<string>)
    requires forall c :: c in effects ==> c.AddObject? || c.CreateTrace? || c.UpdateCell?
    requires forall c :: c in effects && (c.CreateTrace? || c.UpdateCell?) ==> c.worldCellId == originId
    ensures forall origin: WorldCell :: origin.id == originId && PlanShape(calls, uid, origin, move) ==>
      PlanShape(calls + effects, uid, origin, move)
  {
    forall origin: WorldCell | origin.id == originId && PlanShape(calls, uid, origin, move)
      ensures PlanShape(calls + effects, uid, origin, move)
    {
      var all := calls + effects;
      forall i, j | 0 <= i < j < |all| ensures !(all[i].RelocateUser? && all[j].RelocateUser?) {
        if j >= |calls| {
          assert all[j] == effects[j - |calls|];
          assert all[j] in effects;
        }
      }
    }
  }

  /** No two calls relocate the user. */
  predicate AtMostOneRelocation(calls: seq<Call>) {
    forall i, j :: 0 <= i < j < |calls| ==> !(calls[i].RelocateUser? && calls[j].RelocateUser?)
  }

  /** A footprint for the move is recorded at the origin before the user
      is relocated. */
  lemma {:induction false} FootprintBeforeRelocation(cells: seq<WorldCell>, user: UserView, ai: PromptResponse, i: nat)
    requires user.worldCell.Some?
    requires var p := ExecuteCommandsServerSide(cells, user, ai); i < |p.calls| && p.calls[i].RelocateUser?
    ensures var p := ExecuteCommandsServerSide(cells, user, ai);
      0 < i && p.calls[i - 1] == CreateTrace(user.id, user.worldCell.value.id, Footprint, Moved(GameRules.ChosenMove(ai.actions).value))
  {
    var origin := user.worldCell.value;
    var move := GameRules.ChosenMove(ai.actions);
    var p := ExecuteCommandsServerSide(cells, user, ai);
    assert p.calls[i] in p.calls;
    var m := MoveCalls(cells, user.id, origin, ai);
    var effects := Effects(user.id, origin, ai);
    assert p.calls == m.calls + effects;
    assert i == |m.calls| - 1;
  }

  // ---------------------------------------------------------------------
  // processUserPrompt
  // ---------------------------------------------------------------------

  /** The answer `processPrompt` returns when the model call, its content or
      its JSON fails: a narration and nothing else. */
  const FallbackNarration: string := "Le vent a emporté votre demande. Veuillez réessayer."
  const Fallback: PromptResponse := PromptResponse(FallbackNarration, None, None, None, None, None)

  /** `processPrompt` as the pipeline sees it: the model's parsed answer when
      there is one, otherwise the fallback. It never rejects. */
  function ProcessPrompt(answer: Option<PromptResponse>): (r: PromptResponse)
    ensures answer.Some? ==> r == answer.value
    ensures answer.None? ==> (r.narration == FallbackNarration
      && r.actions.None? && r.newWorldCell.None? && r.updateWorldCell.None?
      && r.newObject.None? && r.newTrace.None?)
  {
    answer.GetOr(Fallback)
  }

  const GenericError: string := "Une erreur est survenue lors du traitement de votre demande."

  datatype PromptReply = PromptReply(success: bool, message: Option<string>, shouldRefreshData: bool)

  datatype Processing = Processing(calls: seq<Call>, reply: PromptReply)

  /** The reads made before the model answers: the four neighbours when the
      user stands in a cell, then the journal. */
  function ContextReads(userId: UserId, u: UserView): (calls: seq<Call>)
    ensures |calls| >= 1 && calls[|calls| - 1] == ReadJournal(userId)
    ensures forall c :: c in calls ==> c.FindCellAt? || c.ReadJournal?
  {
    var neighbours := if u.worldCell.None? then [] else
      var c := u.worldCell.value;
      [FindCellAt(c.x, c.y + 1), FindCellAt(c.x, c.y - 1), FindCellAt(c.x + 1, c.y), FindCellAt(c.x - 1, c.y)];
    neighbours + [ReadJournal(userId)]
  }

  /** The calls of the happy path up to (not including) the response entry,
      and whether the code throws by itself after them. */
  function MainPlan(cells: seq<WorldCell>, userId: UserId, prompt: string, user: Option<UserView>, ai: PromptResponse): (p: Plan)
    ensures |p.calls| >= 2 && p.calls[..2] == [WriteJournal(PromptEntry, prompt), GetUser(userId)]
    ensures forall i :: 1 <= i < |p.calls| ==> !p.calls[i].WriteJournal?
    // an unknown user stops right after the lookup
    ensures user.None? ==> p == Plan([WriteJournal(PromptEntry, prompt), GetUser(userId)], true)
    // a known user: the context reads, then exactly what the executor does
    ensures user.Some? ==>
      var exec := ExecuteCommandsServerSide(cells, user.value, ai);
      p.calls == [WriteJournal(PromptEntry, prompt), GetUser(userId)] + ContextReads(userId, user.value) + exec.calls
      && p.throws == exec.throws
  {
    match user
    case None => Plan([WriteJournal(PromptEntry, prompt), GetUser(userId)], true)
    case Some(u) => KnownUserPlan(cells, userId, prompt, u, ai)
  }

  /** The happy path for a user the lookup found. */
  function KnownUserPlan(cells: seq<WorldCell>, userId: UserId, prompt: string, u: UserView, ai: PromptResponse): (p: Plan)
    ensures var exec := ExecuteCommandsServerSide(cells, u, ai);
      p.calls == [WriteJournal(PromptEntry, prompt), GetUser(userId)] + ContextReads(userId, u) + exec.calls
      && p.throws == exec.throws
    ensures |p.calls| >= 2 && p.calls[..2] == [WriteJournal(PromptEntry, prompt), GetUser(userId)]
    ensures forall i :: 1 <= i < |p.calls| ==> !p.calls[i].WriteJournal?
  {
    var head := [WriteJournal(PromptEntry, prompt), GetUser(userId)];
    var exec := ExecuteCommandsServerSide(cells, u, ai);
    NoJournalWrites(exec, u, cells, ai);
    var p := Assemble(head, ContextReads(userId, u), exec);
    assert p.calls[..2] == head;
    p
  }

  /** A head of calls, the context reads, then a plan's calls. */
  function Assemble(head: seq<Call>, context: seq<Call>, exec: Plan): (p: Plan)
    ensures p.calls == head + context + exec.calls && p.throws == exec.throws
    ensures ((forall i :: 1 <= i < |head| ==> !head[i].WriteJournal?) && (forall c :: c in context ==> !c.WriteJournal?)
      && (forall c :: c in exec.calls ==> !c.WriteJournal?)) ==>
      forall i :: 1 <= i < |p.calls| ==> !p.calls[i].WriteJournal?
  {
    var tail := context + exec.calls;
    assert forall c :: c in tail ==> c in context || c in exec.calls;
    TailHasNoWritesIf(head, tail);
    Plan(head + tail, exec.throws)
  }

  lemma {:induction false} TailHasNoWritesIf(head: seq<Call>, tail: seq<Call>)
    ensures (forall c :: c in tail ==> !c.WriteJournal?) ==>
      forall i :: |head| <= i < |head + tail| ==> !(head + tail)[i].WriteJournal?
  {
    if forall c :: c in tail ==> !c.WriteJournal? {
      forall i | |head| <= i < |head + tail| ensures !(head + tail)[i].WriteJournal? {
        assert (head + tail)[i] == tail[i - |head|];
      }
    }
  }

  lemma {:induction false} NoJournalWrites(exec: Plan, u: UserView, cells: seq<WorldCell>, ai: PromptResponse)
    requires exec == ExecuteCommandsServerSide(cells, u, ai)
    ensures forall c :: c in exec.calls ==> !c.WriteJournal?
  {
    if u.worldCell.Some? {
      var origin := u.worldCell.value;
      var move := GameRules.ChosenMove(ai.actions);
      var m := MoveCalls(cells, u.id, origin, ai);
      assert forall c :: c in m.calls ==> !c.WriteJournal?;
    }
  }

  /** `processUserPrompt`. `ai` is what `processPrompt` returned. `fault` is
      the position of the rejecting call among the happy-path calls, if any;
      `calls` are the calls that completed, so a rejected journal write is
      not among them. On any error an ERROR entry is written, taken here to
      resolve; `CatchErrorWrite` adds the case where it rejects. */
  function ProcessUserPrompt(cells: seq<WorldCell>, userId: UserId, prompt: string, user: Option<UserView>,
                             ai: PromptResponse, fault: Option<nat>): (r: Processing)
    ensures r.reply.shouldRefreshData
    ensures |r.calls| >= 1
    ensures fault != Some(0) ==> r.calls[0] == WriteJournal(PromptEntry, prompt)
    // success exactly when no call within the happy path rejects and the
    // code does not throw by itself
    ensures var main := MainPlan(cells, userId, prompt, user, ai);
      r.reply.success <==> !main.throws && (fault.None? || fault.value > |main.calls|)
    ensures r.reply.success ==>
      && r.reply.message.None?
      && r.calls == MainPlan(cells, userId, prompt, user, ai).calls + [WriteJournal(ResponseEntry, ai.narration)]
    // on failure, the calls that completed are a prefix of the happy path,
    // followed by the ERROR entry
    ensures !r.reply.success ==>
      && r.reply.message == Some(GenericError)
      && r.calls[|r.calls| - 1] == WriteJournal(ErrorEntry, GenericError)
      && r.calls[..|r.calls| - 1] <= MainPlan(cells, userId, prompt, user, ai).calls + [WriteJournal(ResponseEntry, ai.narration)]
    ensures !r.reply.success && (fault.None? || fault.value > |MainPlan(cells, userId, prompt, user, ai).calls|) ==>
      r.calls == MainPlan(cells, userId, prompt, user, ai).calls + [WriteJournal(ErrorEntry, GenericError)]
    // no ERROR entry on success, and no RESPONSE entry on failure
    ensures forall i :: 0 < i < |r.calls| && r.calls[i].WriteJournal? ==>
      r.calls[i].kind == (if r.reply.success then ResponseEntry else ErrorEntry) && i == |r.calls| - 1
    // a known user is required, and so is the cell the user stands in
    ensures r.reply.success ==> user.Some? && user.value.worldCell.Some?
    ensures user.None? ==> !r.reply.success
  {
    var main := MainPlan(cells, userId, prompt, user, ai);
    RunPlanWritesOneEntryLast(main, ai.narration, fault);
    RunPlan(main, ai.narration, fault)
  }

  /** The `try`/`catch` around a plan: the calls before the rejecting one,
      or all of them and the RESPONSE entry; an ERROR entry on any error. */
  function RunPlan(main: Plan, narration: string, fault: Option<nat>): (r: Processing)
    ensures r.reply.shouldRefreshData
    ensures |r.calls| >= 1
    ensures fault != Some(0) && |main.calls| >= 1 ==> r.calls[0] == main.calls[0]
    ensures r.reply.success <==> !main.throws && (fault.None? || fault.value > |main.calls|)
    ensures r.reply.success ==> r.reply.message.None? && r.calls == main.calls + [WriteJournal(ResponseEntry, narration)]
    ensures !r.reply.success ==>
      && r.reply.message == Some(GenericError)
      && r.calls[|r.calls| - 1] == WriteJournal(ErrorEntry, GenericError)
      && r.calls[..|r.calls| - 1] <= main.calls + [WriteJournal(ResponseEntry, narration)]
    ensures !r.reply.success && (fault.None? || fault.value > |main.calls|) ==>
      r.calls == main.calls + [WriteJournal(ErrorEntry, GenericError)]
  {
    // nothing after the rejecting call runs
    var n := if fault.Some? && fault.value <= |main.calls| then fault.value else |main.calls|;
    var success := !main.throws && (fault.None? || fault.value > |main.calls|);
    var last := if success then WriteJournal(ResponseEntry, narration) else WriteJournal(ErrorEntry, GenericError);
    PrefixThen(main.calls, n, last, WriteJournal(ResponseEntry, narration));
    Processing(main.calls[..n] + [last], PromptReply(success, if success then None else Some(GenericError), true))
  }

  /** The first `n` calls of `main` followed by `last`. */
  lemma {:induction false} PrefixThen(main: seq<Call>, n: nat, last: Call, response: Call)
    requires n <= |main|
    ensures var c := main[..n] + [last];
      && |c| == n + 1 && c[n] == last
      && c[..n] <= main + [response]
      && (forall i :: 0 <= i < n ==> c[i] == main[i])
      && (n == |main| ==> c == main + [last])
  {
    var c := main[..n] + [last];
    assert c[..n] == main[..n];
  }

  /** A plan that writes no journal entry after its first call ends with
      exactly one entry, the last call: the RESPONSE entry on success and
      the ERROR entry otherwise. */
  lemma {:induction false} RunPlanWritesOneEntryLast(main: Plan, narration: string, fault: Option<nat>)
    requires forall i :: 1 <= i < |main.calls| ==> !main.calls[i].WriteJournal?
    ensures var r := RunPlan(main, narration, fault);
      forall i :: 0 < i < |r.calls| && r.calls[i].WriteJournal? ==>
        r.calls[i].kind == (if r.reply.success then ResponseEntry else ErrorEntry) && i == |r.calls| - 1
  {
    var r := RunPlan(main, narration, fault);
    var n := |r.calls| - 1;
    PrefixThen(main.calls, n, r.calls[n], WriteJournal(ResponseEntry, narration));
  }

  /** The inner `try` around the ERROR entry: when that write rejects, the
      error is caught and logged, so the entry is missing from the completed
      calls and the reply is the same. */
  function CatchErrorWrite(r: Processing, errorWriteRejects: bool): (w: Processing)
    ensures w.reply == r.reply
    ensures r.reply.success || !errorWriteRejects ==> w == r
    ensures !r.reply.success && errorWriteRejects && |r.calls| >= 1 ==>
      w.calls + [r.calls[|r.calls| - 1]] == r.calls
  {
    if !r.reply.success && errorWriteRejects && |r.calls| >= 1 then
      Processing(r.calls[..|r.calls| - 1], r.reply)
    else r
  }

  /** A rejected ERROR entry changes nothing but that entry: the reply is the
      same, and the completed calls are those before it. */
  lemma {:induction false} ErrorWriteRejectionOnlyDropsEntry(cells: seq<WorldCell>, userId: UserId, prompt: string,
                                                             user: Option<UserView>, ai: PromptResponse, fault: Option<nat>)
    ensures var r := ProcessUserPrompt(cells, userId, prompt, user, ai, fault);
      var w := CatchErrorWrite(r, true);
      && w.reply == r.reply
      && (!r.reply.success ==> w.calls + [WriteJournal(ErrorEntry, GenericError)] == r.calls)
  {
  }

  /** Without a rejection, a prompt from a user standing in a cell succeeds
      exactly when the executor does not throw, and the store calls it makes
      after reading the context are exactly the executor's. */
  lemma {:induction false} PromptSucceedsIffExecutorDoes(cells: seq<WorldCell>, userId: UserId, prompt: string,
                                                          u: UserView, ai: PromptResponse)
    requires u.worldCell.Some?
    ensures var r := ProcessUserPrompt(cells, userId, prompt, Some(u), ai, None);
      var exec := ExecuteCommandsServerSide(cells, u, ai);
      var pre := [WriteJournal(PromptEntry, prompt), GetUser(userId)] + ContextReads(userId, u);
      (r.reply.success <==> !exec.throws)
      && (r.reply.success ==> r.calls == pre + exec.calls + [WriteJournal(ResponseEntry, ai.narration)])
      && (!r.reply.success ==> r.calls == pre + exec.calls + [WriteJournal(ErrorEntry, GenericError)])
  {
  }

  /** When the model call fails, the prompt still succeeds for a user standing
      in a cell: the fallback narration is journaled and the world is left
      untouched. */
  lemma {:induction false} FallbackLeavesWorldUntouched(cells: seq<WorldCell>, userId: UserId, prompt: string, u: UserView)
    requires u.worldCell.Some?
    ensures var r := ProcessUserPrompt(cells, userId, prompt, Some(u), ProcessPrompt(None), None);
      && r.reply.success
      && r.calls[|r.calls| - 1] == WriteJournal(ResponseEntry, FallbackNarration)
      && forall c :: c in r.calls ==> c.WriteJournal? || c.GetUser? || c.FindCellAt? || c.ReadJournal?
  {
    var ai := ProcessPrompt(None);
    var exec := ExecuteCommandsServerSide(cells, u, ai);
    assert exec.calls == [] by {
      assert Effects(u.id, u.worldCell.value, ai) == [];
    }
  }
}

=== FILE: route_common.dfy ===
/** What the two test routes share: the awaited steps that can throw, and
    the observable result of one request (the store afterwards, the presence
    events published, and the HTTP reply). */
module RouteCommon {
  import opened Types
  import opened Wrappers
  import WorldStore

  /** The awaited calls of a route, any of which may reject. */
  datatype RouteStep =
    | ReadBody       // `req.json()`
    | FindUser       // `prisma.user.findUnique`
    | FindCell       // `fetchWorldCell` or `prisma.worldCell.findUnique`
    | CreateCell     // `createWorldCell`
    | UpdateUser     // `updateUser`
    | PublishLeft    // `publishPresenceEventKafka` of `user_left`
    | PublishEntered // `publishPresenceEventKafka` of `user_entered`

  /** The reply: `success` is `error.None?`; on success `cell` is the cell
      entered and `from` the cell left. */
  datatype Reply = Reply(status: nat, error: Option<string>, cell: Option<WorldCell>, from: Option<WorldCell>)

  datatype RouteResult = RouteResult(store: WorldStore.Store, published: seq<PresenceEvent>, reply: Reply)

  function Failure(st: WorldStore.Store, published: seq<PresenceEvent>, status: nat, error: string): (r: RouteResult)
    ensures r.reply.error == Some(error) && r.reply.status == status
  {
    RouteResult(st, published, Reply(status, Some(error), None, None))
  }

  /** The step that throws, if the oracle names it. */
  predicate Throws(fault: Option<RouteStep>, step: RouteStep) {
    fault == Some(step)
  }

  function Left(cell: WorldCell, uid: UserId, at: string): PresenceEvent {
    PresenceEvent(UserLeft, cell.id, uid, at)
  }

  function Entered(cell: WorldCell, uid: UserId, at: string): PresenceEvent {
    PresenceEvent(UserEntered, cell.id, uid, at)
  }

  /** Timestamps assigned to the two events (`new Date().toISOString()`). */
  datatype Clock = Clock(leftAt: string, enteredAt: string)
}

=== FILE: seqs.dfy ===
/** Small sequence vocabulary shared by the registries and stores of the model. */
module Seqs {

  /** No element occurs twice: a sequence used with JavaScript `Set` semantics. */
  predicate NoDup<T(==)>(s: seq<T>) {
    forall i, j :: 0 <= i < j < |s| ==> s[i] != s[j]
  }

  /** Number of occurrences of `x` in `s`. */
  function Count<T(==)>(s: seq<T>, x: T): nat {
    if |s| == 0 then 0 else (if s[0] == x then 1 else 0) + Count(s[1..], x)
  }

  /** `s` with every occurrence of `x` dropped, other elements in their order. */
  function RemoveValue<T(==,!new)>(s: seq<T>, x: T): (r: seq<T>)
    ensures x !in r
    ensures forall y :: y in r <==> y in s && y != x
    ensures |r| <= |s|
  {
    if |s| == 0 then []
    else if s[0] == x then RemoveValue(s[1..], x)
    else [s[0]] + RemoveValue(s[1..], x)
  }

  lemma {:induction false} CountAbsent<T>(s: seq<T>, x: T)
    requires x !in s
    ensures Count(s, x) == 0
  {
    if |s| > 0 {
      assert x !in s[1..];
      CountAbsent(s[1..], x);
    }
  }

  lemma {:induction false} CountAppend<T>(s: seq<T>, t: seq<T>, x: T)
    ensures Count(s + t, x) == Count(s, x) + Count(t, x)
  {
    if |s| == 0 {
      assert s + t == t;
    } else {
      assert (s + t)[1..] == s[1..] + t;
      CountAppend(s[1..], t, x);
    }
  }

  /** In a duplicate-free sequence every member occurs exactly once. */
  lemma {:induction false} CountNoDup<T>(s: seq<T>, x: T)
    requires NoDup(s)
    requires x in s
    ensures Count(s, x) == 1
  {
    if s[0] == x {
      assert x !in s[1..];
      CountAbsent(s[1..], x);
    } else {
      assert x in s[1..];
      CountNoDup(s[1..], x);
    }
  }

  /** Removing a value that was appended last gives back the original. */
  lemma {:induction false} RemoveAppended<T(!new)>(s: seq<T>, x: T)
    requires x !in s
    ensures RemoveValue(s + [x], x) == s
  {
    if |s| == 0 {
      assert s + [x] == [x];
      assert RemoveValue([x], x) == RemoveValue([x][1..], x);
    } else {
      assert (s + [x])[1..] == s[1..] + [x];
      RemoveAppended(s[1..], x);
      assert [s[0]] + s[1..] == s;
    }
  }

  lemma {:induction false} RemoveValueNoDup<T(!new)>(s: seq<T>, x: T)
    requires NoDup(s)
    ensures NoDup(RemoveValue(s, x))
  {
    if |s| > 0 {
      assert NoDup(s[1..]);
      RemoveValueNoDup(s[1..], x);
      if s[0] != x {
        var t := RemoveValue(s[1..], x);
        assert s[0] !in t;
        assert NoDup([s[0]] + t);
      }
    }
  }

  /** Keep the elements satisfying `p`, in their order. */
  function Filter<T(!new)>(s: seq<T>, p: T -> bool): (r: seq<T>)
    ensures |r| <= |s|
    ensures forall x :: x in r <==> x in s && p(x)
    ensures forall i :: 0 <= i < |r| ==> p(r[i])
  {
    if |s| == 0 then []
    else if p(s[0]) then [s[0]] + Filter(s[1..], p)
    else Filter(s[1..], p)
  }

  lemma {:induction false} FilterMultiset<T(!new)>(s: seq<T>, p: T -> bool)
    ensures multiset(Filter(s, p)) <= multiset(s)
    ensures forall x :: p(x) ==> multiset(Filter(s, p))[x] == multiset(s)[x]
  {
    if |s| > 0 {
      FilterMultiset(s[1..], p);
      assert s == [s[0]] + s[1..];
    }
  }

  /** Filtering with a predicate every element meets keeps the sequence. */
  lemma {:induction false} FilterAll<T(!new)>(s: seq<T>, p: T -> bool)
    requires forall i :: 0 <= i < |s| ==> p(s[i])
    ensures Filter(s, p) == s
  {
    if |s| > 0 {
      FilterAll(s[1..], p);
      assert s == [s[0]] + s[1..];
    }
  }

  /** `Array.prototype.join(sep)` on strings: the parts with `sep` between
      neighbours; an empty array joins to the empty string. */
  function Join<T>(parts: seq<seq<T>>, sep: seq<T>): seq<T> {
    if |parts| == 0 then []
    else if |parts| == 1 then parts[0]
    else parts[0] + sep + Join(parts[1..], sep)
  }

  /** Joining one more part appends the separator and the part. */
  lemma {:induction false} JoinSnoc<T>(parts: seq<seq<T>>, sep: seq<T>, last: seq<T>)
    requires |parts| > 0
    ensures Join(parts + [last], sep) == Join(parts, sep) + sep + last
  {
    if |parts| > 1 {
      assert (parts + [last])[1..] == parts[1..] + [last];
      JoinSnoc(parts[1..], sep, last);
    }
  }

  /** A join starts with its first part. */
  lemma {:induction false} JoinStartsWithFirst<T>(parts: seq<seq<T>>, sep: seq<T>)
    requires |parts| > 0
    ensures parts[0] <= Join(parts, sep)
  {
  }
}

=== FILE: session.dfy ===
/** The session-change rules that decide when the client fetches its user,
    clears it, and refreshes the journal. Refs live across renders, so each
    effect is a step of a small state machine. */
module Session {
  import opened Types
  import opened Wrappers

  datatype Status = Authenticated | Unauthenticated | Loading

  /** What an effect asks of the user and journal containers. */
  datatype SessionCall = GetMe | ClearUser | RefreshJournal(userId: UserId)

  /** The refs of the context-backed session manager. */
  datatype Refs = Refs(lastSessionId: Option<string>, isInitialized: bool, lastUserId: Option<string>)

  const InitialRefs: Refs := Refs(None, false, None)

  /** The session effect: fetch on an authenticated id the manager has not
      initialised for; forget the session and clear the user when signed
      out; otherwise nothing. `lastUserId` is not touched here. */
  function OnSession(refs: Refs, status: Status, sessionUserId: Option<string>): (r: (Refs, seq<SessionCall>))
    ensures r.0.lastUserId == refs.lastUserId
    ensures r.1 == [GetMe] <==> (status == Authenticated && Truthy(sessionUserId)
      && (!refs.isInitialized || refs.lastSessionId != sessionUserId))
    ensures r.1 == [GetMe] ==> r.0.lastSessionId == sessionUserId && r.0.isInitialized
    ensures status == Unauthenticated ==> r.1 == [ClearUser] && r.0 == Refs(None, false, refs.lastUserId)
    ensures status == Loading ==> r == (refs, [])
    ensures r.1 == [] ==> r.0 == refs
  {
    if status == Authenticated && Truthy(sessionUserId) then
      if !refs.isInitialized || refs.lastSessionId != sessionUserId then
        (refs.(lastSessionId := sessionUserId, isInitialized := true), [GetMe])
      else (refs, [])
    else if status == Unauthenticated then
      (refs.(lastSessionId := None, isInitialized := false), [ClearUser])
    else (refs, [])
  }

  /** Seeing the same authenticated session again fetches nothing more. */
  lemma {:induction false} SameSessionFetchesOnce(refs: Refs, id: Option<string>)
    ensures var first := OnSession(refs, Authenticated, id);
      OnSession(first.0, Authenticated, id) == (first.0, [])
  {
  }

  /** Signing out re-arms the fetch: the same id signing back in fetches again. */
  lemma {:induction false} SignOutRearmsFetch(refs: Refs, id: Option<string>)
    requires Truthy(id)
    ensures var out := OnSession(refs, Unauthenticated, None);
      OnSession(out.0, Authenticated, id).1 == [GetMe]
  {
  }

  /** The user effect: refresh the journal when a truthy user id differs
      from the last one refreshed for. */
  function OnUser(refs: Refs, userId: Option<string>): (r: (Refs, seq<SessionCall>))
    ensures r.0.lastSessionId == refs.lastSessionId && r.0.isInitialized == refs.isInitialized
    ensures |r.1| <= 1
    ensures |r.1| == 1 <==> Truthy(userId) && refs.lastUserId != userId
    ensures |r.1| == 1 ==> r.1[0] == RefreshJournal(userId.value) && r.0.lastUserId == userId
    ensures |r.1| == 0 ==> r.0 == refs
  {
    if Truthy(userId) && refs.lastUserId != userId then
      (refs.(lastUserId := userId), [RefreshJournal(userId.value)])
    else (refs, [])
  }

  /** The user ids the journal is refreshed for over a run of renders. */
  function Refreshes(refs: Refs, userIds: seq<Option<string>>): (r: (Refs, seq<UserId>))
    decreases |userIds|
  {
    if |userIds| == 0 then (refs, [])
    else
      var step := OnUser(refs, userIds[0]);
      var rest := Refreshes(step.0, userIds[1..]);
      (rest.0, (if |step.1| == 1 then [userIds[0].value] else []) + rest.1)
  }

  /** Once per change of user id: every refresh is for a non-empty id that
      differs from the one refreshed just before it (or from the starting
      ref), and the ref ends on the last id refreshed. A user id that
      disappears and comes back unchanged is not refreshed again. */
  lemma {:induction false} RefreshOncePerChange(refs: Refs, userIds: seq<Option<string>>)
    ensures var r := Refreshes(refs, userIds);
      && (forall i :: 0 <= i < |r.1| ==> |r.1[i]| > 0)
      && (forall i :: 0 < i < |r.1| ==> r.1[i] != r.1[i - 1])
      && (|r.1| > 0 ==> refs.lastUserId != Some(r.1[0]) && r.0.lastUserId == Some(r.1[|r.1| - 1]))
      && (|r.1| == 0 ==> r.0.lastUserId == refs.lastUserId)
    decreases |userIds|
  {
    if |userIds| > 0 {
      var step := OnUser(refs, userIds[0]);
      RefreshOncePerChange(step.0, userIds[1..]);
    }
  }

  /** The store-backed provider: fetch only when authenticated with a
      session user and no local user yet; clear when signed out. */
  function ProviderEffect(status: Status, hasSessionUser: bool, hasLocalUser: bool): (calls: seq<SessionCall>)
    ensures GetMe in calls <==> status == Authenticated && hasSessionUser && !hasLocalUser
    ensures ClearUser in calls <==> status == Unauthenticated
    ensures |calls| <= 1
  {
    if status == Authenticated && hasSessionUser && !hasLocalUser then [GetMe]
    else if status == Unauthenticated then [ClearUser]
    else []
  }

  /** Both managers clear the user on sign-out and stay idle while the
      session is loading. */
  lemma {:induction false} ManagersAgreeOnSignOutAndLoading(refs: Refs, id: Option<string>, hasSessionUser: bool, hasLocalUser: bool)
    ensures OnSession(refs, Unauthenticated, id).1 == ProviderEffect(Unauthenticated, hasSessionUser, hasLocalUser)
    ensures OnSession(refs, Loading, id).1 == ProviderEffect(Loading, hasSessionUser, hasLocalUser)
  {
  }
}

=== FILE: sorting.dfy ===
/** Ordering by an integer-pair key, as the store's `orderBy` clauses do:
    lexicographic on the pair, ascending. A descending order on a single
    field is the ascending order on its negation. */
module Sorting {

  predicate KeyLe(a: (int, int), b: (int, int)) {
    a.0 < b.0 || (a.0 == b.0 && a.1 <= b.1)
  }

  predicate SortedBy<T>(s: seq<T>, key: T -> (int, int)) {
    forall i, j :: 0 <= i < j < |s| ==> KeyLe(key(s[i]), key(s[j]))
  }

  /** `x` placed before the first element whose key is strictly larger. */
  function Insert<T>(x: T, s: seq<T>, key: T -> (int, int)): (r: seq<T>)
    ensures multiset(r) == multiset(s) + multiset{x}
    ensures |r| == |s| + 1
  {
    if |s| == 0 then [x]
    else if KeyLe(key(x), key(s[0])) then [x] + s
    else
      assert s == [s[0]] + s[1..];
      [s[0]] + Insert(x, s[1..], key)
  }

  /** Insertion sort. */
  function SortBy<T>(s: seq<T>, key: T -> (int, int)): (r: seq<T>)
    ensures multiset(r) == multiset(s)
    ensures |r| == |s|
  {
    if |s| == 0 then []
    else
      assert s == [s[0]] + s[1..];
      Insert(s[0], SortBy(s[1..], key), key)
  }

  lemma {:induction false} InsertSorted<T>(x: T, s: seq<T>, key: T -> (int, int))
    requires SortedBy(s, key)
    ensures SortedBy(Insert(x, s, key), key)
    decreases |s|
  {
    if |s| > 0 && !KeyLe(key(x), key(s[0])) {
      var tail := Insert(x, s[1..], key);
      InsertSorted(x, s[1..], key);
      var r := [s[0]] + tail;
      forall i, j | 0 <= i < j < |r| ensures KeyLe(key(r[i]), key(r[j])) {
        if i == 0 {
          assert r[j] in multiset(tail);
          assert r[j] == x || r[j] in multiset(s[1..]);
          if r[j] != x {
            var k :| 0 <= k < |s[1..]| && s[1..][k] == r[j];
            assert s[k + 1] == r[j];
          }
        }
      }
    }
  }

  /** The sort returns a permutation of its input in key order. */
  lemma {:induction false} SortBySorted<T>(s: seq<T>, key: T -> (int, int))
    ensures SortedBy(SortBy(s, key), key)
    ensures multiset(SortBy(s, key)) == multiset(s)
    decreases |s|
  {
    if |s| > 0 {
      SortBySorted(s[1..], key);
      InsertSorted(s[0], SortBy(s[1..], key), key);
    }
  }

  /** Sorting an already sorted sequence changes nothing. */
  lemma {:induction false} SortBySortedIsIdentity<T>(s: seq<T>, key: T -> (int, int))
    requires SortedBy(s, key)
    ensures SortBy(s, key) == s
    decreases |s|
  {
    if |s| > 0 {
      assert SortedBy(s[1..], key);
      SortBySortedIsIdentity(s[1..], key);
    }
  }
}

=== FILE: teleport_route.dfy ===
/** `POST /api/test/teleport`: put a user into a cell named by id or by
    coordinates, creating a coordinate target when absent, then announce
    the change on the presence topic. */
module TeleportRoute {
  import opened Types
  import opened Wrappers
  import opened RouteCommon
  import opened WorldStore

  /** The JSON body. `x` and `y` are `None` unless they are numbers. */
  datatype TeleportBody = TeleportBody(
    userId: Option<string>,
    x: Option<int>,
    y: Option<int>,
    worldCellId: Option<string>,
    mapCharacter: Option<string>,
    title: Option<string>,
    description: Option<string>)

  const MissingUserId: string := "missing_userId"
  const UserNotFound: string := "user_not_found"
  const WorldCellNotFound: string := "world_cell_not_found"
  const MissingCoordinates: string := "missing_coordinates"
  const FailedToTeleport: string := "failed_to_teleport"

  /** The cell created at the body's coordinates, each text field falling
      back (on any falsy value) to the default. */
  function CellFromBody(b: TeleportBody, id: CellId): (c: WorldCell)
    requires b.x.Some? && b.y.Some?
    ensures c.id == id && c.x == b.x.value && c.y == b.y.value
    ensures Truthy(b.mapCharacter) ==> c.mapCharacter == b.mapCharacter.value
    ensures !Truthy(b.mapCharacter) ==> c.mapCharacter == DefaultMapCharacter
    ensures Truthy(b.title) ==> c.title == b.title.value
    ensures !Truthy(b.title) ==> c.title == DefaultTitle
    ensures Truthy(b.description) ==> c.description == b.description.value
    ensures !Truthy(b.description) ==> c.description == DefaultDescription
  {
    WorldCell(id, b.x.value, b.y.value,
      OrDefault(b.mapCharacter, DefaultMapCharacter),
      OrDefault(b.title, DefaultTitle),
      OrDefault(b.description, DefaultDescription))
  }

  /** How the target is resolved, before any write. */
  datatype Resolution =
    | ByIdMissing                   // `world_cell_not_found`
    | NoCoordinates                 // `missing_coordinates`
    | Existing(cell: WorldCell)     // found by id or at the coordinates
    | ToCreate(cell: WorldCell)     // absent at the coordinates; to be created

  /** A truthy `worldCellId` takes precedence over the coordinates. */
  function Resolve(st: Store, b: TeleportBody, newId: CellId): (res: Resolution)
    ensures Truthy(b.worldCellId) ==> (res.ByIdMissing? || res.Existing?)
    ensures Truthy(b.worldCellId) && res.Existing? ==> res.cell.id == b.worldCellId.value && res.cell in st.cells
    ensures Truthy(b.worldCellId) ==> (res.ByIdMissing? <==> !IdUsed(st.cells, b.worldCellId.value))
    ensures !Truthy(b.worldCellId) ==> (res.NoCoordinates? <==> b.x.None? || b.y.None?)
    ensures !Truthy(b.worldCellId) && res.Existing? ==>
      res.cell in st.cells && res.cell.x == b.x.value && res.cell.y == b.y.value
    ensures res.ToCreate? <==> !Truthy(b.worldCellId) && b.x.Some? && b.y.Some? && CellAt(st.cells, b.x.value, b.y.value).None?
    ensures res.ToCreate? ==> res.cell == CellFromBody(b, newId)
  {
    if Truthy(b.worldCellId) then
      match CellById(st.cells, b.worldCellId.value)
      case Some(c) => Existing(c)
      case None => ByIdMissing
    else if b.x.None? || b.y.None? then NoCoordinates
    else
      match CellAt(st.cells, b.x.value, b.y.value)
      case Some(c) => Existing(c)
      case None => ToCreate(CellFromBody(b, newId))
  }

  /** The request got past validation: a truthy user id naming a known user,
      and a target that exists or can be created. */
  predicate Ready(st: Store, body: Option<TeleportBody>, newId: CellId) {
    && body.Some?
    && Truthy(body.value.userId)
    && body.value.userId.value in st.users
    && (Resolve(st, body.value, newId).Existing? || Resolve(st, body.value, newId).ToCreate?)
  }

  /** One request, with the same conventions as the move route: `fault`
      names the awaited call that rejects, effects before it persist. */
  function Teleport(st: Store, body: Option<TeleportBody>, fault: Option<RouteStep>, newId: CellId, clock: Clock): (r: RouteResult)
    ensures body.None? || Throws(fault, ReadBody) ==> r == Failure(st, [], 500, FailedToTeleport)
    ensures body.Some? && !Throws(fault, ReadBody) && !Truthy(body.value.userId)
      ==> r == Failure(st, [], 400, MissingUserId)
    // the user is looked up before the target, so an unknown user wins
    ensures body.Some? && !Throws(fault, ReadBody) && Truthy(body.value.userId) && !Throws(fault, FindUser)
      && body.value.userId.value !in st.users
      ==> r == Failure(st, [], 404, UserNotFound)
    ensures (body.Some? && !Throws(fault, ReadBody) && Truthy(body.value.userId) && !Throws(fault, FindUser)
      && body.value.userId.value in st.users) ==>
        var res := Resolve(st, body.value, newId);
        && (res.NoCoordinates? ==> r == Failure(st, [], 400, MissingCoordinates))
        && (res.ByIdMissing? && !Throws(fault, FindCell) ==> r == Failure(st, [], 404, WorldCellNotFound))
    ensures r.reply.status in {200, 400, 404, 500}
    ensures r.reply.error.None? <==> r.reply.status == 200
    ensures r.reply.status == 500 <==> r.reply.error == Some(FailedToTeleport)
    ensures fault.None? && Ready(st, body, newId) ==> r.reply.status == 200
    ensures r.reply.status == 200 ==> Ready(st, body, newId) && (fault.Some? ==> fault.value.CreateCell? || fault.value.PublishLeft?)
    // on a ready request every rejection is a 500, except one from a call
    // that is skipped: `createWorldCell` for an existing target, or the
    // `user_left` publish for a user without a cell
    ensures Ready(st, body, newId) && fault.Some? ==>
      (r.reply.status == 500 <==>
        && !(fault.value.CreateCell? && !Resolve(st, body.value, newId).ToCreate?)
        && !(fault.value.PublishLeft? && UserCell(st, body.value.userId.value).None?))
    ensures r.store.users.Keys == st.users.Keys
    ensures Ready(st, body, newId) ==>
      var uid := body.value.userId.value;
      var prev := UserCell(st, uid);
      var res := Resolve(st, body.value, newId);
      var target := res.cell;
      var events := (if prev.Some? then [Left(prev.value, uid, clock.leftAt)] else []) + [Entered(target, uid, clock.enteredAt)];
      var created := if res.ToCreate? then AddCell(st, target) else st;
      // completed writes persist: nothing, the created cell, or that and the relocation
      && (r.store == st || r.store == created || r.store == Relocate(created, uid, target.id))
      && (r.reply.status == 200 ==> r.store == Relocate(created, uid, target.id))
      && (|r.published| > 0 ==> r.store.users[uid].worldCellId == Some(target.id))
      // `user_left` only for a previous cell, always before `user_entered`
      && r.published <= events
      && (r.reply.status == 200 ==>
            && r.published == events
            && r.reply.cell == Some(target) && r.reply.from == prev)
    ensures !Ready(st, body, newId) ==> r.store == st && r.published == []
  {
    if body.None? || Throws(fault, ReadBody) then Failure(st, [], 500, FailedToTeleport)
    else
      var b := body.value;
      if !Truthy(b.userId) then Failure(st, [], 400, MissingUserId)
      else if Throws(fault, FindUser) then Failure(st, [], 500, FailedToTeleport)
      else
        var uid := b.userId.value;
        if uid !in st.users then Failure(st, [], 404, UserNotFound)
        else
          var res := Resolve(st, b, newId);
          if res.NoCoordinates? then Failure(st, [], 400, MissingCoordinates)
          else if Throws(fault, FindCell) then Failure(st, [], 500, FailedToTeleport)
          else if res.ByIdMissing? then Failure(st, [], 404, WorldCellNotFound)
          else if res.ToCreate? && Throws(fault, CreateCell) then Failure(st, [], 500, FailedToTeleport)
          else
            var target := res.cell;
            var st1 := if res.ToCreate? then AddCell(st, target) else st;
            if Throws(fault, UpdateUser) then Failure(st1, [], 500, FailedToTeleport)
            else
              var st2 := Relocate(st1, uid, target.id);
              var prev := UserCell(st, uid);
              var left := if prev.Some? then [Left(prev.value, uid, clock.leftAt)] else [];
              if prev.Some? && Throws(fault, PublishLeft) then Failure(st2, [], 500, FailedToTeleport)
              else if Throws(fault, PublishEntered) then Failure(st2, left, 500, FailedToTeleport)
              else RouteResult(st2, left + [Entered(target, uid, clock.enteredAt)], Reply(200, None, Some(target), prev))
  }

  /** A teleport keeps the store's constraints, given a fresh id for a new cell. */
  lemma {:induction false} TeleportKeepsValid(st: Store, body: Option<TeleportBody>, fault: Option<RouteStep>, newId: CellId, clock: Clock)
    requires Valid(st)
    requires !IdUsed(st.cells, newId)
    ensures Valid(Teleport(st, body, fault, newId, clock).store)
  {
    if Ready(st, body, newId) {
      var uid := body.value.userId.value;
      var res := Resolve(st, body.value, newId);
      var created := if res.ToCreate? then AddCell(st, res.cell) else st;
      if res.ToCreate? {
        AddCellKeepsValid(st, res.cell);
      }
      RelocateKeepsValid(created, uid, res.cell.id);
    }
  }

  /** Teleporting by id and by the same cell's coordinates have the same
      effect, and neither creates a cell. */
  lemma {:induction false} ByIdMatchesByCoordinates(st: Store, uid: UserId, c: WorldCell, newId: CellId, clock: Clock,
                                 mapCharacter: Option<string>, title: Option<string>, description: Option<string>)
    requires Valid(st) && c in st.cells && uid in st.users
    ensures var byId := Teleport(st, Some(TeleportBody(Some(uid), None, None, Some(c.id), None, None, None)), None, newId, clock);
      var byXY := Teleport(st, Some(TeleportBody(Some(uid), Some(c.x), Some(c.y), None, mapCharacter, title, description)), None, newId, clock);
      |uid| > 0 && |c.id| > 0 ==> byId == byXY && byId.store.cells == st.cells && byId.reply.cell == Some(c)
  {
    CellByIdUnique(st.cells, c);
    CellAtUnique(st.cells, c);
  }
}

=== FILE: traces.dfy ===
/** User traces: marks left in a cell that expire after a duration and whose
    intensity decays by a per-trace volatility. Time is an integer clock in
    milliseconds. */
module Traces {
  import opened Types
  import opened Wrappers
  import opened Seqs
  import opened Sorting

  datatype Trace = Trace(
    id: string,
    userId: UserId,
    worldCellId: CellId,
    traceType: TraceType,
    description: Option<string>,
    expiresAt: int,
    createdAt: int,
    intensity: int,
    volatility: int)

  const HourMillis: int := 3_600_000
  const DefaultDurationHours: int := 24
  const InitialIntensity: int := 100

  /** `createUserTrace`: an omitted type is `FOOTPRINT`, an omitted duration
      is 24 hours; the trace starts at intensity 100 and expires `duration`
      hours after `now`. `volatility` is the store's column default. */
  function CreateUserTrace(traces: seq<Trace>, userId: UserId, worldCellId: CellId, traceType: Option<TraceType>,
                           description: Option<string>, durationHours: Option<int>,
                           now: int, newId: string, volatility: int): (r: (seq<Trace>, Trace))
    ensures var t := r.1;
      && r.0 == traces + [t]
      && t.userId == userId && t.worldCellId == worldCellId && t.description == description
      && t.traceType == (if traceType.None? then Footprint else traceType.value)
      && t.expiresAt == now + (if durationHours.None? then 24 else durationHours.value) * HourMillis
      && t.createdAt == now
      && t.intensity == 100
  {
    var hours := durationHours.GetOr(DefaultDurationHours);
    var t := Trace(newId, userId, worldCellId, traceType.GetOr(Footprint), description,
                   now + hours * HourMillis, now, InitialIntensity, volatility);
    (traces + [t], t)
  }

  /** The `where` clause of `fetchActiveTracesInCell`: the cell, unexpired,
      and (only for a truthy `excludeUserId`) by another user. */
  predicate Active(t: Trace, worldCellId: CellId, excludeUserId: Option<string>, now: int) {
    && t.worldCellId == worldCellId
    && t.expiresAt > now
    && (Truthy(excludeUserId) ==> t.userId != excludeUserId.value)
  }

  /** `orderBy: { createdAt: 'desc' }`. */
  function NewestFirst(t: Trace): (int, int) {
    (-t.createdAt, 0)
  }

  function FetchActiveTracesInCell(traces: seq<Trace>, worldCellId: CellId, excludeUserId: Option<string>, now: int): (r: seq<Trace>)
    ensures forall t :: t in r <==> t in traces && Active(t, worldCellId, excludeUserId, now)
    ensures forall i, j :: 0 <= i < j < |r| ==> r[i].createdAt >= r[j].createdAt
    ensures forall t :: Active(t, worldCellId, excludeUserId, now) ==> multiset(r)[t] == multiset(traces)[t]
  {
    var p := t => Active(t, worldCellId, excludeUserId, now);
    var kept := Filter(traces, p);
    SortBySorted(kept, NewestFirst);
    FilterMultiset(traces, p);
    var r := SortBy(kept, NewestFirst);
    SameMembers(r, kept);
    NewestFirstDescending(r);
    r
  }

  /** A trace just created is listed for its cell, to anyone but its author,
      exactly until it expires: at every instant before `expiresAt` and at
      none after. */
  lemma {:induction false} CreatedTraceActiveUntilExpiry(traces: seq<Trace>, userId: UserId, worldCellId: CellId,
                                                         traceType: Option<TraceType>, description: Option<string>,
                                                         durationHours: Option<int>, now: int, newId: string,
                                                         volatility: int, at: int, viewer: Option<string>)
    requires !Truthy(viewer) || viewer.value != userId
    ensures var r := CreateUserTrace(traces, userId, worldCellId, traceType, description, durationHours, now, newId, volatility);
      r.1 in FetchActiveTracesInCell(r.0, worldCellId, viewer, at) <==> at < r.1.expiresAt
    ensures var r := CreateUserTrace(traces, userId, worldCellId, traceType, description, durationHours, now, newId, volatility);
      |userId| > 0 ==> r.1 !in FetchActiveTracesInCell(r.0, worldCellId, Some(userId), at)
  {
    var r := CreateUserTrace(traces, userId, worldCellId, traceType, description, durationHours, now, newId, volatility);
    assert r.1 in r.0;
  }

  lemma {:induction false} SameMembers(r: seq<Trace>, s: seq<Trace>)
    requires multiset(r) == multiset(s)
    ensures forall t :: t in r <==> t in s
  {
    assert forall t :: t in r <==> t in multiset(r);
    assert forall t :: t in s <==> t in multiset(s);
  }

  lemma {:induction false} NewestFirstDescending(r: seq<Trace>)
    requires SortedBy(r, NewestFirst)
    ensures forall i, j :: 0 <= i < j < |r| ==> r[i].createdAt >= r[j].createdAt
  {
    forall i, j | 0 <= i < j < |r| ensures r[i].createdAt >= r[j].createdAt {
      assert KeyLe(NewestFirst(r[i]), NewestFirst(r[j]));
    }
  }

  /** Excluding a user only removes that user's traces: with an exclusion
      the result is the unexcluded result without them. */
  lemma {:induction false} ExcludeRemovesOnlyThatUser(traces: seq<Trace>, worldCellId: CellId, u: UserId, now: int)
    requires |u| > 0
    ensures forall t :: t in FetchActiveTracesInCell(traces, worldCellId, Some(u), now) <==>
      t in FetchActiveTracesInCell(traces, worldCellId, None, now) && t.userId != u
  {
  }

  /** A trace survives a decay round iff its intensity minus its volatility
      is not negative. */
  predicate Survives(t: Trace) {
    t.intensity - t.volatility >= 0
  }

  function Decayed(t: Trace): (d: Trace)
    ensures d == t.(intensity := t.intensity - t.volatility)
  {
    t.(intensity := t.intensity - t.volatility)
  }

  /** One run of `updateTraceIntensity`: each trace is deleted when its new
      intensity is negative and updated otherwise. */
  function DecayAll(traces: seq<Trace>): (r: seq<Trace>)
    ensures |r| <= |traces|
    ensures forall u :: u in r ==> u.intensity >= 0
    ensures forall t :: t in traces ==> (Survives(t) <==> Decayed(t) in r)
    ensures forall i :: 0 <= i < |r| ==> exists j :: 0 <= j < |traces| && r[i] == Decayed(traces[j])
  {
    if |traces| == 0 then []
    else
      var rest := DecayAll(traces[1..]);
      assert forall t :: t in traces ==> t == traces[0] || t in traces[1..];
      var r := if Survives(traces[0]) then [Decayed(traces[0])] + rest else rest;
      assert forall i :: 0 <= i < |rest| ==> exists j :: 0 <= j < |traces| && rest[i] == Decayed(traces[j]) by {
        forall i | 0 <= i < |rest| ensures exists j :: 0 <= j < |traces| && rest[i] == Decayed(traces[j]) {
          var j :| 0 <= j < |traces[1..]| && rest[i] == Decayed(traces[1..][j]);
          assert traces[j + 1] == traces[1..][j];
        }
      }
      r
  }

  /** Decaying a list decays its two parts independently: each trace's
      outcome depends on that trace alone. */
  lemma {:induction false} DecayAllAppend(a: seq<Trace>, b: seq<Trace>)
    ensures DecayAll(a + b) == DecayAll(a) + DecayAll(b)
    decreases |a|
  {
    if |a| == 0 {
      assert a + b == b;
    } else {
      assert (a + b)[0] == a[0];
      assert (a + b)[1..] == a[1..] + b;
      DecayAllAppend(a[1..], b);
    }
  }

  /** `updateTraceIntensity` over the traces `findMany` returned, in order.
      `fault` is the position of the trace whose delete or update rejects,
      if any; the loop stops there and the rejection propagates. A rejecting
      `findMany` has the effect of `fault == Some(0)`: nothing is written.
      The result is the store afterwards and whether the run rejected. */
  function UpdateTraceIntensity(traces: seq<Trace>, fault: Option<nat>): (r: (seq<Trace>, bool))
    ensures r.1 <==> fault.Some? && fault.value < |traces|
    ensures !r.1 ==> r.0 == DecayAll(traces)
    // the traces before the failing one are written as a full run writes
    // them, the failing one and those after it are untouched
    ensures r.1 ==> r.0 == DecayAll(traces[..fault.value]) + traces[fault.value..]
  {
    if fault.Some? && fault.value < |traces| then
      (DecayAll(traces[..fault.value]) + traces[fault.value..], true)
    else (DecayAll(traces), false)
  }

  /** A rejected run is a prefix of the full run: the traces it wrote are
      what the full run writes for them, and decaying only the untouched
      traces afterwards yields exactly the full run's store. */
  lemma {:induction false} RejectedRunWritesPrefixOfFullRun(traces: seq<Trace>, k: nat)
    requires k < |traces|
    ensures var r := UpdateTraceIntensity(traces, Some(k));
      r.1 && DecayAll(traces) == r.0[..|DecayAll(traces[..k])|] + DecayAll(r.0[|DecayAll(traces[..k])|..])
  {
    var r := UpdateTraceIntensity(traces, Some(k));
    var done := DecayAll(traces[..k]);
    assert traces == traces[..k] + traces[k..];
    DecayAllAppend(traces[..k], traces[k..]);
    assert r.0[..|done|] == done;
    assert r.0[|done|..] == traces[k..];
  }

  /** A trace whose intensity equals its volatility decays to zero and is kept. */
  lemma {:induction false} DecayToZeroIsKept(t: Trace)
    requires t.intensity == t.volatility
    ensures DecayAll([t]) == [t.(intensity := 0)]
  {
  }

  /** `k` consecutive decay runs. */
  function DecayRounds(traces: seq<Trace>, k: nat): seq<Trace>
    decreases k
  {
    if k == 0 then traces else DecayRounds(DecayAll(traces), k - 1)
  }

  /** A trace that does not strengthen survives `k` runs exactly when `k`
      volatility steps leave its intensity non-negative, and then it holds
      that intensity. */
  lemma {:induction false} DecayRoundsOfOne(t: Trace, k: nat)
    requires t.intensity >= 0 && t.volatility >= 0
    ensures DecayRounds([t], k) ==
      if t.intensity - k * t.volatility >= 0 then [t.(intensity := t.intensity - k * t.volatility)] else []
    decreases k
  {
    if k > 0 {
      var v := t.volatility;
      StepsOfVolatility(k, v);
      assert DecayRounds([t], k) == DecayRounds(DecayAll([t]), k - 1);
      if Survives(t) {
        assert DecayAll([t]) == [Decayed(t)];
        DecayRoundsOfOne(Decayed(t), k - 1);
      } else {
        assert DecayAll([t]) == [];
        DecayRoundsOfEmpty(k - 1);
      }
    }
  }

  lemma {:induction false} StepsOfVolatility(k: nat, v: int)
    requires k > 0 && v >= 0
    ensures k * v == (k - 1) * v + v
    ensures k * v >= v
  {
  }

  lemma {:induction false} DecayRoundsOfEmpty(k: nat)
    ensures DecayRounds([], k) == []
    decreases k
  {
    if k > 0 {
      DecayRoundsOfEmpty(k - 1);
    }
  }
}

=== FILE: types.dfy ===
/** The entities shared by the server actions, the routes and the client
    state containers: world cells, presence events and the constants the
    presence pipeline agrees on. */
module Types {

  type CellId = string
  type UserId = string

  /** A spatial unit of the game world; `(x, y)` is unique in the store. */
  datatype WorldCell = WorldCell(
    id: CellId,
    x: int,
    y: int,
    mapCharacter: string,
    title: string,
    description: string)

  /** Defaults used wherever a cell is created without generated content. */
  const DefaultMapCharacter: string := "."
  const DefaultTitle: string := "Unknown"
  const DefaultDescription: string := "A mysterious place"

  /** The two kinds of occupancy change carried on the wire. */
  datatype PresenceKind = UserEntered | UserLeft

  /** The wire name of a presence kind (`type` field of the JSON event). */
  function KindName(k: PresenceKind): (name: string)
    ensures name == "user_entered" || name == "user_left"
    ensures k.UserEntered? <==> name == "user_entered"
  {
    match k
    case UserEntered => "user_entered"
    case UserLeft => "user_left"
  }

  /** `at` is the ISO timestamp string assigned by the publisher; it is opaque here. */
  datatype PresenceEvent = PresenceEvent(kind: PresenceKind, worldCellId: CellId, userId: UserId, at: string)

  /** The broker topic every presence event is sent to and consumed from. */
  const PresenceTopic: string := "presence.events"

  /** Kinds of trace a user can leave in a cell. */
  datatype TraceType = Footprint | Loot | Message | Other

  function TraceTypeName(t: TraceType): (name: string)
    ensures |name| > 0
  {
    match t
    case Footprint => "FOOTPRINT"
    case Loot => "LOOT"
    case Message => "MESSAGE"
    case Other => "OTHER"
  }

  /** Kinds of journal entry the prompt pipeline writes. */
  datatype EntryKind = PromptEntry | ResponseEntry | ErrorEntry

  /** An object that can be picked up into a user's inventory. */
  datatype LootItem = LootItem(id: string, name: string, description: string)

  /** JavaScript truthiness of a possibly absent string: `undefined` and `""` are falsy. */
  predicate Truthy(s: Option<string>) {
    s.Some? && |s.value| > 0
  }

  /** The source's `s || fallback` on a possibly absent string. */
  function OrDefault(s: Option<string>, fallback: string): (r: string)
    ensures Truthy(s) ==> r == s.value
    ensures !Truthy(s) ==> r == fallback
  {
    if Truthy(s) then s.value else fallback
  }

  import opened Wrappers
}

=== FILE: user_context.dfy ===
/** The React user context: the same state as the user store, updated
    through `userReducer`. Server replies are inputs. */
module UserContext {
  import opened Types
  import opened Wrappers
  import opened GameRules
  import opened UserState

  /** `moveUser`: nothing without a user standing in a cell; otherwise a
      footprint at the origin, then the connection to the neighbour. A
      rejected footprint stops the move. */
  function MoveUser(s: State, direction: string, traceRejects: bool): (calls: seq<ClientCall>)
    ensures s.user.None? || s.user.value.worldCell.None? ==> calls == []
    ensures s.user.Some? && s.user.value.worldCell.Some? ==>
      var u := s.user.value;
      var c := u.worldCell.value;
      && |calls| >= 1
      && calls[0] == CreateTrace(u.id, c.id, Footprint, "Moved " + direction)
      && (traceRejects <==> |calls| == 1)
      && (!traceRejects ==> calls[1] == ConnectUser(u.id, Step(c.x, c.y, direction).0, Step(c.x, c.y, direction).1))
  {
    match s.user
    case None => []
    case Some(u) =>
      match u.worldCell
      case None => []
      case Some(c) =>
        var trace := [CreateTrace(u.id, c.id, Footprint, "Moved " + direction)];
        if traceRejects then trace
        else
          var (nx, ny) := Step(c.x, c.y, direction);
          trace + [ConnectUser(u.id, nx, ny)]
  }

  /** `addObjectToInventory`: without a truthy user id, the error "No user
      found" and no server call; otherwise the server's reply is applied by
      two dispatches. */
  function AddObjectToInventory(s: State, name: string, description: string, reply: Result<Option<ClientUser>>): (r: (State, seq<ClientCall>))
    ensures s.user.None? || s.user.value.id == "" ==> r == (s.(error := Some(NoUserFound)), [])
    ensures s.user.Some? && s.user.value.id != "" ==> r.1 == [AddObject(s.user.value.id, name, description)]
  {
    if s.user.None? || s.user.value.id == "" then (Reduce(s, SetError(Some(NoUserFound))), [])
    else
      var calls := [AddObject(s.user.value.id, name, description)];
      match reply
      case Ok(Some(u)) => (Reduce(Reduce(s, SetUser(Some(u))), SetInventory(u.inventory.GetOr([]))), calls)
      case Ok(None) => (Reduce(s, SetError(Some(AddObjectFailed))), calls)
      case Err(m) => (Reduce(s, SetError(Some(m))), calls)
  }

  /** The two dispatches reach the same state as the store's single `set`. */
  lemma {:induction false} AddObjectMatchesStore(s: State, name: string, description: string, reply: Result<Option<ClientUser>>)
    requires s.user.Some? && s.user.value.id != ""
    ensures AddObjectToInventory(s, name, description, reply).0 == AfterAddObject(s, reply)
  {
  }

  /** `setUserWorldCell`: the cell the server finds at the same coordinates,
      or the given one when it finds none. Only the shown cell changes. The
      callers do not await it, so a rejecting `fetchWorldCell` dispatches
      nothing and leaves the state as it was. */
  function WithUserWorldCell(s: State, c: WorldCell, fetched: Result<Option<WorldCell>>): (r: State)
    ensures fetched.Ok? && fetched.value.Some? ==> r.userWorldCell == fetched.value
    ensures fetched.Ok? && fetched.value.None? ==> r.userWorldCell == Some(c)
    ensures fetched.Err? ==> r == s
    ensures r.(userWorldCell := s.userWorldCell) == s
  {
    match fetched
    case Err(_) => s
    case Ok(found) => Reduce(s, SetUserWorldCell(found.GetOr(c)))
  }

  /** `updateSurroundingCells` in its current form: after the area query it
      computes the surroundings and then drops them; only the user's cell is
      refreshed. */
  function UpdateSurroundingCellsDiscarding(s: State, area: Result<seq<WorldCell>>, fetched: Result<Option<WorldCell>>): (r: State)
    ensures r.surroundings == s.surroundings
    ensures s.user.None? || s.user.value.worldCell.None? ==> r == s
  {
    match s.user
    case None => s
    case Some(u) =>
      match u.worldCell
      case None => s
      case Some(c) =>
        match area
        case Err(m) => Reduce(s, SetError(Some(m)))
        case Ok(cells) =>
          var _ := Classify(cells, c.x, c.y);
          WithUserWorldCell(s, c, fetched)
  }

  /** A user with a cell to the north still sees no northern neighbour
      after the current `updateSurroundingCells`. */
  lemma {:induction false} ClassificationIsDiscarded()
    ensures var c := WorldCell("a", 0, 0, ".", "A", "a");
      var n := WorldCell("b", 0, 1, ".", "B", "b");
      var s := Initial.(user := Some(ClientUser("u", Some(c), None)));
      && Classify([c, n], 0, 0).north == Some(n)
      && UpdateSurroundingCellsDiscarding(s, Ok([c, n]), Ok(None)).surroundings.north == None
  {
    var c := WorldCell("a", 0, 0, ".", "A", "a");
    var n := WorldCell("b", 0, 1, ".", "B", "b");
    assert [c, n][..1] == [c];
    assert [c][..0] == [];
  }

  /** `updateSurroundingCells` with the classification stored, as the user
      store does: the surroundings become the classification of the area. */
  function UpdateSurroundingCells(s: State, area: Result<seq<WorldCell>>, fetched: Result<Option<WorldCell>>): (r: State)
    ensures s.user.None? || s.user.value.worldCell.None? ==> r == s
    ensures s.user.Some? && s.user.value.worldCell.Some? && area.Ok? ==>
      var c := s.user.value.worldCell.value;
      && r.surroundings == SurroundingsFrom(area.value, c)
      && r.userWorldCell == (if fetched.Ok? then Some(fetched.value.GetOr(c)) else s.userWorldCell)
      && r.error == s.error
    ensures s.user.Some? && s.user.value.worldCell.Some? && area.Err? ==> r == s.(error := Some(area.message))
  {
    match s.user
    case None => s
    case Some(u) =>
      match u.worldCell
      case None => s
      case Some(c) =>
        match area
        case Err(m) => Reduce(s, SetError(Some(m)))
        case Ok(cells) => WithUserWorldCell(Reduce(s, SetSurroundingCells(SurroundingsFrom(cells, c))), c, fetched)
  }
}

=== FILE: user_state.dfy ===
/** The client-side user state shared by the React context and the zustand
    store: the signed-in user, the cell and surroundings shown, the
    inventory, and the loading/error flags. */
module UserState {
  import opened Types
  import opened Wrappers
  import opened GameRules
  import WorldStore
  import WorldCellActions

  /** The user as the server actions return it, with its relations. */
  datatype ClientUser = ClientUser(id: UserId, worldCell: Option<WorldCell>, inventory: Option<seq<LootItem>>)

  datatype State = State(
    user: Option<ClientUser>,
    userWorldCell: Option<WorldCell>,
    surroundings: Surroundings,
    inventory: seq<LootItem>,
    loading: bool,
    error: Option<string>)

  /** No user, no cell, empty surroundings and inventory, not loading, no error. */
  const Initial: State := State(None, None, NoSurroundings, [], false, None)

  /** The reducer's actions; `Unrecognised` stands for any other `type`. */
  datatype Action =
    | SetUser(user: Option<ClientUser>)
    | SetUserWorldCell(cell: WorldCell)
    | SetSurroundingCells(surroundings: Surroundings)
    | SetInventory(inventory: seq<LootItem>)
    | SetLoading(loading: bool)
    | SetError(error: Option<string>)
    | Unrecognised

  /** `userReducer`, and equally the store's setters: each action replaces
      its own field and keeps every other. */
  function Reduce(s: State, a: Action): (r: State)
    ensures r.user == (if a.SetUser? then a.user else s.user)
    ensures r.userWorldCell == (if a.SetUserWorldCell? then Some(a.cell) else s.userWorldCell)
    ensures r.surroundings == (if a.SetSurroundingCells? then a.surroundings else s.surroundings)
    ensures r.inventory == (if a.SetInventory? then a.inventory else s.inventory)
    ensures r.loading == (if a.SetLoading? then a.loading else s.loading)
    ensures r.error == (if a.SetError? then a.error else s.error)
  {
    match a
    case SetUser(u) => s.(user := u)
    case SetUserWorldCell(c) => s.(userWorldCell := Some(c))
    case SetSurroundingCells(n) => s.(surroundings := n)
    case SetInventory(i) => s.(inventory := i)
    case SetLoading(l) => s.(loading := l)
    case SetError(e) => s.(error := e)
    case Unrecognised => s
  }

  /** Which field an action writes; `Unrecognised` writes none. */
  function Field(a: Action): nat {
    match a
    case SetUser(_) => 1
    case SetUserWorldCell(_) => 2
    case SetSurroundingCells(_) => 3
    case SetInventory(_) => 4
    case SetLoading(_) => 5
    case SetError(_) => 6
    case Unrecognised => 0
  }

  /** Dispatching an action twice is dispatching it once; actions on
      different fields commute. */
  lemma {:induction false} ReduceIdempotentAndCommuting(s: State, a: Action, b: Action)
    ensures Reduce(Reduce(s, a), a) == Reduce(s, a)
    ensures Field(a) != Field(b) ==> Reduce(Reduce(s, a), b) == Reduce(Reduce(s, b), a)
  {
  }

  /** The server calls a client operation makes, in order. */
  datatype ClientCall =
    | FetchArea(minX: int, maxX: int, minY: int, maxY: int)
    | CreateTrace(userId: UserId, worldCellId: CellId, traceType: TraceType, description: string)
    | ConnectUser(userId: UserId, x: int, y: int)
    | AddObject(userId: UserId, name: string, description: string)
    | GetMe
    | InitializePosition(userId: UserId)
    | RefreshJournal(userId: UserId)

  /** The 3x3 query around `c`. */
  function AreaAround(c: WorldCell): ClientCall {
    FetchArea(c.x - 1, c.x + 1, c.y - 1, c.y + 1)
  }

  const NoUserFound: string := "No user found"
  const AddObjectFailed: string := "Failed to add object to inventory"

  /** The outcome of `addObjectToInventory` with a signed-in user, from the
      server's reply: the updated user with its inventory (falling back to
      an empty one), or the error. */
  function AfterAddObject(s: State, reply: Result<Option<ClientUser>>): (r: State)
    ensures reply.Ok? && reply.value.Some? ==>
      r == s.(user := reply.value, inventory := reply.value.value.inventory.GetOr([]))
    ensures reply.Ok? && reply.value.None? ==> r == s.(error := Some(AddObjectFailed))
    ensures reply.Err? ==> r == s.(error := Some(reply.message))
  {
    match reply
    case Ok(Some(u)) => s.(user := Some(u), inventory := u.inventory.GetOr([]))
    case Ok(None) => s.(error := Some(AddObjectFailed))
    case Err(m) => s.(error := Some(m))
  }

  /** The 3x3 query around `(x, y)` followed by the classification loop. */
  function SurroundingsFrom(area: seq<WorldCell>, c: WorldCell): Surroundings {
    Classify(area, c.x, c.y)
  }

  /** Classifying the 3x3 area query of a valid store finds, in each
      direction, exactly the cell the store holds at that neighbour. */
  lemma {:induction false} SurroundingsMatchStore(st: WorldStore.Store, c: WorldCell)
    requires WorldStore.Valid(st)
    ensures var area := WorldCellActions.FetchWorldCellsInArea(st, c.x - 1, c.x + 1, c.y - 1, c.y + 1, false);
      var n := SurroundingsFrom(area.value, c);
      && n.north == WorldStore.CellAt(st.cells, c.x, c.y + 1)
      && n.south == WorldStore.CellAt(st.cells, c.x, c.y - 1)
      && n.east == WorldStore.CellAt(st.cells, c.x + 1, c.y)
      && n.west == WorldStore.CellAt(st.cells, c.x - 1, c.y)
  {
    var area := WorldCellActions.FetchWorldCellsInArea(st, c.x - 1, c.x + 1, c.y - 1, c.y + 1, false).value;
    ClassifyIsLastAt(area, c.x, c.y);
    var n := Classify(area, c.x, c.y);
    NeighbourMatches(st, area, c, c.x, c.y + 1, n.north);
    NeighbourMatches(st, area, c, c.x, c.y - 1, n.south);
    NeighbourMatches(st, area, c, c.x + 1, c.y, n.east);
    NeighbourMatches(st, area, c, c.x - 1, c.y, n.west);
  }

  lemma {:induction false} NeighbourMatches(st: WorldStore.Store, area: seq<WorldCell>, c: WorldCell, x: int, y: int, r: Option<WorldCell>)
    requires WorldStore.Valid(st)
    requires WorldCellActions.InArea(WorldCell("", x, y, "", "", ""), c.x - 1, c.x + 1, c.y - 1, c.y + 1)
    requires forall d :: d in area <==> d in st.cells && WorldCellActions.InArea(d, c.x - 1, c.x + 1, c.y - 1, c.y + 1)
    requires IsLastAt(area, x, y, r)
    ensures r == WorldStore.CellAt(st.cells, x, y)
  {
    if r.Some? {
      var i :| 0 <= i < |area| && area[i] == r.value && area[i].x == x && area[i].y == y
        && forall j :: i < j < |area| ==> !(area[j].x == x && area[j].y == y);
      assert area[i] in area;
      WorldStore.CellAtUnique(st.cells, r.value);
    }
  }
}

=== FILE: user_store.dfy ===
/** The zustand user store: setters are `UserState.Reduce`; the async
    actions below take the server's replies as inputs and return the new
    state with the calls made. */
module UserStore {
  import opened Types
  import opened Wrappers
  import opened GameRules
  import opened UserState
  import UserContext
  import WorldStore
  import WorldCellActions

  /** Each setter writes its own field only: a setter never touches the
      loading flag, the error, or any field another setter owns. */
  lemma {:induction false} SettersChangeOwnField(s: State, a: Action)
    requires !a.Unrecognised?
    ensures var r := Reduce(s, a);
      && (a.SetUser? || r.user == s.user)
      && (a.SetUserWorldCell? || r.userWorldCell == s.userWorldCell)
      && (a.SetSurroundingCells? || r.surroundings == s.surroundings)
      && (a.SetInventory? || r.inventory == s.inventory)
      && (a.SetLoading? || r.loading == s.loading)
      && (a.SetError? || r.error == s.error)
  {
  }

  /** `updateSurroundingCells`: nothing without a cell; otherwise the area
      reply is classified into the surroundings, or its error recorded. */
  function UpdateSurroundingCells(s: State, area: Result<seq<WorldCell>>): (r: State)
    ensures s.user.None? || s.user.value.worldCell.None? ==> r == s
    ensures s.user.Some? && s.user.value.worldCell.Some? ==>
      if area.Ok? then r == s.(surroundings := SurroundingsFrom(area.value, s.user.value.worldCell.value))
      else r == s.(error := Some(area.message))
  {
    if s.user.None? || s.user.value.worldCell.None? then s
    else
      match area
      case Ok(cells) => s.(surroundings := SurroundingsFrom(cells, s.user.value.worldCell.value))
      case Err(m) => s.(error := Some(m))
  }

  /** The context's corrected update is the store's update followed by the
      refresh of the user's cell. */
  lemma {:induction false} ContextUpdateIsStoreUpdatePlusCell(s: State, area: Result<seq<WorldCell>>, fetched: Option<WorldCell>)
    requires s.user.Some? && s.user.value.worldCell.Some? && area.Ok?
    ensures UserContext.UpdateSurroundingCells(s, area, Ok(fetched))
      == UpdateSurroundingCells(s, area).(userWorldCell := Some(fetched.GetOr(s.user.value.worldCell.value)))
  {
  }

  /** The replies `getMe` depends on. */
  datatype GetMeReplies = GetMeReplies(
    me: Result<Option<ClientUser>>,
    area: Result<seq<WorldCell>>,
    initialize: Outcome<string>)

  /** One run of `getMe`: the state while the user request is awaited, the
      state after the `finally`, and the server calls made. */
  datatype GetMeRun = GetMeRun(pending: State, state: State, calls: seq<ClientCall>)

  /** `getMe`: loading on and error cleared on entry; loading off on every
      exit. A user with a cell gets surroundings, cell and inventory (empty
      when missing) and a journal refresh; a user without one is given a
      starting position, then a journal refresh. */
  function GetMe(s: State, replies: GetMeReplies): (r: GetMeRun)
    // while the request is out the store shows loading and no error, and
    // nothing else has changed yet
    ensures r.pending.loading && r.pending.error.None?
    ensures r.pending.(loading := s.loading, error := s.error) == s
    ensures !r.state.loading
    ensures |r.calls| >= 1 && r.calls[0] == UserState.GetMe
    ensures replies.me.Err? ==> r.state == s.(loading := false, error := Some(replies.me.message)) && r.calls == [UserState.GetMe]
    ensures replies.me.Ok? && replies.me.value.None? ==> r.state == s.(user := None, loading := false, error := None) && r.calls == [UserState.GetMe]
    ensures replies.me.Ok? && replies.me.value.Some? ==>
      var u := replies.me.value.value;
      && r.state.user == Some(u)
      && (u.worldCell.Some? ==>
            && r.state.userWorldCell == u.worldCell
            && r.state.inventory == u.inventory.GetOr([])
            && r.calls == [UserState.GetMe, AreaAround(u.worldCell.value), RefreshJournal(u.id)]
            && (replies.area.Ok? ==> r.state.surroundings == SurroundingsFrom(replies.area.value, u.worldCell.value) && r.state.error.None?)
            // a failed area query is caught inside `updateSurroundingCells`:
            // its error is recorded, the surroundings kept, and `getMe` goes on
            && (replies.area.Err? ==> r.state.surroundings == s.surroundings && r.state.error == Some(replies.area.message)))
      && (u.worldCell.None? ==>
            && r.state.userWorldCell == s.userWorldCell && r.state.inventory == s.inventory
            && r.state.surroundings == s.surroundings
            && (replies.initialize.Pass? <==> r.calls == [UserState.GetMe, InitializePosition(u.id), RefreshJournal(u.id)])
            && (replies.initialize.Fail? ==> r.state.error == Some(replies.initialize.error))
            && (replies.initialize.Pass? ==> r.state.error.None?))
  {
    var s1 := s.(loading := true, error := None);
    match replies.me
    case Err(m) => GetMeRun(s1, s1.(error := Some(m), loading := false), [UserState.GetMe])
    case Ok(None) => GetMeRun(s1, s1.(user := None, loading := false), [UserState.GetMe])
    case Ok(Some(u)) =>
      var s2 := s1.(user := Some(u));
      match u.worldCell
      case Some(c) =>
        var s3 := UpdateSurroundingCells(s2, replies.area);
        GetMeRun(s1, s3.(userWorldCell := Some(c), inventory := u.inventory.GetOr([]), loading := false),
                 [UserState.GetMe, AreaAround(c), RefreshJournal(u.id)])
      case None =>
        match replies.initialize
        case Fail(m) => GetMeRun(s1, s2.(error := Some(m), loading := false), [UserState.GetMe, InitializePosition(u.id)])
        case Pass => GetMeRun(s1, s2.(loading := false), [UserState.GetMe, InitializePosition(u.id), RefreshJournal(u.id)])
  }

  /** The store shows, in each direction around `c`, exactly the world's
      cell at that neighbour. */
  predicate ShowsWorldAround(r: State, st: WorldStore.Store, c: WorldCell) {
    && r.surroundings.north == WorldStore.CellAt(st.cells, c.x, c.y + 1)
    && r.surroundings.south == WorldStore.CellAt(st.cells, c.x, c.y - 1)
    && r.surroundings.east == WorldStore.CellAt(st.cells, c.x + 1, c.y)
    && r.surroundings.west == WorldStore.CellAt(st.cells, c.x - 1, c.y)
  }

  /** After `getMe` for a user standing in a cell of a valid world, the
      store shows in each direction exactly the world's cell at that
      neighbour, and the user's own cell. */
  lemma {:induction false} GetMeShowsWorldNeighbours(st: WorldStore.Store, s: State, u: ClientUser, c: WorldCell,
                                                     cells: seq<WorldCell>, initialize: Outcome<string>)
    requires WorldStore.Valid(st)
    requires u.worldCell == Some(c)
    // `cells` is what the 3x3 area query around the user's cell returns
    requires WorldCellActions.FetchWorldCellsInArea(st, c.x - 1, c.x + 1, c.y - 1, c.y + 1, false) == Ok(cells)
    ensures ShowsWorldAround(GetMe(s, GetMeReplies(Ok(Some(u)), Ok(cells), initialize)).state, st, c)
    ensures GetMe(s, GetMeReplies(Ok(Some(u)), Ok(cells), initialize)).state.userWorldCell == Some(c)
  {
    var r := GetMe(s, GetMeReplies(Ok(Some(u)), Ok(cells), initialize)).state;
    GetMeWithArea(s, u, cells, initialize);
    AreaShownAround(r, st, c, cells);
  }

  /** A state whose surroundings are the classified area query of a valid
      world shows the world's neighbours. */
  lemma {:induction false} AreaShownAround(r: State, st: WorldStore.Store, c: WorldCell, cells: seq<WorldCell>)
    requires WorldStore.Valid(st)
    requires WorldCellActions.FetchWorldCellsInArea(st, c.x - 1, c.x + 1, c.y - 1, c.y + 1, false) == Ok(cells)
    requires r.surroundings == SurroundingsFrom(cells, c)
    ensures ShowsWorldAround(r, st, c)
  {
    AreaShowsWorldAround(st, c, cells);
  }

  lemma {:induction false} AreaShowsWorldAround(st: WorldStore.Store, c: WorldCell, cells: seq<WorldCell>)
    requires WorldStore.Valid(st)
    requires WorldCellActions.FetchWorldCellsInArea(st, c.x - 1, c.x + 1, c.y - 1, c.y + 1, false) == Ok(cells)
    ensures var n := SurroundingsFrom(cells, c);
      && n.north == WorldStore.CellAt(st.cells, c.x, c.y + 1)
      && n.south == WorldStore.CellAt(st.cells, c.x, c.y - 1)
      && n.east == WorldStore.CellAt(st.cells, c.x + 1, c.y)
      && n.west == WorldStore.CellAt(st.cells, c.x - 1, c.y)
  {
    SurroundingsMatchStore(st, c);
  }

  /** `getMe` for a user with a cell and a successful area query: the
      classified area, the user's cell, no error, loading off. */
  lemma {:induction false} GetMeWithArea(s: State, u: ClientUser, cells: seq<WorldCell>, initialize: Outcome<string>)
    requires u.worldCell.Some?
    ensures var r := GetMe(s, GetMeReplies(Ok(Some(u)), Ok(cells), initialize)).state;
      r.surroundings == SurroundingsFrom(cells, u.worldCell.value) && r.userWorldCell == u.worldCell
      && r.error.None? && !r.loading
  {
  }

  /** The store's `getUser`: the reply becomes the user, or its error is
      recorded; nothing else changes. */
  function GetUser(s: State, reply: Result<Option<ClientUser>>): (r: State)
    ensures reply.Ok? ==> r.user == reply.value && r.error == s.error
    ensures reply.Err? ==> r.user == s.user && r.error == Some(reply.message)
    ensures r.(user := s.user, error := s.error) == s
  {
    match reply
    case Ok(u) => s.(user := u)
    case Err(m) => s.(error := Some(m))
  }

  /** The store's `updateUser` once the server has answered: the user is
      set, the surroundings of the user's (new) cell are fetched, then the
      cell and the inventory (empty when missing) are set. The area query's
      failure is caught inside `updateSurroundingCells`; a rejected update
      only records its error. The result is the state and the calls made
      after the update itself. */
  function UpdateUser(s: State, reply: Result<Option<ClientUser>>, area: Result<seq<WorldCell>>): (r: (State, seq<ClientCall>))
    ensures reply.Err? ==> r == (s.(error := Some(reply.message)), [])
    ensures reply.Ok? ==>
      var u := reply.value;
      && r.0.user == u
      && r.0.userWorldCell == (if u.Some? then u.value.worldCell else None)
      && r.0.inventory == (if u.Some? then u.value.inventory.GetOr([]) else [])
      && r.0.loading == s.loading
    ensures reply.Ok? && reply.value.Some? && reply.value.value.worldCell.Some? ==>
      var c := reply.value.value.worldCell.value;
      && r.1 == [AreaAround(c)]
      && (area.Ok? ==> r.0.surroundings == SurroundingsFrom(area.value, c) && r.0.error == s.error)
      && (area.Err? ==> r.0.surroundings == s.surroundings && r.0.error == Some(area.message))
    ensures reply.Ok? && (reply.value.None? || reply.value.value.worldCell.None?) ==>
      r.1 == [] && r.0.surroundings == s.surroundings && r.0.error == s.error
  {
    match reply
    case Err(m) => (s.(error := Some(m)), [])
    case Ok(u) =>
      var s1 := s.(user := u);
      var s2 := UpdateSurroundingCells(s1, area);
      var calls := if u.Some? && u.value.worldCell.Some? then [AreaAround(u.value.worldCell.value)] else [];
      match u
      case None => (s2.(userWorldCell := None, inventory := []), calls)
      case Some(v) => (s2.(userWorldCell := v.worldCell, inventory := v.inventory.GetOr([])), calls)
  }

  /** The request `moveUser` makes: nothing without a user standing in a
      cell; otherwise the user's connection to the neighbour, with no
      footprint. */
  function MoveRequest(s: State, direction: string): (calls: seq<ClientCall>)
    ensures s.user.None? || s.user.value.worldCell.None? ==> calls == []
    ensures s.user.Some? && s.user.value.worldCell.Some? ==>
      var c := s.user.value.worldCell.value;
      calls == [ConnectUser(s.user.value.id, Step(c.x, c.y, direction).0, Step(c.x, c.y, direction).1)]
  {
    match s.user
    case None => []
    case Some(u) =>
      match u.worldCell
      case None => []
      case Some(c) =>
        var (nx, ny) := Step(c.x, c.y, direction);
        [ConnectUser(u.id, nx, ny)]
  }

  /** `moveUser`: nothing without a user standing in a cell; otherwise the
      connection request, then `updateUser` with the server's `reply` and
      the `area` query around the cell it returns. */
  function MoveUser(s: State, direction: string, reply: Result<Option<ClientUser>>, area: Result<seq<WorldCell>>): (r: (State, seq<ClientCall>))
    ensures s.user.None? || s.user.value.worldCell.None? ==> r == (s, [])
    ensures s.user.Some? && s.user.value.worldCell.Some? ==>
      var c := s.user.value.worldCell.value;
      && |r.1| >= 1
      && r.1[0] == ConnectUser(s.user.value.id, Step(c.x, c.y, direction).0, Step(c.x, c.y, direction).1)
      && r.1[1..] == UpdateUser(s, reply, area).1
      && r.0 == UpdateUser(s, reply, area).0
  {
    var request := MoveRequest(s, direction);
    if request == [] then (s, [])
    else
      var (state, calls) := UpdateUser(s, reply, area);
      (state, request + calls)
  }

  /** After a move the server answered with the user standing in `c`, in a
      valid world: the store shows `c` as the user's cell and, in each
      direction, exactly the world's neighbour of `c`. */
  lemma {:induction false} MoveShowsWorldAroundNewCell(st: WorldStore.Store, s: State, direction: string,
                                                       u: ClientUser, c: WorldCell, cells: seq<WorldCell>)
    requires WorldStore.Valid(st)
    requires s.user.Some? && s.user.value.worldCell.Some?
    requires u.worldCell == Some(c)
    requires WorldCellActions.FetchWorldCellsInArea(st, c.x - 1, c.x + 1, c.y - 1, c.y + 1, false) == Ok(cells)
    ensures ShowsWorldAround(MoveUser(s, direction, Ok(Some(u)), Ok(cells)).0, st, c)
    ensures MoveUser(s, direction, Ok(Some(u)), Ok(cells)).0.userWorldCell == Some(c)
  {
    var r := MoveUser(s, direction, Ok(Some(u)), Ok(cells)).0;
    assert r.surroundings == SurroundingsFrom(cells, c);
    AreaShownAround(r, st, c, cells);
  }

  /** The context's move request is the store's preceded by a footprint. */
  lemma {:induction false} ContextMoveAddsOnlyFootprint(s: State, direction: string)
    requires s.user.Some? && s.user.value.worldCell.Some?
    ensures UserContext.MoveUser(s, direction, false)
      == [CreateTrace(s.user.value.id, s.user.value.worldCell.value.id, Footprint, "Moved " + direction)] + MoveRequest(s, direction)
  {
  }

  /** An unrecognised direction connects the user to the cell they are in. */
  lemma {:induction false} UnknownDirectionStaysPut(s: State, direction: string)
    requires s.user.Some? && s.user.value.worldCell.Some?
    requires direction !in {"north", "south", "east", "west"}
    ensures MoveRequest(s, direction) == [ConnectUser(s.user.value.id, s.user.value.worldCell.value.x, s.user.value.worldCell.value.y)]
  {
  }

  /** `addObjectToInventory`: without a user, the error "No user found" and
      no call; otherwise one server call whose reply sets user and
      inventory together. */
  function AddObjectToInventory(s: State, name: string, description: string, reply: Result<Option<ClientUser>>): (r: (State, seq<ClientCall>))
    ensures s.user.None? || s.user.value.id == "" ==> r == (s.(error := Some(NoUserFound)), [])
    ensures s.user.Some? && s.user.value.id != "" ==>
      r == (AfterAddObject(s, reply), [AddObject(s.user.value.id, name, description)])
  {
    if s.user.None? || s.user.value.id == "" then (s.(error := Some(NoUserFound)), [])
    else (AfterAddObject(s, reply), [AddObject(s.user.value.id, name, description)])
  }
}

=== FILE: world_cell_actions.dfy ===
/** The world-cell server actions: list every cell, list a rectangular area,
    and create one cell. The store is in memory; its rejections are a
    `fault` flag and surface as the fixed error messages of the actions. */
module WorldCellActions {
  import opened Types
  import opened Wrappers
  import opened Seqs
  import opened Sorting
  import opened WorldStore

  const FetchFailed: string := "Failed to fetch world cells"
  const FetchAreaFailed: string := "Failed to fetch world cells in area"
  const CreateFailed: string := "Failed to create world cell"

  /** `orderBy: [{ y: 'asc' }, { x: 'asc' }]`. */
  function RowMajor(c: WorldCell): (int, int) {
    (c.y, c.x)
  }

  /** `fetchWorldCells`: every cell, rows bottom to top, each row left to right. */
  function FetchWorldCells(st: Store, fault: bool): (r: Result<seq<WorldCell>>)
    ensures fault <==> r == Err(FetchFailed)
    ensures r.Ok? ==> multiset(r.value) == multiset(st.cells) && SortedBy(r.value, RowMajor)
  {
    if fault then Err(FetchFailed)
    else
      SortBySorted(st.cells, RowMajor);
      Ok(SortBy(st.cells, RowMajor))
  }

  /** The inclusive rectangle of `fetchWorldCellsInArea`. */
  predicate InArea(c: WorldCell, minX: int, maxX: int, minY: int, maxY: int) {
    minX <= c.x <= maxX && minY <= c.y <= maxY
  }

  /** `fetchWorldCellsInArea`: exactly the cells inside the closed rectangle,
      in the same row-major order. */
  function FetchWorldCellsInArea(st: Store, minX: int, maxX: int, minY: int, maxY: int, fault: bool): (r: Result<seq<WorldCell>>)
    ensures fault <==> r == Err(FetchAreaFailed)
    ensures r.Ok? ==> SortedBy(r.value, RowMajor)
    ensures r.Ok? ==> forall c :: c in r.value <==> c in st.cells && InArea(c, minX, maxX, minY, maxY)
    ensures r.Ok? ==> forall c :: InArea(c, minX, maxX, minY, maxY) ==> multiset(r.value)[c] == multiset(st.cells)[c]
  {
    if fault then Err(FetchAreaFailed)
    else
      var inside := Filter(st.cells, c => InArea(c, minX, maxX, minY, maxY));
      SortBySorted(inside, RowMajor);
      FilterMultiset(st.cells, c => InArea(c, minX, maxX, minY, maxY));
      var r := SortBy(inside, RowMajor);
      assert forall c :: c in r <==> c in multiset(inside);
      Ok(r)
  }

  /** An area that covers every cell returns the same list as fetching all. */
  lemma {:induction false} CoveringAreaIsEverything(st: Store, minX: int, maxX: int, minY: int, maxY: int)
    requires forall i :: 0 <= i < |st.cells| ==> InArea(st.cells[i], minX, maxX, minY, maxY)
    ensures FetchWorldCellsInArea(st, minX, maxX, minY, maxY, false) == FetchWorldCells(st, false)
  {
    FilterAll(st.cells, c => InArea(c, minX, maxX, minY, maxY));
  }

  /** `createWorldCell`: one new row holding exactly the given fields. The
      store rejects a second cell at the same `(x, y)` (its unique key). */
  function CreateWorldCell(st: Store, x: int, y: int, mapCharacter: string, title: string, description: string,
                           newId: CellId, fault: bool): (r: Result<(Store, WorldCell)>)
    ensures r.Err? ==> r.message == CreateFailed
    ensures r.Err? <==> fault || CellAt(st.cells, x, y).Some?
    ensures r.Ok? ==> var (st', c) := r.value;
      && c == WorldCell(newId, x, y, mapCharacter, title, description)
      && st'.users == st.users && st'.cells == st.cells + [c]
      && CellAt(st'.cells, x, y) == Some(c)
  {
    if fault || CellAt(st.cells, x, y).Some? then Err(CreateFailed)
    else
      var c := WorldCell(newId, x, y, mapCharacter, title, description);
      CellAtAppend(st.cells, c);
      Ok((AddCell(st, c), c))
  }

  lemma {:induction false} CellAtAppend(cells: seq<WorldCell>, c: WorldCell)
    requires CellAt(cells, c.x, c.y).None?
    ensures CellAt(cells + [c], c.x, c.y) == Some(c)
  {
    if |cells| > 0 {
      assert (cells + [c])[1..] == cells[1..] + [c];
      CellAtAppend(cells[1..], c);
    }
  }

  /** Creating with a fresh id keeps the store's constraints, and a second
      creation at the same coordinates is refused. */
  lemma {:induction false} CreateKeepsValidAndRefusesDuplicate(st: Store, x: int, y: int, mapCharacter: string, title: string, description: string,
                                            id1: CellId, id2: CellId)
    requires Valid(st) && !IdUsed(st.cells, id1)
    ensures var r := CreateWorldCell(st, x, y, mapCharacter, title, description, id1, false);
      r.Ok? ==> (Valid(r.value.0)
        && CreateWorldCell(r.value.0, x, y, mapCharacter, title, description, id2, false) == Err(CreateFailed))
  {
    var r := CreateWorldCell(st, x, y, mapCharacter, title, description, id1, false);
    if r.Ok? {
      AddCellKeepsValid(st, r.value.1);
    }
  }
}

=== FILE: world_cell_state.dfy ===
/** The client-side cache of world cells, kept both by a React reducer and by
    a zustand store with the same rules: upsert by id, first match by
    coordinates, a load that runs only on an empty cache, and a reset. */
module WorldCellState {
  import opened Types
  import opened Wrappers
  import opened WorldStore

  datatype CellsState = CellsState(worldCells: seq<WorldCell>, loading: bool, error: Option<string>)

  const Initial: CellsState := CellsState([], false, None)

  /** How an awaited server action settles: with a value, by throwing an
      `Error` (which carries a message), or by throwing something else. */
  datatype Settled<T> = Resolved(value: T) | ThrewError(message: string) | ThrewOther

  /** `err instanceof Error ? err.message : fallback`. */
  function ErrorText<T>(reply: Settled<T>, fallback: string): (text: string)
    requires !reply.Resolved?
    ensures reply.ThrewError? ==> text == reply.message
    ensures reply.ThrewOther? ==> text == fallback
  {
    if reply.ThrewError? then reply.message else fallback
  }

  const LoadFailed: string := "Failed to load world cells"
  const LoadAreaFailed: string := "Failed to load world cells in area"
  const CreateFailed: string := "Failed to create world cell"

  /** `findIndex(c => c.id === id)`: the first position holding that id. */
  function FindIndex(cells: seq<WorldCell>, id: CellId): (r: Option<nat>)
    ensures r.Some? ==> r.value < |cells| && cells[r.value].id == id
    ensures r.Some? ==> forall j :: 0 <= j < r.value ==> cells[j].id != id
    ensures r.None? <==> !IdUsed(cells, id)
  {
    if |cells| == 0 then None
    else if cells[0].id == id then Some(0)
    else
      match FindIndex(cells[1..], id)
      case None => None
      case Some(k) => Some(k + 1)
  }

  /** `UPDATE_WORLD_CELL` / `updateWorldCell`: replace the first cell with
      the same id in place, or append the cell when its id is new. */
  function Upsert(cells: seq<WorldCell>, cell: WorldCell): (r: seq<WorldCell>)
    ensures IdUsed(cells, cell.id) ==> |r| == |cells|
    ensures IdUsed(cells, cell.id) ==>
      var k := FindIndex(cells, cell.id).value;
      r[k] == cell && forall j :: 0 <= j < |cells| && j != k ==> r[j] == cells[j]
    ensures !IdUsed(cells, cell.id) ==> r == cells + [cell]
    ensures cell in r
    ensures forall c :: c in r ==> c in cells || c == cell
  {
    match FindIndex(cells, cell.id)
    case Some(k) => cells[k := cell]
    case None => cells + [cell]
  }

  /** Cells with another id keep their values and their order. */
  lemma {:induction false} UpsertKeepsOthers(cells: seq<WorldCell>, cell: WorldCell)
    ensures forall j :: 0 <= j < |cells| && cells[j].id != cell.id ==> Upsert(cells, cell)[j] == cells[j]
  {
  }

  /** Unique ids stay unique, and the upserted cell is what a lookup by its
      id finds afterwards. */
  lemma {:induction false} UpsertKeepsIdsUnique(cells: seq<WorldCell>, cell: WorldCell)
    requires IdsUnique(cells)
    ensures IdsUnique(Upsert(cells, cell))
    ensures CellById(Upsert(cells, cell), cell.id) == Some(cell)
  {
    var r := Upsert(cells, cell);
    if IdUsed(cells, cell.id) {
      var k := FindIndex(cells, cell.id).value;
      forall i, j | 0 <= i < j < |r| ensures r[i].id != r[j].id {
        if i != k && j != k {
          assert r[i] == cells[i] && r[j] == cells[j];
        } else if i == k {
          assert r[j] == cells[j] && cells[k].id == cell.id;
        } else {
          assert r[i] == cells[i] && cells[k].id == cell.id;
        }
      }
    } else {
      forall i, j | 0 <= i < j < |r| ensures r[i].id != r[j].id {
        if j == |r| - 1 {
          assert r[i] == cells[i];
        }
      }
    }
    CellByIdUnique(r, cell);
  }

  /** Upserting the same cell twice is the same as upserting it once. */
  lemma {:induction false} UpsertIdempotent(cells: seq<WorldCell>, cell: WorldCell)
    ensures Upsert(Upsert(cells, cell), cell) == Upsert(cells, cell)
  {
    var r := Upsert(cells, cell);
    if IdUsed(cells, cell.id) {
      var k := FindIndex(cells, cell.id).value;
      var k2 := FindIndex(r, cell.id).value;
      assert k2 == k by {
        assert r[k].id == cell.id;
        forall j | 0 <= j < k ensures r[j].id != cell.id {
          assert r[j] == cells[j];
        }
      }
      assert r[k := cell] == r;
    } else {
      assert r[|cells|].id == cell.id;
      var k2 := FindIndex(r, cell.id).value;
      assert k2 == |cells| by {
        forall j | 0 <= j < |cells| ensures r[j].id != cell.id {
          assert r[j] == cells[j];
        }
      }
      assert r[k2 := cell] == r;
    }
  }

  /** `getWorldCellAt`: the first cached cell at `(x, y)`, if any. */
  function GetWorldCellAt(s: CellsState, x: int, y: int): (r: Option<WorldCell>)
    ensures r.Some? ==> r.value in s.worldCells && r.value.x == x && r.value.y == y
    ensures r.None? <==> forall c :: c in s.worldCells ==> !(c.x == x && c.y == y)
    ensures r.Some? ==> exists i :: (0 <= i < |s.worldCells| && s.worldCells[i] == r.value &&
      forall j :: 0 <= j < i ==> !(s.worldCells[j].x == x && s.worldCells[j].y == y))
  {
    CellAt(s.worldCells, x, y)
  }

  /** After an upsert, when no other id sits at the cell's coordinates, the
      coordinate lookup finds the upserted cell. */
  lemma {:induction false} UpsertThenGetAt(s: CellsState, cell: WorldCell)
    requires forall c :: c in s.worldCells && c.x == cell.x && c.y == cell.y ==> c.id == cell.id
    requires IdsUnique(s.worldCells)
    ensures GetWorldCellAt(s.(worldCells := Upsert(s.worldCells, cell)), cell.x, cell.y) == Some(cell)
  {
    var r := Upsert(s.worldCells, cell);
    UpsertKeepsIdsUnique(s.worldCells, cell);
    var i :| 0 <= i < |r| && r[i] == cell;
    forall j | 0 <= j < |r| && r[j].x == cell.x && r[j].y == cell.y
      ensures r[j] == cell
    {
      assert r[j] in r;
      assert r[j].id == cell.id;
      assert i == j;
    }
  }

  datatype Action =
    | SetWorldCells(cells: seq<WorldCell>)
    | SetLoading(loading: bool)
    | SetError(error: Option<string>)
    | UpdateWorldCell(cell: WorldCell)
    | Reset
    | Unrecognised

  /** `worldCellReducer`; the zustand setters and `reset` behave the same. */
  function Reduce(s: CellsState, a: Action): (r: CellsState)
    ensures a.SetWorldCells? ==> r == s.(worldCells := a.cells)
    ensures a.SetLoading? ==> r.worldCells == s.worldCells && r.error == s.error && r.loading == a.loading
    ensures a.SetError? ==> r.worldCells == s.worldCells && r.loading == s.loading && r.error == a.error
    ensures a.UpdateWorldCell? ==> (r.loading == s.loading && r.error == s.error && a.cell in r.worldCells
      && |s.worldCells| <= |r.worldCells| <= |s.worldCells| + 1)
    // an update replaces the cell with the same id in place, or appends it
    ensures a.UpdateWorldCell? ==> r == s.(worldCells := Upsert(s.worldCells, a.cell))
    ensures a.Reset? ==> r == Initial
    ensures a.Unrecognised? ==> r == s
  {
    match a
    case SetWorldCells(cells) => s.(worldCells := cells)
    case SetLoading(l) => s.(loading := l)
    case SetError(e) => s.(error := e)
    case UpdateWorldCell(c) => s.(worldCells := Upsert(s.worldCells, c))
    case Reset => Initial
    case Unrecognised => s
  }

  /** Reset forgets everything: whatever came before, the same state. */
  lemma {:induction false} ResetForgetsHistory(s: CellsState, t: CellsState, a: Action)
    ensures Reduce(Reduce(s, a), Reset) == Reduce(t, Reset)
    ensures Reduce(s, Reset).worldCells == [] && !Reduce(s, Reset).loading
  {
  }

  /** The dispatch sequence of a load or create: loading on and error
      cleared, then the outcome, then loading off in `finally`. */
  function Settle(s: CellsState, outcome: Action): (r: CellsState)
    ensures !r.loading
  {
    Reduce(Reduce(Reduce(Reduce(s, SetLoading(true)), SetError(None)), outcome), SetLoading(false))
  }

  /** `loadWorldCells`: nothing at all when cells are cached; otherwise the
      fetched list or the error, and loading off either way. */
  function LoadWorldCells(s: CellsState, reply: Settled<seq<WorldCell>>): (r: CellsState)
    ensures |s.worldCells| > 0 ==> r == s
    ensures |s.worldCells| == 0 ==> !r.loading
    ensures |s.worldCells| == 0 && reply.Resolved? ==> r.worldCells == reply.value && r.error.None?
    ensures |s.worldCells| == 0 && !reply.Resolved? ==> r.worldCells == [] && r.error == Some(ErrorText(reply, LoadFailed))
  {
    if |s.worldCells| > 0 then s
    else if reply.Resolved? then Settle(s, SetWorldCells(reply.value))
    else Settle(s, SetError(Some(ErrorText(reply, LoadFailed))))
  }

  /** Once a non-empty list is loaded, later loads change nothing. */
  lemma {:induction false} LoadIsOnce(s: CellsState, first: Settled<seq<WorldCell>>, later: Settled<seq<WorldCell>>)
    requires first.Resolved? && |first.value| > 0
    ensures LoadWorldCells(LoadWorldCells(s, first), later) == LoadWorldCells(s, first)
  {
  }

  /** `loadWorldCellsInArea`: unconditional, replaces the cache on success. */
  function LoadWorldCellsInArea(s: CellsState, reply: Settled<seq<WorldCell>>): (r: CellsState)
    ensures !r.loading
    ensures reply.Resolved? ==> r.worldCells == reply.value && r.error.None?
    ensures !reply.Resolved? ==> r.worldCells == s.worldCells && r.error == Some(ErrorText(reply, LoadAreaFailed))
  {
    if reply.Resolved? then Settle(s, SetWorldCells(reply.value))
    else Settle(s, SetError(Some(ErrorText(reply, LoadAreaFailed))))
  }

  /** `createNewWorldCell`: the created cell is upserted and returned; a
      failure sets the error, leaves the cache alone and returns null. */
  function CreateNewWorldCell(s: CellsState, reply: Settled<WorldCell>): (r: (CellsState, Option<WorldCell>))
    ensures !r.0.loading
    ensures reply.Resolved? ==> r.1 == Some(reply.value) && r.0.error.None? && r.0.worldCells == Upsert(s.worldCells, reply.value)
    ensures !reply.Resolved? ==> r.1.None? && r.0.worldCells == s.worldCells && r.0.error == Some(ErrorText(reply, CreateFailed))
  {
    if reply.Resolved? then (Settle(s, UpdateWorldCell(reply.value)), Some(reply.value))
    else (Settle(s, SetError(Some(ErrorText(reply, CreateFailed)))), None)
  }

  /** A created cell is found by its id afterwards, and ids stay unique. */
  lemma {:induction false} CreatedCellIsCached(s: CellsState, reply: Settled<WorldCell>)
    requires IdsUnique(s.worldCells) && reply.Resolved?
    ensures IdsUnique(CreateNewWorldCell(s, reply).0.worldCells)
    ensures CellById(CreateNewWorldCell(s, reply).0.worldCells, reply.value.id) == Some(reply.value)
  {
    UpsertKeepsIdsUnique(s.worldCells, reply.value);
  }
}

=== FILE: world_store.dfy ===
/** An in-memory stand-in for the relational store the routes and server
    actions use: users with an optional current cell, and world cells that
    are unique by id and by `(x, y)`. */
module WorldStore {
  import opened Types
  import opened Wrappers

  datatype UserRecord = UserRecord(id: UserId, worldCellId: Option<CellId>)

  datatype Store = Store(users: map<UserId, UserRecord>, cells: seq<WorldCell>)

  predicate IdsUnique(cells: seq<WorldCell>) {
    forall i, j :: 0 <= i < j < |cells| ==> cells[i].id != cells[j].id
  }

  predicate CoordsUnique(cells: seq<WorldCell>) {
    forall i, j :: 0 <= i < j < |cells| ==> (cells[i].x, cells[i].y) != (cells[j].x, cells[j].y)
  }

  predicate IdUsed(cells: seq<WorldCell>, id: CellId) {
    exists i | 0 <= i < |cells| :: cells[i].id == id
  }

  /** The store's constraints: unique cell ids, the unique `(x, y)` key, and
      users filed under their own id. */
  predicate Valid(st: Store) {
    && IdsUnique(st.cells)
    && CoordsUnique(st.cells)
    && (forall u :: u in st.users ==> st.users[u].id == u)
  }

  /** `fetchWorldCell(x, y)`: the cell at those coordinates, if any. */
  function CellAt(cells: seq<WorldCell>, x: int, y: int): (r: Option<WorldCell>)
    ensures r.Some? ==> r.value in cells && r.value.x == x && r.value.y == y
    ensures r.None? <==> forall c :: c in cells ==> !(c.x == x && c.y == y)
    ensures r.Some? ==> exists i :: (0 <= i < |cells| && cells[i] == r.value &&
      forall j :: 0 <= j < i ==> !(cells[j].x == x && cells[j].y == y))
  {
    if |cells| == 0 then None
    else if cells[0].x == x && cells[0].y == y then Some(cells[0])
    else
      var r := CellAt(cells[1..], x, y);
      assert r.Some? ==> exists i :: (0 <= i < |cells| && cells[i] == r.value &&
        forall j :: 0 <= j < i ==> !(cells[j].x == x && cells[j].y == y)) by {
        if r.Some? {
          var k :| 0 <= k < |cells[1..]| && cells[1..][k] == r.value &&
            forall j :: 0 <= j < k ==> !(cells[1..][j].x == x && cells[1..][j].y == y);
          assert cells[k + 1] == r.value;
        }
      }
      r
  }

  /** Look a cell up by id. */
  function CellById(cells: seq<WorldCell>, id: CellId): (r: Option<WorldCell>)
    ensures r.Some? ==> r.value in cells && r.value.id == id
    ensures r.None? <==> !IdUsed(cells, id)
  {
    if |cells| == 0 then None
    else if cells[0].id == id then Some(cells[0])
    else
      CellById(cells[1..], id)
  }

  /** The cell a user currently occupies, through the user's relation. */
  function UserCell(st: Store, uid: UserId): Option<WorldCell> {
    if uid in st.users && st.users[uid].worldCellId.Some? then
      CellById(st.cells, st.users[uid].worldCellId.value)
    else None
  }

  /** `updateUser(..., { worldCell: { connect: ... } })`. */
  function Relocate(st: Store, uid: UserId, cellId: CellId): (r: Store)
    requires uid in st.users
    ensures r.cells == st.cells
    ensures r.users.Keys == st.users.Keys
    ensures r.users[uid].worldCellId == Some(cellId)
    ensures forall u :: u in st.users && u != uid ==> r.users[u] == st.users[u]
  {
    st.(users := st.users[uid := st.users[uid].(worldCellId := Some(cellId))])
  }

  /** `createWorldCell` as the store sees it: one more row. */
  function AddCell(st: Store, cell: WorldCell): (r: Store)
    ensures r.users == st.users && r.cells == st.cells + [cell]
  {
    st.(cells := st.cells + [cell])
  }

  /** A new row keeps the store valid when its id is fresh and its
      coordinates are free. */
  lemma {:induction false} AddCellKeepsValid(st: Store, cell: WorldCell)
    requires Valid(st)
    requires !IdUsed(st.cells, cell.id)
    requires CellAt(st.cells, cell.x, cell.y).None?
    ensures Valid(AddCell(st, cell))
  {
    var cs := st.cells + [cell];
    forall i, j | 0 <= i < j < |cs| ensures cs[i].id != cs[j].id && (cs[i].x, cs[i].y) != (cs[j].x, cs[j].y) {
      if j == |cs| - 1 {
        assert cs[i] in st.cells;
      }
    }
  }

  lemma {:induction false} CellByIdUnique(cells: seq<WorldCell>, c: WorldCell)
    requires IdsUnique(cells)
    requires c in cells
    ensures CellById(cells, c.id) == Some(c)
  {
    var r := CellById(cells, c.id);
    var i :| 0 <= i < |cells| && cells[i] == c;
    var j :| 0 <= j < |cells| && cells[j] == r.value;
  }

  lemma {:induction false} CellAtUnique(cells: seq<WorldCell>, c: WorldCell)
    requires CoordsUnique(cells)
    requires c in cells
    ensures CellAt(cells, c.x, c.y) == Some(c)
  {
    var r := CellAt(cells, c.x, c.y);
    var i :| 0 <= i < |cells| && cells[i] == c;
    var j :| 0 <= j < |cells| && cells[j] == r.value;
  }

  lemma {:induction false} RelocateKeepsValid(st: Store, uid: UserId, cellId: CellId)
    requires Valid(st) && uid in st.users
    ensures Valid(Relocate(st, uid, cellId))
  {
  }
}

=== FILE: wrappers.dfy ===
/** Failure-compatible wrappers used throughout the model: `Option` for the
    source's `undefined`/`null`, `Outcome` for an awaited step that either
    completes or rejects with an error. */
module Wrappers {

  datatype Option<+T> = None | Some(value: T) {

    predicate IsFailure() {
      None?
    }

    function PropagateFailure<U>(): Option<U>
      requires None?
    {
      None
    }

    function Extract(): T
      requires Some?
    {
      value
    }

    /** The wrapped value, or `default` when there is none (the source's `x ?? d`). */
    function GetOr(default: T): T {
      match this
      case Some(v) => v
      case None => default
    }
  }

  /** An awaited operation that resolves (`Pass`) or rejects with `error`. */
  datatype Outcome<+E> = Pass | Fail(error: E)

  /** An awaited operation that resolves with a value or throws an `Error`
      carrying `message`. */
  datatype Result<+T> = Ok(value: T) | Err(message: string)
}
